=== FILE: README.md ===
# A model of the movie client's in-memory logic

This project models the logic behind a Next.js streaming-catalog client: a
Portuguese-language front end for movies, TV shows and animes. The client's
own logic is a set of small state machines and list and string transformations,
and the model covers these:

- the per-profile watchlist. Each of four fixed local profiles keeps its
  own list in local storage under `watchlist-<id>`. The model covers adding
  with duplicate suppression, removing, membership, switching profile and
  reloading.
- the two language providers. The validating one accepts only the four
  supported codes and writes nothing before mount. The loose one accepts any
  stored value. Both set the document `lang` attribute to the part of the
  code before `-`.
- the toast store, with its timers.
- the simulated download queue.
- the catalog pages: discover, movies, TV shows, anime and home. For these
  the model covers the genre tables and their fallbacks, the poster URL
  rule, genre rows as order-preserving selections, the trending, classics
  and new-release rows, and filter toggling.
- the genre panel, the featured banner and the content row. The banner
  and the row each have their own watchlist button; the genre panel has
  none.
- the header, the sidebar, the recently watched page, the theme toggle, both
  language switchers and the continue-watching strip.

Each store is an immutable datatype and each handler a pure function from
state to state. The following are parameters:

- the clock (`Date.now()`, `new Date()`);
- `Math.random`, as a function `rand` from a title's id to a natural number;
- date parsing and the locale formatter;
- `encodeURIComponent`;
- the storage read and write outcomes.

Files, one module each:

- `wrappers.dfy` defines `Option` and `Result`.
- `seqs.dfy` and `text.dfy` hold the JavaScript array and string operations the
  client uses. Among them are `filter`, `find`, `slice`, `toLowerCase`,
  `trim`, `includes`, `split`, `Number.parseInt` and number-to-string
  conversion.
- `watchlist.dfy`, `profiles.dfy` and `session.dfy` hold the watchlist and
  profile stores and how they are wired together.
- `languages.dfy`, `language_preference.dfy` and
  `loose_language_preference.dfy` hold the language providers.
- `toasts.dfy` holds the toast store. `downloads.dfy` holds the download page.
- `genres.dfy` and `catalog.dfy` hold the genre tables and the card records.
- The remaining files hold one page or component each.

## Model

| member | source | states |
|---|---|---|
| Watchlist.Count | hooks/use-watchlist.tsx:85 | the count the sidebar shows is the length of the list |
| Watchlist.Add | hooks/use-watchlist.tsx:47-64 | an absent id is appended as exactly one new last entry carrying the item's fields and the timestamp, announced as added. A present id leaves the list unchanged and is announced as already listed. Afterwards the id is present, and unique ids stay unique |
| Watchlist.Remove | hooks/use-watchlist.tsx:66-75 | every entry with the id is gone and every other entry is kept. An absent id leaves the list unchanged and raises no notice. A present id shortens the list and announces a removal. Unique ids stay unique |
| Watchlist.RemoveDeletesPosition | hooks/use-watchlist.tsx:67-68 | with unique ids, removing the id at position k gives exactly the entries before and after k, in order, and announces that entry's title |
| Watchlist.AddThenRemove | hooks/use-watchlist.tsx:47-68 | adding an absent item and then removing its id restores the original list |
| Watchlist.AddTwiceStoresOnce | hooks/use-watchlist.tsx:48 | adding the same item twice stores it once: the list after the second add equals the list after the first, and its ids remain unique |
| Watchlist.Toggle | components/content-row.tsx:44-55 | the watchlist button inverts membership of the id. An unsaved item is appended with an added notice. A saved one is removed, other entries are kept and a removal is announced. Unique ids stay unique |
| Watchlist.ToggleTwice | components/content-row.tsx:44-55 | two presses on an unsaved item restore the list |
| Profiles.FindUser | hooks/use-user.tsx:63 | a profile is found exactly for ids 1 to 4, and the one found is listed and carries that id |
| Profiles.UsersAreFixed | hooks/use-user.tsx:20-45 | there are four profiles, whose ids are 1, 2, 3 and 4 in order and pairwise distinct |
| Profiles.FindListedUser | hooks/use-user.tsx:20-45 | every listed profile is the one its own id finds |
| Profiles.Initial | hooks/use-user.tsx:50 | before storage is read, the current profile is the first one (id 1) and storage is untouched |
| Profiles.Restore | hooks/use-user.tsx:52-60 | a stored value that parses to a listed id makes that profile current. Any other value, including an absent one, changes nothing. The current profile stays listed |
| Profiles.SwitchUser | hooks/use-user.tsx:62-68 | a listed id becomes current and is stored as its decimal text; an unlisted id changes neither state nor storage |
| Profiles.SwitchThenReload | hooks/use-user.tsx:52-67 | what a switch stores, the next load reads back: a reload starts on the profile switched to |
| Profiles.RestoreIgnoresUnlisted | hooks/use-user.tsx:54-57 | the stored values "abc", "7" and "" leave the first profile current |
| Profiles.RestoreReadsLeadingNumber | hooks/use-user.tsx:55 | the stored value is read as `parseInt` reads it: "2abc" selects profile 2 and " 0x3" selects profile 3 |
| Session.KeyInjective | hooks/use-watchlist.tsx:34 | two profiles share a storage key only when they have the same id |
| Session.Load | hooks/use-watchlist.tsx:33-40 | a profile loads the list stored under its key, or the empty list when nothing is stored |
| Session.Start | hooks/use-watchlist.tsx:33-45 | the intended mount: the profile is restored, its stored list is loaded and written back, and every other key is left unchanged. With duplicate-free stored lists, the store invariant holds. The mount as written differs; see Findings |
| Session.StartAsWritten | hooks/use-watchlist.tsx:33-45 | the mount as the effects run: the restored profile's stored list is shown and written back. When a profile other than 1 is restored, profile 1's key holds the empty list. Every key other than these two is unchanged |
| Session.StartAsWrittenAgreesIff | hooks/use-user.tsx:52-60 | the mount as written agrees with the intended one exactly when profile 1 is restored, or profile 1's stored list is already empty |
| Session.StartAsWrittenLosesProfileOne | hooks/use-watchlist.tsx:43-45 | reloading while profile 2 is current wipes profile 1's one-entry list, which the intended mount keeps |
| Session.AddItem | hooks/use-watchlist.tsx:47-64 | an add changes only the current profile's list and writes it through to that profile's key. The profile and every other key are unchanged, and the invariant is preserved |
| Session.RemoveItem | hooks/use-watchlist.tsx:66-75 | a remove changes only the current profile's list and writes it through. Every other key is unchanged, and the invariant is preserved |
| Session.Switch | hooks/use-watchlist.tsx:33-45 | an unlisted id changes nothing. Switching to another listed profile persists the old list under the old key and shows the new profile's stored list (empty if none). Switching to the current profile keeps the list |
| Session.SwitchFrame | hooks/use-watchlist.tsx:43-45 | a switch writes only the old and new profiles' keys, and the list on screen stays equal to the current profile's stored list |
| Session.SwitchPreservesInv | hooks/use-user.tsx:62-68 | a switch keeps the current profile listed, the screen in step with storage, and every stored list duplicate-free |
| Session.RunPreservesInv | hooks/use-watchlist.tsx:47-68 | any sequence of adds, removes and switches preserves the store invariant |
| Session.RunKeepsOtherProfiles | hooks/use-watchlist.tsx:43-45 | a run of adds and removes leaves every other profile's stored list exactly as it was, and does not change the current profile |
| Session.SwitchAwayAndBack | hooks/use-watchlist.tsx:33-45 | switching to another profile, editing its list and switching back restores exactly the first profile's list |
| Session.SwitchShowsOnlyNewProfile | hooks/use-watchlist.tsx:33-40 | after a switch to another profile, the list on screen depends only on that profile's stored list: two sessions that agree on it show the same list, whatever was on screen before |
| Session.MembershipAfterActions | hooks/use-watchlist.tsx:77-79 | membership holds right after adding an id and fails right after removing it |
| Session.EmptyStorageScenario | hooks/use-watchlist.tsx:33-53 | from empty storage: profile 1 starts with an empty list, and an added item is shown. Profile 2 then shows an empty list, and switching back to profile 1 shows the item again |
| Languages.LangAttribute | lib/language-provider.tsx:46 | the attribute is the prefix of the code before the first "-": it contains no "-", and the code continues with "-" after it or ends there |
| Languages.LangAttributeOfCodes | components/language-provider.tsx:34 | the four supported codes give "pt", "en", "es" and "ru" |
| LanguagePreference.Create | lib/language-provider.tsx:18-26 | the first render holds the default language, is not mounted and has written nothing |
| LanguagePreference.Save | lib/language-provider.tsx:42-51 | unmounted, nothing is written. Mounted with a successful write, the stored value is the language and the attribute its prefix. A failing write is swallowed and changes nothing |
| LanguagePreference.Mount | lib/language-provider.tsx:29-39 | after mount the provider is mounted and adopts the stored value exactly when it is non-empty and supported. Otherwise, including a throwing read, it keeps the language |
| LanguagePreference.SetLanguage | lib/language-provider.tsx:42-51 | the language becomes the code. A new code is persisted only when mounted; an unchanged code writes nothing |
| LanguagePreference.UnsupportedValueIgnored | lib/language-provider.tsx:32-38 | a stored "fr-FR" and a throwing read both leave the default "pt-BR" in effect |
| LanguagePreference.ChangesStayPersisted | lib/language-provider.tsx:42-51 | once mounted and persisted, storage and the attribute follow the language through any sequence of changes |
| LanguagePreference.NothingWrittenBeforeMount | lib/language-provider.tsx:43 | before mount, no sequence of changes writes to storage |
| LanguagePreference.UseLanguage | lib/language-provider.tsx:13-16 | inside a provider the hook reads its language; outside any provider it reads "pt-BR" |
| LooseLanguagePreference.Save | components/language-provider.tsx:32-35 | every save appends the language to the log of writes, and storage and the attribute then agree with it |
| LooseLanguagePreference.Mount | components/language-provider.tsx:22-35 | any non-empty stored value becomes the language, unvalidated; otherwise the default stays. The default is written first |
| LooseLanguagePreference.SetLanguage | components/language-provider.tsx:32-35 | the language becomes the code. A new code is written exactly once; an unchanged code writes nothing |
| LooseLanguagePreference.AdoptsUnsupportedValue | components/language-provider.tsx:26-29 | a stored "fr-FR", though unsupported, becomes the language and sets the attribute "fr", after the default is written |
| LooseLanguagePreference.ChangesStayPersisted | components/language-provider.tsx:32-35 | storage, the attribute and the last write follow the language through any sequence of changes, and writes are only appended |
| LooseLanguagePreference.UseLanguage | components/language-provider.tsx:40-46 | inside a provider the hook gives its language; outside one it fails with the provider message |
| Toasts.ResolveId | lib/use-toast.ts:29 | a truthy given id is kept; an absent, "" or 0 id is replaced by the clock |
| Toasts.Delay | lib/use-toast.ts:38 | the timer delay is the duration, or 3000 when the duration is absent or zero |
| Toasts.Show | lib/use-toast.ts:28-41 | exactly one toast is appended under the resolved id. An expiring toast sets or overwrites the id's timer. An infinite one leaves every timer as it was, so a pending timer for the same id still fires and removes it. Other ids' timers are kept |
| Toasts.StaleTimeoutRemovesInfiniteToast | lib/use-toast.ts:33-40 | after an expiring toast and then an infinite one are shown under one id, the first toast's timer is still held for that id. When it fires, the infinite toast is removed too |
| Toasts.DismissToast | lib/use-toast.ts:45-50 | the toasts with the id go and all others stay. The id's timer is cleared and every other timer is kept |
| Toasts.Expire | lib/use-toast.ts:35-39 | when a timeout for an id fires, no toast with that id is left and every other toast stays. With no toast of that id the toasts are unchanged. The id's map entry is gone and every other entry is unchanged |
| Toasts.ExpireKeepsOrder | lib/use-toast.ts:36 | expiring over a concatenation of toasts expires over each part, so the remaining toasts keep their order |
| Toasts.StaleTimeoutDropsLaterEntry | lib/use-toast.ts:34-40 | after two toasts are shown under one id, a single expiry of that id leaves no toast with it and no map entry for it. So the first timeout to fire also drops the later toast and the later timeout's entry |
| Toasts.Dismiss | lib/use-toast.ts:61-73 | a truthy id dismisses only that id; an absent or falsy id empties both the toasts and the timers |
| Toasts.Merge | lib/use-toast.ts:53 | each field the update carries replaces the toast's field, the id included; the other fields are kept |
| Toasts.Update | lib/use-toast.ts:52-54 | toasts with the id are merged with the props, the others and the timers are unchanged, and the list keeps its length |
| Toasts.Unmount | lib/use-toast.ts:19-26 | unmounting clears every timer and leaves the toasts |
| Toasts.ShowKeepsTimersTracked | lib/use-toast.ts:32-40 | if every held timer belongs to a toast on screen, that still holds after showing a toast |
| Toasts.DismissKeepsTimersTracked | lib/use-toast.ts:45-50 | dismissing keeps every held timer attached to a toast on screen |
| Toasts.UpdateCanOrphanTimer | lib/use-toast.ts:52-54 | an update that changes a toast's id leaves its timer attached to no toast |
| Toasts.ShowThenDismiss | lib/use-toast.ts:28-50 | showing a toast under a fresh id and dismissing it restores the toasts and the timers exactly |
| Toasts.SameMillisecondShareId | lib/use-toast.ts:29 | two id-less toasts in the same millisecond share an id, so one dismissal removes both |
| Toasts.FalsyIdDismissesAll | lib/use-toast.ts:62-72 | dismissing "" or 0 clears everything, exactly as dismissing with no id does |
| Toasts.EmptyUpdateIsIdentity | lib/use-toast.ts:53 | an update carrying no fields changes nothing |
| Downloads.InitialWellFormed | app/downloads/page.tsx:18-59 | the four starting downloads have distinct ids and progress within 0 to 100 |
| Downloads.TickOne | app/downloads/page.tsx:74-91 | a download that is active and below 100 gains 5. If that reaches 100 it is completed, stamped with the tick's time and announced. A download that is not active, or already at 100, is returned unchanged with no message. Progress never decreases and never exceeds 100 |
| Downloads.Completions | app/downloads/page.tsx:73-91 | a tick announces exactly one message for each download it completes, in list order: the messages are those of the completing downloads and no others. When none completes, it announces nothing |
| Downloads.Tick | app/downloads/page.tsx:71-97 | every download ticks once, in place. Bounded progress and unique ids are preserved, and the messages are the completions |
| Downloads.IdleUnchanged | app/downloads/page.tsx:75 | queued, paused and completed downloads are untouched by a tick |
| Downloads.StillDownloading | app/downloads/page.tsx:75-89 | before its last needed tick, an active download is still downloading, 5 points further per tick |
| Downloads.CompletesOnTime | app/downloads/page.tsx:76-87 | on its last needed tick an active download completes at exactly 100, stamped with that tick's time |
| Downloads.CompletedIsFinal | app/downloads/page.tsx:75 | a completed download is never changed by any number of ticks |
| Downloads.Delete | app/downloads/page.tsx:108-109 | the downloads with the id go, every other stays, an absent id changes nothing, and bounded progress is kept |
| Downloads.DeleteKeepsOrder | app/downloads/page.tsx:109 | deleting from a concatenation deletes from each part, so the remaining order is kept |
| Downloads.Flipped | app/downloads/page.tsx:120 | a click moves to paused exactly from downloading, and to downloading from any other shown status |
| Downloads.PauseResume | app/downloads/page.tsx:116-130 | downloads with the id take the flipped status; every other download, and the length, are unchanged |
| Downloads.PauseThenResume | app/downloads/page.tsx:116-130 | pausing a downloading item and then resuming it, each from the status shown, restores the list |
| Downloads.FormatDate | app/downloads/page.tsx:132-133 | a missing or empty stamp reads as a dash; any other stamp goes to the formatter |
| Genres.NameIn | app/discover/page.tsx:486-518 | an id the table lists reads as a name the table gives that id, when the table's names are non-empty. An unlisted id reads as the fallback "Desconhecido" |
| Genres.IdIn | app/discover/page.tsx:521-553 | a name the table lists reads as an id the table gives that name, when the table's ids are non-zero. An unlisted name reads as 0 |
| Genres.FirstName | app/page.tsx:56 | the genre of a title is the name of its first genre id, and "Desconhecido" for an empty id list |
| Genres.FullTableIds | app/discover/page.tsx:487-516 | the full table has 27 entries with distinct, non-zero ids |
| Genres.FullTableNames | app/discover/page.tsx:522-552 | the full table's names are distinct, non-empty and never the fallback |
| Genres.NameOfListed | app/discover/page.tsx:517 | in a table with distinct ids and proper names, every listed id finds its own name |
| Genres.IdOfListed | app/discover/page.tsx:553 | in a table with distinct names and non-zero ids, every listed name finds its own id |
| Genres.RoundTrip | app/discover/page.tsx:486-553 | name and id lookups are inverse on the table: each listed name round-trips through its id, and each listed id through its name |
| Genres.Fallbacks | app/discover/page.tsx:517 | the fallback name has no id, and id 0 reads as the fallback name |
| Genres.FallbackIffUnlisted | app/discover/page.tsx:486-553 | the name lookup falls back exactly for ids the table lacks, and the id lookup exactly for names it lacks |
| Genres.MovieTableIsReduced | app/movies/page.tsx:180-204 | the movies page agrees with the full table on its 19 ids and reads every other id as unknown |
| Genres.TvGenreUnknownToMovies | app/movies/page.tsx:180-204 | id 10765 reads "Sci-Fi & Fantasia" elsewhere but "Desconhecido" on the movies page |
| Catalog.ImageUrl | app/discover/page.tsx:82-84 | a "/placeholder" path is kept; any other path is put behind the image server's base |
| Catalog.PosterUrlKeepsPlaceholders | components/genre-cards.tsx:60-62 | a poster URL is a placeholder path exactly when its source path is one |
| Catalog.PosterUrlInjective | app/movies/page.tsx:56-58 | distinct poster paths give distinct URLs, so the path can be read back |
| Catalog.FirstGenre | app/anime/page.tsx:115 | an anime's label is its first genre, and empty when it has none |
| Catalog.Draw | app/tvshows/page.tsx:60 | a random draw lies between base and base plus n, excluding the upper end |
| Catalog.DrawReachesAll | app/anime/page.tsx:58 | every value of the drawn range is reachable |
| Catalog.MovieItem | app/page.tsx:59-68 | a movie card has the movie's id, its title, the poster URL, its rating and one episode |
| Catalog.ShowItem | app/page.tsx:48-57 | a show card is titled by the show's name and uses the poster URL |
| Catalog.AnimeItem | app/page.tsx:70-77 | an anime card passes the image through unchanged and is rated by score |
| Catalog.Row | app/movies/page.tsx:51-62 | a row holds exactly the cards of the passing titles: each card comes from a passing title, and each passing title has its card |
| Catalog.RowConcat | app/movies/page.tsx:51-52 | the row of a concatenation is the concatenation of the rows, so the catalog order is kept |
| Catalog.Front | app/page.tsx:48 | the first n titles, in order, or all of them when fewer |
| MoviesPage.GenreRow | app/movies/page.tsx:51-88 | a genre row holds exactly the cards of the movies whose ids include the genre id, each with one episode and the row's label |
| MoviesPage.GenreOf | app/movies/page.tsx:123 | a popular movie's label comes from this page's reduced table, or is the fallback for an empty id list |
| MoviesPage.Popular | app/movies/page.tsx:115-124 | the popular row shows the first five movies, or all of them when there are fewer, in order, labelled through the reduced table |
| MoviesPage.PopularNamesTvGenreUnknown | app/movies/page.tsx:123 | a movie whose first genre is 10765 is labelled "Desconhecido" here and "Sci-Fi & Fantasia" on other pages |
| TvShowsPage.GenreRow | app/tvshows/page.tsx:51-88 | a genre row holds exactly the cards of the shows carrying the genre id, with 5 to 24 episodes and the row's label |
| TvShowsPage.RowTitlesAreNames | app/tvshows/page.tsx:55 | every card of a genre row is titled with the name of a show of that genre |
| TvShowsPage.Popular | app/tvshows/page.tsx:115-124 | the first five shows, or all of them when there are fewer, in order, titled by name and labelled by first genre |
| AnimePage.GenreRow | app/anime/page.tsx:51-82 | a row holds exactly the cards of the animes listing the genre name, with 12 to 35 episodes and the row's label |
| AnimePage.RowImagesPassThrough | app/anime/page.tsx:56 | every card of a genre row shows, unchanged, the image of an anime of that genre |
| AnimePage.Popular | app/anime/page.tsx:109-116 | the first five animes, or all of them when there are fewer, in order, with unchanged images, labelled by first genre |
| HomePage.PopularItems | app/page.tsx:48-57 | the first five shows at most, in order, titled by name |
| HomePage.TrendingItems | app/page.tsx:59-68 | the first five movies at most, in order, each one episode long |
| HomePage.AnimeItems | app/page.tsx:70-77 | the first five animes at most, in order, rated by score and labelled by first genre |
| HomePage.UntaggedMovieIsUnknown | app/page.tsx:183 | a movie without genre ids is labelled "Desconhecido" |
| Discover.Doubled | app/discover/page.tsx:71-78 | the list followed by copies of its first ten, all cut to twenty: the originals come first, then the shifted copies |
| Discover.TrendingMovies | app/discover/page.tsx:71-88 | trending movies are the movie cards, then copies of the first ten under ids offset by 1000, at most twenty, each with one episode |
| Discover.TrendingShows | app/discover/page.tsx:91-108 | the same with offset 2000, titled by name, with 5 to 24 episodes |
| Discover.PopularAnimes | app/discover/page.tsx:111-126 | the same with offset 3000, with images passed through and 12 to 35 episodes |
| Discover.TrendingMovieIdsUnique | app/discover/page.tsx:74-75 | the offset copies have no duplicate ids when no two movie ids differ by exactly 1000 |
| Discover.TrendingMovieIdsCanCollide | app/discover/page.tsx:75 | two movies whose ids differ by 1000 make the trending list repeat an id |
| Discover.TrendingRow | app/discover/page.tsx:393-398 | the trending row holds at most five of each trending list, so its length is the sum of the three capped lengths. By position, the first trending movies come first, then the first trending shows, then the first popular animes |
| Discover.TrendingRowOpensWithMovies | app/discover/page.tsx:71-78 | while there are movies left among the first five, the trending row shows the movies themselves, in list order, as one-episode cards. The offset copies never come first |
| Discover.Groups | app/discover/page.tsx:129-148 | every entry is a listed genre with a non-empty row and holds that row, and every listed genre with a non-empty row has its entry. The entries' genres are exactly the genres with non-empty rows, in list order, each once as often as it is listed |
| Discover.MovieGenreRow | app/discover/page.tsx:131-143 | a genre's row holds exactly the cards of the movies whose ids include the genre's id |
| Discover.MovieGroupsAreSound | app/discover/page.tsx:130-147 | every grouped genre is listed, non-empty, and each of its cards is the card of a movie carrying the genre's id |
| Discover.ShowGenreRow | app/discover/page.tsx:152-164 | a genre's row holds exactly the cards of the shows carrying the genre's id |
| Discover.AnimeGenreRow | app/discover/page.tsx:173-183 | a genre's row holds exactly the cards of the animes listing the genre name itself |
| Discover.GenreListIsListed | app/discover/page.tsx:38-57 | every grouped genre has an entry in the id table, so it never reads id 0 |
| Discover.ShownRows | app/discover/page.tsx:403-405 | the movie or show rows drawn are the first four qualifying groups, in order, or all of them when fewer qualify. A group qualifies when it is named and holds at least three cards |
| Discover.ShownAnimeRows | app/discover/page.tsx:419-421 | the anime rows drawn are the first three groups holding at least three cards, in order, or all of them when fewer qualify |
| Discover.ShownRowsAreFirstQualifying | app/discover/page.tsx:402-407 | a movie or show genre row is drawn exactly for the first four genres, in list order, that are not "Desconhecido" and have at least three cards |
| Discover.ShownAnimeRowsAreFirstQualifying | app/discover/page.tsx:418-423 | an anime genre row is drawn exactly for the first three genres, in list order, that have at least three cards |
| Discover.UnknownNotGrouped | app/discover/page.tsx:38-57 | "Desconhecido" is not a grouped genre |
| Discover.UnknownGuardNeverFires | app/discover/page.tsx:404 | the "Desconhecido" test never removes a movie row: the rows drawn are those the size test alone selects |
| Discover.ClassicOf | app/discover/page.tsx:191-200 | a classic card is the usual card under an offset id, with " (Clássico)" appended to its title |
| Discover.ClassicMovies | app/discover/page.tsx:191-200 | the first five movies at most, under ids offset by 5000, titled as classics |
| Discover.ClassicShows | app/discover/page.tsx:201-210 | the first five shows at most, under ids offset by 6000, titled by name as classics |
| Discover.ClassicAnimes | app/discover/page.tsx:211-218 | the first five animes at most, under ids offset by 7000, titled as classics |
| Discover.Classics | app/discover/page.tsx:190-219 | the classics row has five of each list at most, so its length is the sum of the three capped lengths |
| Discover.ClassicsLayout | app/discover/page.tsx:190-219 | the classics row is the movies, then the shows, then the animes, with offsets 5000, 6000 and 7000 |
| Discover.JsSliceFrom | app/discover/page.tsx:223 | `slice(start)` drops the first start elements. A negative start counts back from the end, and past the front it keeps everything |
| Discover.LastN | app/discover/page.tsx:222-251 | the last n elements, or all of them when there are fewer |
| Discover.LastFiveAsWrittenDropsTitles | app/discover/page.tsx:223 | with three titles the written slice keeps two; with four it keeps one |
| Discover.LastFiveAsWrittenAgreesIff | app/discover/page.tsx:223 | the written slice equals the last five exactly when the list does not have three or four titles |
| Discover.NewReleasesAsWrittenCounterexample | app/discover/page.tsx:222-232 | with four movies the written row shows only the last movie |
| Discover.LastCards | app/discover/page.tsx:233-242 | the cards of the last five titles at most, in list order |
| Discover.NewReleases | app/discover/page.tsx:222-251 | the new-release row has the last five of each list at most, so its length is the sum of the capped lengths |
| Discover.NewReleasesMoviesFirst | app/discover/page.tsx:223-232 | the row opens with the last movies, in list order, one episode each |
| Discover.NewReleasesShowsNext | app/discover/page.tsx:233-242 | then come the last shows, in list order, with 1 to 10 episodes |
| Discover.NewReleasesAnimesLast | app/discover/page.tsx:243-250 | then the last animes, in list order, with 1 to 10 episodes |
| Discover.NewTabAsWritten | app/discover/page.tsx:464-471 | the new-tab rows as written: every card comes from the releases. Movie cards have one episode, series cards more, and anime cards are picked by title or genre text |
| Discover.NewTabAsWrittenMisfiles | app/discover/page.tsx:464-471 | an anime whose title and genre do not mention "Anime" is filed under series. A show drawn with one episode is filed under movies |
| Discover.NewTab | app/discover/page.tsx:464-471 | the new tab's rows are the movie, show and anime segments of the new releases, in order, each of its list's capped length |
| Discover.ToggleFilter | app/discover/page.tsx:260-266 | a filter is active afterwards exactly when it was not before. Every other filter is unaffected, and an absent filter is appended |
| Discover.ToggleTwice | app/discover/page.tsx:260-266 | toggling an absent filter twice restores the filter list |
| Discover.ToggleRemovesInPlace | app/discover/page.tsx:260-261 | toggling a filter listed once deletes it in place: the filters before and after it keep their order |
| GenreCards.GenreIdMapsTable | components/genre-cards.tsx:20-52 | the panel's table finds each listed name's id, and 0 for any other name |
| GenreCards.YearOf | components/genre-cards.tsx:64 | the year reads "N/A" exactly for a missing date, and otherwise is the date's full year |
| GenreCards.FilteredMovies | components/genre-cards.tsx:55-65 | exactly the cards of the movies whose ids include the id the panel's table gives the genre |
| GenreCards.FilteredShows | components/genre-cards.tsx:67-77 | exactly the cards of the shows whose ids include the id the panel's table gives the genre |
| GenreCards.FilteredAnimes | components/genre-cards.tsx:79-87 | exactly the cards of the animes whose genres list the genre name |
| GenreCards.FilteredMoviesKeepOrder | components/genre-cards.tsx:55-56 | filtering a concatenation filters each part, so the catalog order is kept |
| GenreCards.MovieCardFields | components/genre-cards.tsx:57-65 | a movie card carries the poster URL and reads "N/A" exactly when there is no release date |
| GenreCards.UnknownGenreFindsNoMovie | components/genre-cards.tsx:52-56 | an unknown genre name finds no movie, because no real genre id is 0 |
| GenreCards.Tab | components/genre-cards.tsx:108-145 | a tab shows five skeletons exactly while loading. Otherwise it shows the first ten cards at most, or its message exactly when the list is empty |
| GenreCards.Panel | components/genre-cards.tsx:89-219 | while any list loads, all three tabs show skeletons. Once all have arrived, each tab shows the first ten cards of its filtered list, in order, or its message naming the genre when that list is empty |
| GenreCards.LoadedMovieTab | components/genre-cards.tsx:108-144 | once loaded, the movies tab reports nothing found exactly when no movie carries the genre's id, and every card it shows belongs to a movie that does |
| GenreCards.OneSlowListBlanksAllTabs | components/genre-cards.tsx:89 | one list still loading blanks every tab, including tabs whose lists have arrived |
| FeaturedContent.Title | app/components/featured-content.tsx:72-80 | a show is titled by name, and a movie or anime by title |
| FeaturedContent.Image | app/components/featured-content.tsx:82-89 | movies and shows use the full-size backdrop rule, and animes their cover image as is |
| FeaturedContent.BackdropRule | app/components/featured-content.tsx:84-87 | a placeholder backdrop is kept. Any other is put behind the full-size image server and can be read back from the URL |
| FeaturedContent.GenreLine | app/components/featured-content.tsx:99-107 | the first two genres joined by ", ", with ids named through the genre table for movies and shows |
| FeaturedContent.GenreLineOfListedIds | app/components/featured-content.tsx:104-105 | genre ids 28 and 12 read "Ação, Aventura" |
| FeaturedContent.GenreLineOfUnknownId | app/components/featured-content.tsx:191 | an unknown id reads "Desconhecido" |
| FeaturedContent.KindLabel | app/components/featured-content.tsx:132 | the label is "Filme", "Série" or "Anime" exactly for a movie, show or anime |
| FeaturedContent.Item | app/components/featured-content.tsx:57-62 | the saved entry has the title's id, its title, its kind and its image |
| FeaturedContent.HandleWatchlist | app/components/featured-content.tsx:56-69 | the button inverts membership: an unsaved title is appended with its fields. A saved one is no longer listed, every other entry is kept and nothing new is added. Unique ids stay unique |
| FeaturedContent.PressTwice | app/components/featured-content.tsx:56-69 | two presses on an unsaved title restore the list |
| FeaturedContent.PlayNotice | app/components/featured-content.tsx:49-54 | the play notice names the title and lasts two seconds |
| ContentRow.KindFor | components/content-row.tsx:51 | the saved kind is anime exactly when the lower-cased heading contains "anime", otherwise a show, and never a movie |
| ContentRow.Item | components/content-row.tsx:48-53 | the saved entry copies the card's id and title and uses its image as poster |
| ContentRow.HandleWatchlist | components/content-row.tsx:44-55 | the button inverts membership. An unsaved card is appended with the guessed kind. Removing a saved card keeps every other entry and adds nothing. Unique ids stay unique |
| ContentRow.PressTwice | components/content-row.tsx:44-55 | two presses on an unsaved card restore the list |
| ContentRow.MovieSavedAsShow | components/content-row.tsx:51 | a movie saved from the "Filmes" row is stored as a show |
| ContentRow.MixedCaseHeadingSavesAnime | components/content-row.tsx:51 | a heading containing "AnImE", or any other casing of it, saves animes |
| ContentRow.PlayNotice | components/content-row.tsx:57-62 | the play notice names the card and lasts two seconds |
| ContentRow.EpisodeKey | components/content-row.tsx:105 | the label is singular exactly for one episode, so zero reads as plural |
| Header.ActiveTab | app/components/header.tsx:35-40 | the first of "/movies", "/tvshows" and "/anime" that the path starts with names the tab. No path, or any other path, gives none |
| Header.TabPath | app/components/header.tsx:44-46 | a tab's path starts with "/" and is one character longer than the tab |
| Header.TabRoundTrip | app/components/header.tsx:35-46 | each tab's path highlights that same tab |
| Header.TabIffPrefix | app/components/header.tsx:36-38 | the prefixes are disjoint: a path highlights a tab exactly when it starts with that tab's prefix |
| Header.HandleSearch | app/components/header.tsx:48-57 | a query blank after trimming does nothing. Any other goes to "/search?q=" with the encoded, untrimmed query and raises a two-second notice quoting it |
| Header.BlankSearchIgnored | app/components/header.tsx:50 | an empty or all-space query is ignored |
| Header.SearchPathInjective | app/components/header.tsx:51 | with an injective encoder, the query can be read back from the search path |
| Sidebar.ActiveRules | app/components/sidebar.tsx:56-59 | "/" is active only on "/" itself. Any other item is active on every path it prefixes, and nothing is active without a path |
| Sidebar.Init | app/components/sidebar.tsx:40-42 | the sidebar starts open exactly when not on mobile |
| Sidebar.Toggle | app/components/sidebar.tsx:44 | toggling flips the open state only |
| Sidebar.ToggleTwice | app/components/sidebar.tsx:44 | toggling twice restores the state |
| Sidebar.Navigate | app/components/sidebar.tsx:46-49 | navigation goes to the path and closes the sidebar on mobile only; on desktop the state is unchanged |
| Sidebar.NavigationOnMobileCloses | app/components/sidebar.tsx:46-49 | on mobile, after any navigation, the sidebar stays closed through further navigation |
| Sidebar.Badge | app/components/sidebar.tsx:195 | the badge appears exactly for a positive count, and its text reads back as the count |
| Sidebar.BadgeInjective | app/components/sidebar.tsx:195 | different counts show different badges |
| Sidebar.ShowToast | app/components/sidebar.tsx:51-53 | a sidebar notice carries the message and lasts two seconds |
| Recent.DiffDays | app/recent/page.tsx:80 | the day count brackets the elapsed time: that many whole days have passed, and fewer than one more |
| Recent.DiffDaysIsFloor | app/recent/page.tsx:80 | the day count is the only integer that brackets the elapsed time |
| Recent.WatchedLabel | app/recent/page.tsx:77-95 | day 0 reads "Hoje" and day 1 "Ontem". Any other count below 7, negatives included, reads "n dias atrás", and from 7 days on the formatted date |
| Recent.LabelsByElapsedTime | app/recent/page.tsx:80-94 | the first 24 hours read "Hoje" and the next 24 "Ontem". A week or more reads as a date, and a future time reads as a negative count |
| Recent.RelativeLabelsDistinguishDays | app/recent/page.tsx:87 | two "n dias atrás" labels agree only for the same day count |
| Recent.ProgressLabel | app/recent/page.tsx:143 | "Concluído" at exactly 100; otherwise the percentage followed by "% assistido" |
| Recent.ActionLabel | app/recent/page.tsx:152 | "Assistir novamente" exactly at 100, "Continuar" otherwise |
| Recent.LabelsAgree | app/recent/page.tsx:143-152 | the line reads finished exactly when the button offers to watch again, and an unfinished line's number parses back to the progress |
| Recent.KindLabel | app/recent/page.tsx:126 | "Filme" exactly for "movie" and "Série" exactly for "tvshow"; any other type reads "Anime" |
| Recent.InitialItemsWellFormed | app/recent/page.tsx:16-57 | the starting entries have distinct ids and progress within 0 to 100, and exactly the movies are finished |
| ThemeToggle.NewTheme | components/theme-toggle.tsx:21 | "dark" becomes "light"; every other theme, "system" included, becomes "dark" |
| ThemeToggle.ToggleTwice | components/theme-toggle.tsx:21 | from "dark" or "light", toggling twice returns to the start |
| ThemeToggle.Toggle | components/theme-toggle.tsx:20-27 | the notice says "escuro" exactly when the new theme is dark and "claro" exactly when it is light, and lasts two seconds |
| ThemeToggle.Render | components/theme-toggle.tsx:29-34 | nothing is drawn before mount; after it, the moon exactly for dark and the sun otherwise |
| ThemeToggle.IconMatchesNotice | components/theme-toggle.tsx:20-34 | after a toggle the icon drawn is the moon exactly when the notice says "escuro" |
| ContinueWatching.InitialItemsWellFormed | components/continue-watching.tsx:14-39 | the starting items have distinct ids and progress within 0 to 100 |
| ContinueWatching.Drop | components/continue-watching.tsx:48-49 | the items with the id go and all others stay. An absent id changes nothing, and with unique ids a present one removes exactly one item |
| ContinueWatching.DropDeletesPosition | components/continue-watching.tsx:49 | with unique ids, dropping the id at position k leaves the items before and after it, in order |
| ContinueWatching.DropKeepsOrder | components/continue-watching.tsx:49 | dropping from a concatenation drops from each part, so the order is kept |
| ContinueWatching.DropKeepsUnique | components/continue-watching.tsx:49 | dropping keeps ids unique |
| ContinueWatching.DropIdempotent | components/continue-watching.tsx:49 | dropping the same id twice drops nothing more |
| ContinueWatching.DropsCommute | components/continue-watching.tsx:49 | two drops give the same list in either order |
| ContinueWatching.DropNotice | components/continue-watching.tsx:50-53 | a drop raises the same two-second notice whatever was dropped |
| ContinueWatching.PlayNotice | components/continue-watching.tsx:41-46 | the notice names the title and lasts two seconds |
| LanguageSwitcher.FlagsTable | app/components/language-switcher.tsx:15-36 | four options whose codes are the supported codes in order, with distinct, non-empty flags and distinct names |
| LanguageSwitcher.CurrentFlag | app/components/language-switcher.tsx:44 | a supported language shows its own flag; any other shows the Brazilian flag |
| LanguageSwitcher.FlagIdentifiesLanguage | components/language-switcher.tsx:42 | two supported languages showing the same flag are the same language |
| LanguageSwitcher.UnsupportedShowsDefault | components/language-switcher.tsx:42 | "fr-FR" shows the Brazilian flag |
| LanguageSwitcher.ToggleOpen | app/components/language-switcher.tsx:73 | the trigger flips the open state and leaves the language alone |
| LanguageSwitcher.MouseDown | app/components/language-switcher.tsx:47-56 | a press outside closes the dropdown; one inside changes nothing |
| LanguageSwitcher.LabelOf | app/components/language-switcher.tsx:62 | a name is found exactly for a supported code, and it is that code's name |
| LanguageSwitcher.Choose | app/components/language-switcher.tsx:58-65 | choosing sets the language through the provider and closes the dropdown. It also announces the chosen language's name for two seconds |
| LanguageSwitcher.ChoiceShowsItsFlag | app/components/language-switcher.tsx:58-82 | after choosing an option, the trigger shows that option's flag |
| LanguageSwitcher.OpenChange | components/language-switcher.tsx:45 | the open state is exactly what the dropdown reports |
| LanguageSwitcher.Pick | components/language-switcher.tsx:71 | picking sets the language to exactly the item's code, through the loose provider |
| LanguageSwitcher.PickCurrentWritesNothing | components/language-switcher.tsx:71 | picking the current language changes nothing |
| Text.ParseIntOfIntToString | hooks/use-user.tsx:56 | `parseInt` reads back the decimal text of every integer |
| Text.ParseIntStopsAtNonDigit | hooks/use-user.tsx:56 | `parseInt` stops at the first non-digit: "2abc" reads as 2 |
| Text.ParseIntHex | hooks/use-user.tsx:56 | leading spaces are skipped and a "0x" prefix reads hexadecimal: " 0x3" reads as 3 |
| Text.ParseIntNoDigits | hooks/use-user.tsx:56 | text with no leading digits, such as "abc", parses to nothing |
| Text.IntToStringInjective | hooks/use-watchlist.tsx:34 | different ids have different decimal texts |

## Left out

- React scheduling is not modelled. Effects, stale closures and batching are out, including the transient write of the old list under the new profile's key during a profile switch. A switch is one atomic step: persist the old list, load the new one. The one effect ordering that leaves a lasting mark, the mount, is modelled on its own as Session.StartAsWritten.
- JSON serialisation of stored lists is not modelled: a stored list is kept as the list itself. A stored value that is not valid JSON (the parse would throw) is not modelled.
- Clocks and timers are parameters. `Date.now()`, `new Date().toISOString()`, `setTimeout` and `setInterval` become an explicit time or an explicit tick or expiry event.
- Date parsing, `getFullYear` and `Intl.DateTimeFormat` are parameters.
- `Math.random` is a parameter `rand` keyed by the title's id. Each card's draw is `rand(id) % n + base`, so the model does not capture two draws for the same id differing.
- Ratings (`vote_average`, `score`) are passed through as reals. No floating-point rounding is modelled.
- Genre tables are looked up by exact key. Inherited object keys such as "constructor" are not modelled.
- `toLowerCase` lowers ASCII letters only.
- `parseInt` uses unbounded integers, with no precision loss on long digit strings.
- `encodeURIComponent` is a parameter.
- The toast `action` node is not modelled, nor is any rendering, animation, scrolling, hover state or image loading.
- The network catalog fetch and its loading flags are inputs: the lists and the three loading booleans are parameters.
- The dropdown library may close the menu on its own after a selection. This is its own behaviour, reported through `onOpenChange`, and is not modelled.
- The recently watched page's play button raises the same notice as the continue-watching card. That notice is defined once, as ContinueWatching.PlayNotice.
- The download page's play notice and its "Download removido" notice are fixed two-second toasts and are not modelled separately. The pause/resume notice text is modelled.
- Discover.Classics: its contract states only the row's length; what each position holds is stated by Discover.ClassicsLayout.
- Discover.NewReleases: its contract states only the row's length; what each position holds is stated by Discover.NewReleasesMoviesFirst, Discover.NewReleasesShowsNext and Discover.NewReleasesAnimesLast.
- Header.TabPath: its contract states only the shape of the path; that a tab's path highlights the same tab is stated by Header.TabRoundTrip.
- The pure-presentation pages and components are not part of this model.
- The featured banner, the sidebar and the header read the watchlist and the profile through lib/use-watchlist.tsx and lib/use-user.tsx. These hooks read the contexts of lib/watchlist-provider and lib/user-provider, which the root layout mounts. Those two providers are not part of this model. FeaturedContent.HandleWatchlist, Sidebar.Badge and the header's profile switch are modelled on the assumption that the providers behave like hooks/use-watchlist.tsx and hooks/use-user.tsx. That is the store the Watchlist, Profiles and Session modules model.
- A throwing localStorage is modelled only for the validating language provider, which catches the error. The other storage calls have no try/catch, so a throwing read or write would crash the component. These are the loose provider's read and write, the watchlist's read and write, and the profile's read and write. LooseLanguagePreference.Mount, LooseLanguagePreference.Save, Session.Load, Session.Start, Session.AddItem, Session.RemoveItem, Session.Switch, Profiles.Restore and Profiles.SwitchUser assume that storage never throws.

## Findings

| source | as written | input that shows it | evidently intended | confidence | as-written member | corrected member |
|---|---|---|---|---|---|---|
| app/discover/page.tsx:222-251 | each list is cut with `slice(length - 5)`. With three or four titles the start is negative and counts back from the end a second time | four movies: `slice(-1)` keeps only the last movie instead of all four; with three, two are kept | the last five titles, or all of them when there are fewer | high, not executed | Discover.LastFiveAsWrittenAgreesIff | Discover.NewReleases |
| app/discover/page.tsx:464-471 | the "new" tab files each card by its episode count and by the text "Anime" in its title or genre. The card's source list is not used | an anime "Naruto" of genre "Ação" drawn with 5 episodes is filed under series and not under animes; a show drawn with 1 episode is filed under movies | the movie, show and anime segments of the new releases, each in its own row | medium, not executed | Discover.NewTabAsWrittenMisfiles | Discover.NewTab |
| hooks/use-watchlist.tsx:43-45 | the save effect runs on the first commit, before the parent profile provider restores the stored profile, and writes the initial empty list under profile 1's key. Later writes go to the restored profile's key | a reload with `currentUserId` "2" and a non-empty list under "watchlist-1": afterwards "watchlist-1" holds "[]" | a reload leaves every other profile's list as stored | high, not executed | Session.StartAsWrittenLosesProfileOne | Session.Start |

=== FILE: anime_page.dfy ===
/** The anime page, app/anime/page.tsx: three rows picked by genre name and
    the popular row of the first five animes. Anime images are passed
    through unchanged; episode counts are random draws in 12..35. */
module AnimePage {
  import opened Catalog

  /** The card of an anime labelled `genreLabel`. */
  function Card(genreLabel: string, rand: int -> nat): Anime -> ContentItem {
    (a: Anime) => AnimeItem(a, Draw(rand, a.id, 24, 12), genreLabel)
  }

  /** A genre row: the animes whose `genres` include `name`, in order, each
      labelled `name` and showing its own image. */
  function GenreRow(animes: seq<Anime>, name: string, rand: int -> nat): (r: seq<ContentItem>)
    ensures Selects(r, animes, AnimeHasGenre(name), Card(name, rand))
    ensures forall i :: 0 <= i < |r| ==> 12 <= r[i].episodes <= 35 && r[i].genre == name
  {
    Row(animes, AnimeHasGenre(name), Card(name, rand))
  }

  /** Every card of a genre row shows the unchanged image of an anime of that
      genre. */
  lemma RowImagesPassThrough(animes: seq<Anime>, name: string, rand: int -> nat, i: nat)
    requires i < |GenreRow(animes, name, rand)|
    ensures exists j :: 0 <= j < |animes| && name in animes[j].genres && GenreRow(animes, name, rand)[i].image == animes[j].image
  {
    var r := GenreRow(animes, name, rand);
    assert Selects(r, animes, AnimeHasGenre(name), Card(name, rand));
    assert exists j :: 0 <= j < |animes| && AnimeHasGenre(name)(animes[j]) && r[i] == Card(name, rand)(animes[j]);
    var j :| 0 <= j < |animes| && AnimeHasGenre(name)(animes[j]) && r[i] == Card(name, rand)(animes[j]);
    assert r[i].image == animes[j].image;
  }

  function ActionRow(animes: seq<Anime>, rand: int -> nat): seq<ContentItem> {
    GenreRow(animes, "Ação", rand)
  }

  function FantasyRow(animes: seq<Anime>, rand: int -> nat): seq<ContentItem> {
    GenreRow(animes, "Fantasia", rand)
  }

  function ComedyRow(animes: seq<Anime>, rand: int -> nat): seq<ContentItem> {
    GenreRow(animes, "Comédia", rand)
  }

  function PopularCard(rand: int -> nat): Anime -> ContentItem {
    (a: Anime) => AnimeItem(a, Draw(rand, a.id, 24, 12), FirstGenre(a.genres))
  }

  /** The popular row: the first five animes at most, labelled with their
      first genre and showing their own image. */
  function Popular(animes: seq<Anime>, rand: int -> nat): (r: seq<ContentItem>)
    ensures |r| == if |animes| < 5 then |animes| else 5
    ensures forall i :: 0 <= i < |r| ==> r[i].id == animes[i].id && r[i].image == animes[i].image
    ensures forall i :: 0 <= i < |r| ==> r[i].genre == FirstGenre(animes[i].genres)
  {
    Front(animes, 5, PopularCard(rand))
  }
}

=== FILE: catalog.dfy ===
/** The catalog records of lib/use-api.tsx and the card item every row of
    the client renders (components/content-row.tsx), with the rules the pages
    share to turn one into the other: the poster URL rule, the first genre,
    and a row as the order-preserving selection of the titles that pass a
    test. Ratings are kept as opaque reals. `Math.random()` is modelled by
    a parameter `rand`, an arbitrary stream of naturals: the draw
    `floor(Math.random() * n)` for the title with id `k` is `rand(k) % n`,
    which reaches every value in 0..n-1 and nothing else. */
module Catalog {
  import Seqs
  import Text

  datatype Movie = Movie(id: int, title: string, posterPath: string, backdropPath: string, voteAverage: real, overview: string, releaseDate: string, genreIds: seq<int>)

  datatype TvShow = TvShow(id: int, name: string, posterPath: string, backdropPath: string, voteAverage: real, overview: string, firstAirDate: string, genreIds: seq<int>)

  datatype Anime = Anime(id: int, title: string, image: string, coverImage: string, score: real, description: string, startDate: string, genres: seq<string>)

  /** The card shown in a row. */
  datatype ContentItem = ContentItem(id: int, title: string, image: string, rating: real, episodes: int, genre: string)

  const PlaceholderPrefix: string := "/placeholder"
  const PosterBase: string := "https://image.tmdb.org/t/p/w300"
  const BackdropBase: string := "https://image.tmdb.org/t/p/original"

  /** A local placeholder path is kept as it is; any other path is put behind
      the image server's `base`. */
  function ImageUrl(base: string, path: string): (r: string)
    ensures Text.StartsWith(path, PlaceholderPrefix) ==> r == path
    ensures !Text.StartsWith(path, PlaceholderPrefix) ==> r == base + path
  {
    if Text.StartsWith(path, PlaceholderPrefix) then path else base + path
  }

  /** The poster URL every movie and show card uses. */
  function PosterUrl(path: string): string {
    ImageUrl(PosterBase, path)
  }

  /** A URL is a placeholder path exactly when its source path was, since the
      image server's address never starts with "/placeholder". */
  lemma PosterUrlKeepsPlaceholders(path: string)
    ensures Text.StartsWith(PosterUrl(path), PlaceholderPrefix) <==> Text.StartsWith(path, PlaceholderPrefix)
  {
    if !Text.StartsWith(path, PlaceholderPrefix) {
      assert PosterUrl(path)[0] == 'h';
    }
  }

  /** Different poster paths never give the same URL: the path can always be
      read back from the URL. */
  lemma PosterUrlInjective(a: string, b: string)
    requires PosterUrl(a) == PosterUrl(b)
    ensures a == b
  {
    PosterUrlKeepsPlaceholders(a);
    PosterUrlKeepsPlaceholders(b);
    if !Text.StartsWith(a, PlaceholderPrefix) {
      assert a == PosterUrl(a)[|PosterBase|..];
      assert b == PosterUrl(b)[|PosterBase|..];
    }
  }

  /** `genres[0]` of an anime; an anime without genres has none, shown as
      the empty text. */
  function FirstGenre(genres: seq<string>): (r: string)
    ensures |genres| > 0 ==> r == genres[0]
    ensures |genres| == 0 ==> r == ""
  {
    if |genres| > 0 then genres[0] else ""
  }

  /** `Math.floor(Math.random() * n) + base` for the title with id `k`. */
  function Draw(rand: int -> nat, k: int, n: nat, base: int): (r: int)
    requires n > 0
    ensures base <= r < base + n
  {
    rand(k) % n + base
  }

  /** Every outcome of a draw is reachable. */
  lemma DrawReachesAll(k: int, n: nat, base: int, v: int)
    requires n > 0 && base <= v < base + n
    ensures Draw((_: int) => (v - base) as nat, k, n, base) == v
  {
  }

  /** A movie card: the title, the poster rule, one episode. */
  function MovieItem(m: Movie, genre: string): (r: ContentItem)
    ensures r.id == m.id && r.title == m.title && r.image == PosterUrl(m.posterPath)
    ensures r.rating == m.voteAverage && r.episodes == 1 && r.genre == genre
  {
    ContentItem(m.id, m.title, PosterUrl(m.posterPath), m.voteAverage, 1, genre)
  }

  /** A show card: the show's `name` as its title, and the poster rule. */
  function ShowItem(s: TvShow, episodes: int, genre: string): (r: ContentItem)
    ensures r.id == s.id && r.title == s.name && r.image == PosterUrl(s.posterPath)
    ensures r.rating == s.voteAverage && r.episodes == episodes && r.genre == genre
  {
    ContentItem(s.id, s.name, PosterUrl(s.posterPath), s.voteAverage, episodes, genre)
  }

  /** An anime card: the image is passed through unchanged. */
  function AnimeItem(a: Anime, episodes: int, genre: string): (r: ContentItem)
    ensures r.id == a.id && r.title == a.title && r.image == a.image
    ensures r.rating == a.score && r.episodes == episodes && r.genre == genre
  {
    ContentItem(a.id, a.title, a.image, a.score, episodes, genre)
  }

  /** `r` holds exactly the cards of the titles of `xs` that pass `keep`:
      every card comes from a passing title, and every passing title has its
      card. */
  ghost predicate Selects<T, C>(r: seq<C>, xs: seq<T>, keep: T -> bool, card: T -> C) {
    && (forall i :: 0 <= i < |r| ==> exists j :: 0 <= j < |xs| && keep(xs[j]) && r[i] == card(xs[j]))
    && (forall j :: 0 <= j < |xs| && keep(xs[j]) ==> card(xs[j]) in r)
  }

  /** `xs.filter(keep).map(card)`. */
  function Row<T, C>(xs: seq<T>, keep: T -> bool, card: T -> C): (r: seq<C>)
    ensures |r| <= |xs|
    ensures Selects(r, xs, keep, card)
  {
    FilterMapSelects(xs, keep, card);
    Seqs.Map(Seqs.Filter(xs, keep), card)
  }

  lemma FilterMapSelects<T, C>(xs: seq<T>, keep: T -> bool, card: T -> C)
    ensures Selects(Seqs.Map(Seqs.Filter(xs, keep), card), xs, keep, card)
  {
    var kept := Seqs.Filter(xs, keep);
    var r := Seqs.Map(kept, card);
    forall i | 0 <= i < |r| ensures exists j :: 0 <= j < |xs| && keep(xs[j]) && r[i] == card(xs[j]) {
      assert kept[i] in xs && keep(kept[i]);
      var j :| 0 <= j < |xs| && xs[j] == kept[i];
      assert r[i] == card(xs[j]);
    }
    forall j | 0 <= j < |xs| && keep(xs[j]) ensures card(xs[j]) in r {
      var k :| 0 <= k < |kept| && kept[k] == xs[j];
      assert r[k] == card(xs[j]);
    }
  }

  /** A row keeps the source order: the row of a concatenation is the
      concatenation of the rows. */
  lemma RowConcat<T, C>(a: seq<T>, b: seq<T>, keep: T -> bool, card: T -> C)
    ensures Row(a + b, keep, card) == Row(a, keep, card) + Row(b, keep, card)
  {
    Seqs.FilterConcat(a, b, keep);
    Seqs.MapConcat(Seqs.Filter(a, keep), Seqs.Filter(b, keep), card);
  }

  /** `xs.slice(0, n).map(card)`: the cards of the first `n` titles, in order. */
  function Front<T, C>(xs: seq<T>, n: nat, card: T -> C): (r: seq<C>)
    ensures |r| == if |xs| < n then |xs| else n
    ensures forall i :: 0 <= i < |r| ==> r[i] == card(xs[i])
  {
    Seqs.Map(Seqs.Take(xs, n), card)
  }

  /** `movie.genre_ids.includes(id)`. */
  function HasGenreId(id: int): Movie -> bool {
    (m: Movie) => id in m.genreIds
  }

  function ShowHasGenreId(id: int): TvShow -> bool {
    (s: TvShow) => id in s.genreIds
  }

  /** `anime.genres.includes(name)`. */
  function AnimeHasGenre(name: string): Anime -> bool {
    (a: Anime) => name in a.genres
  }
}

=== FILE: content_row.dfy ===
/** The horizontal row of cards of components/content-row.tsx: its watchlist
    button, which guesses the kind of a title from the row's heading, its play
    notice and its episode label. */
module ContentRow {
  import opened Catalog
  import Text
  import Watchlist
  import Toasts
  import opened Wrappers

  /** `title.toLowerCase().includes("anime")`: the only way a row tells an
      anime from a show. */
  predicate AnimeHeading(rowTitle: string) {
    Text.Contains(Text.ToLower(rowTitle), "anime")
  }

  /** The kind the button saves: anime under a heading that mentions anime,
      a show under any other heading, never a movie. */
  function KindFor(rowTitle: string): (r: Watchlist.MediaKind)
    ensures r == Watchlist.Anime <==> AnimeHeading(rowTitle)
    ensures r == Watchlist.TvShow <==> !AnimeHeading(rowTitle)
    ensures r != Watchlist.Movie
  {
    if AnimeHeading(rowTitle) then Watchlist.Anime else Watchlist.TvShow
  }

  /** The entry the button saves for a card: its id and title, and its image
      as the poster. */
  function Item(rowTitle: string, c: ContentItem): (r: Watchlist.NewItem)
    ensures r.id == c.id && r.title == c.title && r.poster == c.image && r.kind == KindFor(rowTitle)
  {
    Watchlist.NewItem(c.id, c.title, KindFor(rowTitle), c.image)
  }

  /** `handleWatchlist(item)`: a saved card is removed, any other added. */
  function HandleWatchlist(list: seq<Watchlist.Entry>, rowTitle: string, c: ContentItem, now: string): (r: seq<Watchlist.Entry>)
    ensures Watchlist.Has(r, c.id) <==> !Watchlist.Has(list, c.id)
    ensures !Watchlist.Has(list, c.id) ==> r == list + [Watchlist.Entry(c.id, c.title, KindFor(rowTitle), c.image, now)]
    ensures Watchlist.Has(list, c.id) ==>
              && (forall i :: 0 <= i < |list| && list[i].id != c.id ==> list[i] in r)
              && (forall i :: 0 <= i < |r| ==> r[i] in list)
    ensures Watchlist.UniqueIds(list) ==> Watchlist.UniqueIds(r)
  {
    Watchlist.Toggle(list, Item(rowTitle, c), now).0
  }

  /** Two presses on an unsaved card leave the list as it was. */
  lemma PressTwice(list: seq<Watchlist.Entry>, rowTitle: string, c: ContentItem, t1: string, t2: string)
    requires !Watchlist.Has(list, c.id)
    ensures HandleWatchlist(HandleWatchlist(list, rowTitle, c, t1), rowTitle, c, t2) == list
  {
    Watchlist.ToggleTwice(list, Item(rowTitle, c), t1, t2);
  }

  /** A movie saved from a row is stored as a show: the heading "Filmes"
      does not mention anime. */
  lemma MovieSavedAsShow(c: ContentItem, now: string)
    ensures HandleWatchlist([], "Filmes", c, now) == [Watchlist.Entry(c.id, c.title, Watchlist.TvShow, c.image, now)]
  {
    assert !AnimeHeading("Filmes") by {
      var low := Text.ToLower("Filmes");
      assert forall i :: 0 <= i < |low| ==> low[i] != 'a';
      Text.NotContainsWithoutFirstChar(low, "anime");
    }
  }

  /** A heading in any letter case that mentions anime saves animes. */
  lemma MixedCaseHeadingSavesAnime(before: string, after: string)
    ensures KindFor(before + "AnImE" + after) == Watchlist.Anime
  {
    var s := before + "AnImE" + after;
    var low := Text.ToLower(s);
    assert low == Text.ToLower(before) + "anime" + Text.ToLower(after);
    Text.ContainsMiddle(Text.ToLower(before), "anime", Text.ToLower(after));
  }

  /** `handlePlay(item)`: a two-second notice naming the card. */
  function PlayNotice(c: ContentItem): (r: Toasts.ToastProps)
    ensures r.title == Some("Reproduzindo " + c.title) && r.id.None? && r.description.None?
    ensures Toasts.Expires(r.duration) && Toasts.Delay(r.duration) == 2000
  {
    Toasts.ToastProps(None, Some("Reproduzindo " + c.title), None, Some(Toasts.Ms(2000)))
  }

  /** The translation key beside the episode count: singular exactly for one
      episode, so zero episodes read as plural. */
  function EpisodeKey(episodes: int): (r: string)
    ensures r == "episode" <==> episodes == 1
    ensures r == "episodes" <==> episodes != 1
  {
    if episodes == 1 then "episode" else "episodes"
  }
}

=== FILE: continue_watching.dfy ===
/** The "continue watching" card of components/continue-watching.tsx: a
    short list of titles in progress from which an entry can be dropped. */
module ContinueWatching {
  import Seqs
  import Toasts
  import opened Wrappers

  datatype Item = Item(id: int, title: string, image: string, progress: int, episode: int, episodesLeft: string)

  /** The three entries the card starts with. */
  const InitialItems: seq<Item> := [
    Item(1, "WandaVision", "/placeholder.svg?height=150&width=250&text=WandaVision", 80, 1, "left"),
    Item(2, "Rick and Morty", "/placeholder.svg?height=150&width=250&text=Rick+and+Morty", 45, 3, "left"),
    Item(3, "The Last of Us", "/placeholder.svg?height=150&width=250&text=TLOU", 65, 2, "left")
  ]

  predicate UniqueIds(items: seq<Item>) {
    forall i, j :: 0 <= i < j < |items| ==> items[i].id != items[j].id
  }

  predicate HasId(items: seq<Item>, id: int) {
    exists i :: 0 <= i < |items| && items[i].id == id
  }

  lemma InitialItemsWellFormed()
    ensures UniqueIds(InitialItems)
    ensures forall i :: 0 <= i < |InitialItems| ==> 0 <= InitialItems[i].progress <= 100
  {
  }

  function IsNot(id: int): Item -> bool {
    (it: Item) => it.id != id
  }

  /** `handleDrop(id)`: every entry with that id goes, every other entry
      stays, in order. */
  function Drop(items: seq<Item>, id: int): (r: seq<Item>)
    ensures !HasId(r, id)
    ensures forall i :: 0 <= i < |r| ==> r[i] in items
    ensures forall i :: 0 <= i < |items| && items[i].id != id ==> items[i] in r
    ensures !HasId(items, id) ==> r == items
    ensures UniqueIds(items) && HasId(items, id) ==> |r| == |items| - 1
  {
    var r := Seqs.Filter(items, IsNot(id));
    if UniqueIds(items) && HasId(items, id) then
      var k :| 0 <= k < |items| && items[k].id == id;
      Seqs.FilterDeletesOne(items, k, IsNot(id));
      r
    else r
  }

  /** Dropping keeps the ids unique. */
  lemma {:induction false} DropKeepsUnique(items: seq<Item>, id: int)
    requires UniqueIds(items)
    ensures UniqueIds(Drop(items, id))
    decreases |items|
  {
    if |items| > 0 {
      var rest := items[1..];
      UniqueTail(items);
      DropKeepsUnique(rest, id);
      var dr := Drop(rest, id);
      forall i | 0 <= i < |dr| ensures dr[i].id != items[0].id {
        assert dr[i] in rest;
      }
      if items[0].id != id {
        Seqs.FilterKeepsHead(items, IsNot(id));
        ConsUnique(items[0], dr);
      } else {
        Seqs.FilterSkipsHead(items, IsNot(id));
      }
    }
  }

  lemma UniqueTail(items: seq<Item>)
    requires |items| > 0 && UniqueIds(items)
    ensures UniqueIds(items[1..])
    ensures forall i :: 0 <= i < |items[1..]| ==> items[1..][i].id != items[0].id
  {
    forall i | 0 <= i < |items[1..]| ensures items[1..][i].id != items[0].id {
      assert items[1..][i] == items[i + 1];
    }
  }

  lemma ConsUnique(x: Item, items: seq<Item>)
    requires UniqueIds(items)
    requires forall i :: 0 <= i < |items| ==> items[i].id != x.id
    ensures UniqueIds([x] + items)
  {
    var s := [x] + items;
    forall i, j | 0 <= i < j < |s| ensures s[i].id != s[j].id {
      assert s[j] == items[j - 1];
      if i > 0 {
        assert s[i] == items[i - 1];
      }
    }
  }

  /** With unique ids, dropping the id at position `k` deletes exactly that
      position: the entries before and after it stay, in order. */
  lemma DropDeletesPosition(items: seq<Item>, k: nat)
    requires UniqueIds(items) && k < |items|
    ensures Drop(items, items[k].id) == items[..k] + items[k + 1..]
  {
    Seqs.FilterDeletesOne(items, k, IsNot(items[k].id));
  }

  /** Dropping keeps the order of what remains: dropping from a
      concatenation drops from each part. */
  lemma DropKeepsOrder(a: seq<Item>, b: seq<Item>, id: int)
    ensures Drop(a + b, id) == Drop(a, id) + Drop(b, id)
  {
    Seqs.FilterConcat(a, b, IsNot(id));
  }

  /** Dropping the same id twice drops nothing more. */
  lemma DropIdempotent(items: seq<Item>, id: int)
    ensures Drop(Drop(items, id), id) == Drop(items, id)
  {
  }

  /** The order of two drops does not matter. */
  lemma DropsCommute(items: seq<Item>, a: int, b: int)
    ensures Drop(Drop(items, a), b) == Drop(Drop(items, b), a)
  {
    Seqs.FilterFilter(items, IsNot(a), IsNot(b));
    Seqs.FilterFilter(items, IsNot(b), IsNot(a));
    Seqs.FilterSameOn(items, Seqs.Both(IsNot(a), IsNot(b)), Seqs.Both(IsNot(b), IsNot(a)));
  }

  /** The notice raised on a drop, whatever was dropped. */
  function DropNotice(): (r: Toasts.ToastProps)
    ensures r.title == Some("Removido da lista de continuação") && r.id.None? && r.description.None?
    ensures Toasts.Expires(r.duration) && Toasts.Delay(r.duration) == 2000
  {
    Toasts.ToastProps(None, Some("Removido da lista de continuação"), None, Some(Toasts.Ms(2000)))
  }

  /** `handlePlay(title)`: a two-second notice naming the title. */
  function PlayNotice(title: string): (r: Toasts.ToastProps)
    ensures r.title == Some("Continuando " + title) && r.id.None? && r.description.None?
    ensures Toasts.Expires(r.duration) && Toasts.Delay(r.duration) == 2000
  {
    Toasts.ToastProps(None, Some("Continuando " + title), None, Some(Toasts.Ms(2000)))
  }
}

=== FILE: discover.dfy ===
/** The discover page, app/discover/page.tsx: the trending lists (each
    catalog list followed by copies of its first ten titles under offset
    ids), the per-genre groups, the classics and new-release rows, the
    filter badges, and the choice of which genre rows are shown. */
module Discover {
  import opened Catalog
  import Genres
  import Seqs
  import Text

  /** The eighteen genres the page groups by, in order. */
  const GenreList: seq<string> := [
    "Ação", "Aventura", "Animação", "Comédia", "Crime", "Documentário",
    "Drama", "Família", "Fantasia", "História", "Terror", "Música",
    "Mistério", "Romance", "Ficção Científica", "Thriller", "Guerra", "Faroeste"
  ]

  function Min(a: int, b: int): int {
    if a < b then a else b
  }

  // ---------------------------------------------------------------------
  // Trending

  /** `[...xs, ...xs.slice(0, 10).map(shift)].slice(0, 20)`. */
  function Doubled<T>(xs: seq<T>, shift: T -> T): (r: seq<T>)
    ensures |r| == Min(|xs| + Min(|xs|, 10), 20)
    ensures forall i :: 0 <= i < |r| && i < |xs| ==> r[i] == xs[i]
    ensures forall i :: |xs| <= i < |r| ==> r[i] == shift(xs[i - |xs|])
  {
    Seqs.Take(xs + Seqs.Map(Seqs.Take(xs, 10), shift), 20)
  }

  function ShiftMovie(offset: int): Movie -> Movie {
    (m: Movie) => m.(id := m.id + offset)
  }

  function ShiftShow(offset: int): TvShow -> TvShow {
    (s: TvShow) => s.(id := s.id + offset)
  }

  function ShiftAnime(offset: int): Anime -> Anime {
    (a: Anime) => a.(id := a.id + offset)
  }

  function MovieCard(): Movie -> ContentItem {
    (m: Movie) => MovieItem(m, Genres.FirstName(m.genreIds))
  }

  function ShowCard(rand: int -> nat, n: nat, base: int): TvShow -> ContentItem
    requires n > 0
  {
    (s: TvShow) => ShowItem(s, Draw(rand, s.id, n, base), Genres.FirstName(s.genreIds))
  }

  function AnimeCard(rand: int -> nat, n: nat, base: int): Anime -> ContentItem
    requires n > 0
  {
    (a: Anime) => AnimeItem(a, Draw(rand, a.id, n, base), FirstGenre(a.genres))
  }

  /** `trendingMovies`: the movies, then the first ten again under ids offset
      by 1000, at most twenty cards of one episode each. */
  function TrendingMovies(movies: seq<Movie>): (r: seq<ContentItem>)
    ensures |r| == Min(|movies| + Min(|movies|, 10), 20)
    ensures forall i :: 0 <= i < |r| && i < |movies| ==> r[i] == MovieItem(movies[i], Genres.FirstName(movies[i].genreIds))
    ensures forall i :: |movies| <= i < |r| ==> r[i].id == movies[i - |movies|].id + 1000 && r[i].title == movies[i - |movies|].title
    ensures forall i :: 0 <= i < |r| ==> r[i].episodes == 1
  {
    Seqs.Map(Doubled(movies, ShiftMovie(1000)), MovieCard())
  }

  /** `trendingShows`: the same with offset 2000, titled by name, with 5..24
      episodes. */
  function TrendingShows(shows: seq<TvShow>, rand: int -> nat): (r: seq<ContentItem>)
    ensures |r| == Min(|shows| + Min(|shows|, 10), 20)
    ensures forall i :: 0 <= i < |r| && i < |shows| ==> r[i].id == shows[i].id && r[i].title == shows[i].name
    ensures forall i :: |shows| <= i < |r| ==> r[i].id == shows[i - |shows|].id + 2000 && r[i].title == shows[i - |shows|].name
    ensures forall i :: 0 <= i < |r| ==> 5 <= r[i].episodes <= 24
  {
    Seqs.Map(Doubled(shows, ShiftShow(2000)), ShowCard(rand, 20, 5))
  }

  /** `popularAnimes`: the same with offset 3000, images passed through, with
      12..35 episodes. */
  function PopularAnimes(animes: seq<Anime>, rand: int -> nat): (r: seq<ContentItem>)
    ensures |r| == Min(|animes| + Min(|animes|, 10), 20)
    ensures forall i :: 0 <= i < |r| && i < |animes| ==> r[i].id == animes[i].id && r[i].image == animes[i].image
    ensures forall i :: |animes| <= i < |r| ==> r[i].id == animes[i - |animes|].id + 3000 && r[i].image == animes[i - |animes|].image
    ensures forall i :: 0 <= i < |r| ==> 12 <= r[i].episodes <= 35
  {
    Seqs.Map(Doubled(animes, ShiftAnime(3000)), AnimeCard(rand, 24, 12))
  }

  predicate UniqueCardIds(r: seq<ContentItem>) {
    forall i, j :: 0 <= i < j < |r| ==> r[i].id != r[j].id
  }

  /** The offset copies avoid duplicate ids only under a condition the page
      does not check: the movie ids are distinct and no two differ by
      exactly 1000. */
  lemma TrendingMovieIdsUnique(movies: seq<Movie>)
    requires forall i, j :: 0 <= i < j < |movies| ==> movies[i].id != movies[j].id
    requires forall i, j :: 0 <= i < |movies| && 0 <= j < |movies| ==> movies[i].id != movies[j].id + 1000
    ensures UniqueCardIds(TrendingMovies(movies))
  {
    var r := TrendingMovies(movies);
    forall i, j | 0 <= i < j < |r| ensures r[i].id != r[j].id {
      if j < |movies| {
        assert r[i].id == movies[i].id && r[j].id == movies[j].id;
      } else if i < |movies| {
        assert r[i].id == movies[i].id && r[j].id == movies[j - |movies|].id + 1000;
      } else {
        assert r[i].id == movies[i - |movies|].id + 1000 && r[j].id == movies[j - |movies|].id + 1000;
      }
    }
  }

  /** Two movies whose ids differ by 1000 make the trending list repeat an
      id. */
  lemma TrendingMovieIdsCanCollide(a: Movie, b: Movie)
    requires b.id == a.id + 1000
    ensures !UniqueCardIds(TrendingMovies([a, b]))
  {
    var r := TrendingMovies([a, b]);
    assert r[1].id == b.id && r[2].id == a.id + 1000;
  }

  /** The "Em Alta" row of the first tab: five of each trending list, the
      movies first, then the shows, then the animes. */
  function TrendingRow(movies: seq<Movie>, shows: seq<TvShow>, animes: seq<Anime>, rand: int -> nat): (r: seq<ContentItem>)
    ensures FirstFiveOfEach(r, TrendingMovies(movies), TrendingShows(shows, rand), PopularAnimes(animes, rand))
  {
    var m, s, a := TrendingMovies(movies), TrendingShows(shows, rand), PopularAnimes(animes, rand);
    FiveOfEach(m, s, a)
  }

  /** `r` is `[...a.slice(0, 5), ...b.slice(0, 5), ...c.slice(0, 5)]`, stated
      by position: at most five of each list, `a`'s first, then `b`'s, then
      `c`'s. */
  ghost predicate FirstFiveOfEach<T>(r: seq<T>, a: seq<T>, b: seq<T>, c: seq<T>) {
    && |r| == Min(|a|, 5) + Min(|b|, 5) + Min(|c|, 5)
    && (forall i :: 0 <= i < Min(|a|, 5) ==> r[i] == a[i])
    && (forall i :: 0 <= i < Min(|b|, 5) ==> r[Min(|a|, 5) + i] == b[i])
    && (forall i :: 0 <= i < Min(|c|, 5) ==> r[Min(|a|, 5) + Min(|b|, 5) + i] == c[i])
  }

  /** Five of each of three lists, concatenated. */
  function FiveOfEach<T>(a: seq<T>, b: seq<T>, c: seq<T>): (r: seq<T>)
    ensures FirstFiveOfEach(r, a, b, c)
  {
    var x, y, z := a[..Min(|a|, 5)], b[..Min(|b|, 5)], c[..Min(|c|, 5)];
    x + y + z
  }

  /** The row opens with the first movies themselves, one episode each, as
      long as there are movies: the offset copies come after them. */
  lemma TrendingRowOpensWithMovies(movies: seq<Movie>, shows: seq<TvShow>, animes: seq<Anime>, rand: int -> nat, i: nat)
    requires i < Min(|movies|, 5)
    ensures TrendingRow(movies, shows, animes, rand)[i] == MovieItem(movies[i], Genres.FirstName(movies[i].genreIds))
  {
    var m := TrendingMovies(movies);
    assert i < |m|;
  }

  // ---------------------------------------------------------------------
  // Genre groups

  /** One entry of a `Record<string, item[]>`, in insertion order. */
  datatype Group = Group(genre: string, items: seq<ContentItem>)

  function NonEmptyRow(rowOf: string -> seq<ContentItem>): string -> bool {
    (g: string) => |rowOf(g)| > 0
  }

  function ToGroup(rowOf: string -> seq<ContentItem>): string -> Group {
    (g: string) => Group(g, rowOf(g))
  }

  /** `genres.forEach(...)` filling the record: an entry, in genre order, for
      each genre whose row is non-empty. */
  function Groups(genres: seq<string>, rowOf: string -> seq<ContentItem>): (r: seq<Group>)
    ensures forall i :: 0 <= i < |r| ==> r[i].genre in genres && |r[i].items| > 0 && r[i].items == rowOf(r[i].genre)
    ensures forall j :: 0 <= j < |genres| && |rowOf(genres[j])| > 0 ==> Group(genres[j], rowOf(genres[j])) in r
    ensures Seqs.Map(r, GenreOf) == Seqs.Filter(genres, NonEmptyRow(rowOf))
  {
    var kept := Seqs.Filter(genres, NonEmptyRow(rowOf));
    var r := Seqs.Map(kept, ToGroup(rowOf));
    assert forall j :: 0 <= j < |genres| && |rowOf(genres[j])| > 0 ==> Group(genres[j], rowOf(genres[j])) in r by {
      forall j | 0 <= j < |genres| && |rowOf(genres[j])| > 0 ensures Group(genres[j], rowOf(genres[j])) in r {
        assert NonEmptyRow(rowOf)(genres[j]);
        var k :| 0 <= k < |kept| && kept[k] == genres[j];
        assert r[k] == Group(genres[j], rowOf(genres[j]));
      }
    }
    assert Seqs.Map(r, GenreOf) == kept;
    r
  }

  function GenreOf(g: Group): string {
    g.genre
  }

  /** The movies of one genre: those whose ids include the genre's id. */
  function MovieGenreRow(movies: seq<Movie>, genre: string): (r: seq<ContentItem>)
    ensures Selects(r, movies, HasGenreId(Genres.Id(genre)), MovieGenreCard(genre))
  {
    Row(movies, HasGenreId(Genres.Id(genre)), MovieGenreCard(genre))
  }

  function MovieGenreCard(genre: string): Movie -> ContentItem {
    (m: Movie) => MovieItem(m, genre)
  }

  function MovieRowOf(movies: seq<Movie>): string -> seq<ContentItem> {
    (g: string) => MovieGenreRow(movies, g)
  }

  /** `genreMovies`. */
  function MovieGroups(movies: seq<Movie>): seq<Group> {
    Groups(GenreList, MovieRowOf(movies))
  }

  /** A genre is a key of `genreMovies` only with a non-empty list, and every
      card in it is a movie whose ids include that genre's id. */
  lemma MovieGroupsAreSound(movies: seq<Movie>, i: nat, k: nat)
    requires i < |MovieGroups(movies)| && k < |MovieGroups(movies)[i].items|
    ensures var g := MovieGroups(movies)[i];
            && g.genre in GenreList && |g.items| > 0
            && exists j :: 0 <= j < |movies| && Genres.Id(g.genre) in movies[j].genreIds && g.items[k] == MovieItem(movies[j], g.genre)
  {
    var g := MovieGroups(movies)[i];
    assert g.items == MovieGenreRow(movies, g.genre);
    var j :| 0 <= j < |movies| && HasGenreId(Genres.Id(g.genre))(movies[j]) && g.items[k] == MovieGenreCard(g.genre)(movies[j]);
  }

  function ShowGenreCard(genre: string, rand: int -> nat): TvShow -> ContentItem {
    (s: TvShow) => ShowItem(s, Draw(rand, s.id, 20, 5), genre)
  }

  function ShowGenreRow(shows: seq<TvShow>, genre: string, rand: int -> nat): (r: seq<ContentItem>)
    ensures Selects(r, shows, ShowHasGenreId(Genres.Id(genre)), ShowGenreCard(genre, rand))
  {
    Row(shows, ShowHasGenreId(Genres.Id(genre)), ShowGenreCard(genre, rand))
  }

  function ShowRowOf(shows: seq<TvShow>, rand: int -> nat): string -> seq<ContentItem> {
    (g: string) => ShowGenreRow(shows, g, rand)
  }

  /** `genreShows`. */
  function ShowGroups(shows: seq<TvShow>, rand: int -> nat): seq<Group> {
    Groups(GenreList, ShowRowOf(shows, rand))
  }

  function AnimeGenreCard(genre: string, rand: int -> nat): Anime -> ContentItem {
    (a: Anime) => AnimeItem(a, Draw(rand, a.id, 24, 12), genre)
  }

  /** Animes are grouped by the genre name itself, not by id. */
  function AnimeGenreRow(animes: seq<Anime>, genre: string, rand: int -> nat): (r: seq<ContentItem>)
    ensures Selects(r, animes, AnimeHasGenre(genre), AnimeGenreCard(genre, rand))
  {
    Row(animes, AnimeHasGenre(genre), AnimeGenreCard(genre, rand))
  }

  function AnimeRowOf(animes: seq<Anime>, rand: int -> nat): string -> seq<ContentItem> {
    (g: string) => AnimeGenreRow(animes, g, rand)
  }

  /** `genreAnimes`. */
  function AnimeGroups(animes: seq<Anime>, rand: int -> nat): seq<Group> {
    Groups(GenreList, AnimeRowOf(animes, rand))
  }

  /** Every grouped genre has an entry in the genre table, so its id is never
      the fallback 0: the list is the table's first fifteen names and then
      three more, skipping "Cinema TV". */
  lemma GenreListIsListed(i: nat)
    requires i < |GenreList|
    ensures Genres.Id(GenreList[i]) != 0
  {
    Genres.FullTableIds();
    Genres.FullTableNames();
    var k := if i < 15 then i else i + 1;
    assert GenreList[i] == Genres.FullTable[k].name;
    Genres.IdOfListed(Genres.FullTable, k);
  }

  // ---------------------------------------------------------------------
  // Rows shown from the groups

  function ShownMovieOrShowGroup(): Group -> bool {
    (g: Group) => g.genre != Genres.Unknown && |g.items| >= 3
  }

  function ShownAnimeGroup(): Group -> bool {
    (g: Group) => |g.items| >= 3
  }

  /** The movie and show genre rows drawn: the first four groups, in order,
      that are not "Desconhecido" and have at least three cards. */
  function ShownRows(groups: seq<Group>): (r: seq<Group>)
    ensures |r| <= 4
    ensures forall i :: 0 <= i < |r| ==> r[i] in groups && r[i].genre != Genres.Unknown && |r[i].items| >= 3
    ensures r <= Seqs.Filter(groups, ShownMovieOrShowGroup())
    ensures |r| == Min(|Seqs.Filter(groups, ShownMovieOrShowGroup())|, 4)
  {
    Seqs.Take(Seqs.Filter(groups, ShownMovieOrShowGroup()), 4)
  }

  /** The anime genre rows drawn: the first three groups with at least three
      cards. */
  function ShownAnimeRows(groups: seq<Group>): (r: seq<Group>)
    ensures |r| <= 3
    ensures forall i :: 0 <= i < |r| ==> r[i] in groups && |r[i].items| >= 3
    ensures r <= Seqs.Filter(groups, ShownAnimeGroup())
    ensures |r| == Min(|Seqs.Filter(groups, ShownAnimeGroup())|, 3)
  {
    Seqs.Take(Seqs.Filter(groups, ShownAnimeGroup()), 3)
  }

  /** The genres of the first `n` groups passing `keep` are the first `n`
      genres, in list order, whose row is non-empty and whose group passes. */
  lemma ShownGenres(genres: seq<string>, rowOf: string -> seq<ContentItem>, keep: Group -> bool, n: nat)
    ensures Seqs.Map(Seqs.Take(Seqs.Filter(Groups(genres, rowOf), keep), n), GenreOf)
            == Seqs.Take(Seqs.Filter(genres, Seqs.Both(NonEmptyRow(rowOf), Seqs.After(ToGroup(rowOf), keep))), n)
  {
    var kept := Seqs.Filter(genres, NonEmptyRow(rowOf));
    assert Groups(genres, rowOf) == Seqs.Map(kept, ToGroup(rowOf));
    Seqs.FilterMap(kept, ToGroup(rowOf), keep);
    Seqs.FilterFilter(genres, NonEmptyRow(rowOf), Seqs.After(ToGroup(rowOf), keep));
    var x := Seqs.Filter(genres, Seqs.Both(NonEmptyRow(rowOf), Seqs.After(ToGroup(rowOf), keep)));
    Seqs.MapTake(x, n, ToGroup(rowOf));
    var t := Seqs.Take(x, n);
    assert Seqs.Map(Seqs.Map(t, ToGroup(rowOf)), GenreOf) == t;
  }

  /** A movie or show genre row is drawn exactly for the first four genres,
      in list order, that are not "Desconhecido" and have at least three
      cards. */
  lemma ShownRowsAreFirstQualifying(genres: seq<string>, rowOf: string -> seq<ContentItem>)
    ensures Seqs.Map(ShownRows(Groups(genres, rowOf)), GenreOf)
            == Seqs.Take(Seqs.Filter(genres, (g: string) => g != Genres.Unknown && |rowOf(g)| >= 3), 4)
  {
    ShownGenres(genres, rowOf, ShownMovieOrShowGroup(), 4);
    Seqs.FilterSameOn(genres, Seqs.Both(NonEmptyRow(rowOf), Seqs.After(ToGroup(rowOf), ShownMovieOrShowGroup())),
                      (g: string) => g != Genres.Unknown && |rowOf(g)| >= 3);
  }

  /** An anime genre row is drawn exactly for the first three genres, in
      list order, that have at least three cards. */
  lemma ShownAnimeRowsAreFirstQualifying(genres: seq<string>, rowOf: string -> seq<ContentItem>)
    ensures Seqs.Map(ShownAnimeRows(Groups(genres, rowOf)), GenreOf)
            == Seqs.Take(Seqs.Filter(genres, (g: string) => |rowOf(g)| >= 3), 3)
  {
    ShownGenres(genres, rowOf, ShownAnimeGroup(), 3);
    Seqs.FilterSameOn(genres, Seqs.Both(NonEmptyRow(rowOf), Seqs.After(ToGroup(rowOf), ShownAnimeGroup())),
                      (g: string) => |rowOf(g)| >= 3);
  }

  /** "Desconhecido" is not one of the grouped genres. */
  lemma UnknownNotGrouped()
    ensures Genres.Unknown !in GenreList
  {
    forall i | 0 <= i < |GenreList| ensures GenreList[i] != Genres.Unknown {
      assert |GenreList[i]| != 12 || GenreList[i][1] != 'e';
    }
  }

  /** The "Desconhecido" test never removes a row: no grouped genre has that
      name, so the movie rows are chosen by size alone. */
  lemma UnknownGuardNeverFires(movies: seq<Movie>)
    ensures ShownRows(MovieGroups(movies)) == Seqs.Take(Seqs.Filter(MovieGroups(movies), ShownAnimeGroup()), 4)
  {
    var gs := MovieGroups(movies);
    UnknownNotGrouped();
    assert forall i :: 0 <= i < |gs| ==> gs[i].genre in GenreList;
    Seqs.FilterSameOn(gs, ShownMovieOrShowGroup(), ShownAnimeGroup());
  }

  // ---------------------------------------------------------------------
  // Classics

  const ClassicSuffix: string := " (Clássico)"

  /** A classic card: the usual card under an offset id, with the suffix. */
  function ClassicOf(c: ContentItem, offset: int): (r: ContentItem)
    ensures r.id == c.id + offset && r.title == c.title + ClassicSuffix
    ensures r.image == c.image && r.episodes == c.episodes && r.genre == c.genre
  {
    c.(id := c.id + offset, title := c.title + ClassicSuffix)
  }

  function ClassicMovie(): Movie -> ContentItem {
    (m: Movie) => ClassicOf(MovieItem(m, Genres.FirstName(m.genreIds)), 5000)
  }

  function ClassicShow(rand: int -> nat): TvShow -> ContentItem {
    (s: TvShow) => ClassicOf(ShowItem(s, Draw(rand, s.id, 20, 5), Genres.FirstName(s.genreIds)), 6000)
  }

  function ClassicAnime(rand: int -> nat): Anime -> ContentItem {
    (a: Anime) => ClassicOf(AnimeItem(a, Draw(rand, a.id, 24, 12), FirstGenre(a.genres)), 7000)
  }

  /** The movie part of `classics`. */
  function ClassicMovies(movies: seq<Movie>): (r: seq<ContentItem>)
    ensures |r| == Min(|movies|, 5)
    ensures forall i :: 0 <= i < |r| ==> r[i].id == movies[i].id + 5000 && r[i].title == movies[i].title + ClassicSuffix
  {
    Front(movies, 5, ClassicMovie())
  }

  /** The show part of `classics`, titled by name. */
  function ClassicShows(shows: seq<TvShow>, rand: int -> nat): (r: seq<ContentItem>)
    ensures |r| == Min(|shows|, 5)
    ensures forall i :: 0 <= i < |r| ==> r[i].id == shows[i].id + 6000 && r[i].title == shows[i].name + ClassicSuffix
  {
    Front(shows, 5, ClassicShow(rand))
  }

  /** The anime part of `classics`. */
  function ClassicAnimes(animes: seq<Anime>, rand: int -> nat): (r: seq<ContentItem>)
    ensures |r| == Min(|animes|, 5)
    ensures forall i :: 0 <= i < |r| ==> r[i].id == animes[i].id + 7000 && r[i].title == animes[i].title + ClassicSuffix
  {
    Front(animes, 5, ClassicAnime(rand))
  }

  /** `classics`: the first five movies, shows and animes, in that order. */
  function Classics(movies: seq<Movie>, shows: seq<TvShow>, animes: seq<Anime>, rand: int -> nat): (r: seq<ContentItem>)
    ensures |r| == Min(|movies|, 5) + Min(|shows|, 5) + Min(|animes|, 5)
  {
    ClassicMovies(movies) + ClassicShows(shows, rand) + ClassicAnimes(animes, rand)
  }

  /** The classics row carries ids offset by 5000, 6000 and 7000 and
      " (Clássico)" appended to every title. */
  lemma ClassicsLayout(movies: seq<Movie>, shows: seq<TvShow>, animes: seq<Anime>, rand: int -> nat, i: nat)
    requires i < |Classics(movies, shows, animes, rand)|
    ensures var r, nm, ns := Classics(movies, shows, animes, rand), Min(|movies|, 5), Min(|shows|, 5);
            && (i < nm ==> r[i].id == movies[i].id + 5000 && r[i].title == movies[i].title + ClassicSuffix)
            && (nm <= i < nm + ns ==> r[i].id == shows[i - nm].id + 6000 && r[i].title == shows[i - nm].name + ClassicSuffix)
            && (nm + ns <= i ==> r[i].id == animes[i - nm - ns].id + 7000 && r[i].title == animes[i - nm - ns].title + ClassicSuffix)
  {
    var a := ClassicMovies(movies);
    var b := ClassicShows(shows, rand);
    var c := ClassicAnimes(animes, rand);
    var r := Classics(movies, shows, animes, rand);
    assert r == a + b + c;
    ConcatThreeAt(a, b, c, i);
  }

  /** Indexing into a concatenation of three rows, at one position. */
  lemma ConcatThreeAt(a: seq<ContentItem>, b: seq<ContentItem>, c: seq<ContentItem>, i: nat)
    requires i < |a| + |b| + |c|
    ensures i < |a| ==> (a + b + c)[i] == a[i]
    ensures |a| <= i < |a| + |b| ==> (a + b + c)[i] == b[i - |a|]
    ensures |a| + |b| <= i ==> (a + b + c)[i] == c[i - |a| - |b|]
  {
  }

  // ---------------------------------------------------------------------
  // New releases

  /** `xs.slice(start)`: a negative start counts back from the end, and is
      clamped at 0. */
  function JsSliceFrom<T>(xs: seq<T>, start: int): (r: seq<T>)
    ensures 0 <= start <= |xs| ==> r == xs[start..]
    ensures start > |xs| ==> r == []
    ensures start < 0 && |xs| + start >= 0 ==> r == xs[|xs| + start..]
    ensures start < 0 && |xs| + start < 0 ==> r == xs
  {
    if start >= 0 then (if start <= |xs| then xs[start..] else [])
    else if |xs| + start >= 0 then xs[|xs| + start..]
    else xs
  }

  /** The last `n` elements, or all of them when there are fewer. */
  function LastN<T>(xs: seq<T>, n: nat): (r: seq<T>)
    ensures |r| == Min(|xs|, n)
    ensures r == xs[|xs| - |r|..]
  {
    if |xs| <= n then xs else xs[|xs| - n..]
  }

  lemma LastNIndex<T>(xs: seq<T>, n: nat)
    ensures forall i :: 0 <= i < |LastN(xs, n)| ==> LastN(xs, n)[i] == xs[|xs| - |LastN(xs, n)| + i]
  {
  }

  /** `xs.slice(xs.length - 5)`, as the page writes it. */
  function LastFiveAsWritten<T>(xs: seq<T>): seq<T> {
    JsSliceFrom(xs, |xs| - 5)
  }

  /** With three or four titles the written slice start is negative, so it
      counts back from the end a second time: three titles give the last
      two, four titles give the last one. */
  lemma LastFiveAsWrittenDropsTitles<T>(xs: seq<T>)
    ensures |xs| == 3 ==> LastFiveAsWritten(xs) == xs[1..] && |LastFiveAsWritten(xs)| == 2
    ensures |xs| == 4 ==> LastFiveAsWritten(xs) == xs[3..] && |LastFiveAsWritten(xs)| == 1
  {
  }

  /** The written slice agrees with "the last five" for every length except
      three and four. */
  lemma LastFiveAsWrittenAgreesIff<T>(xs: seq<T>)
    ensures LastFiveAsWritten(xs) == LastN(xs, 5) <==> |xs| != 3 && |xs| != 4
  {
    if |xs| == 3 || |xs| == 4 {
      assert |LastFiveAsWritten(xs)| != |LastN(xs, 5)|;
    }
  }

  function ReleaseShowCard(rand: int -> nat): TvShow -> ContentItem {
    ShowCard(rand, 10, 1)
  }

  function ReleaseAnimeCard(rand: int -> nat): Anime -> ContentItem {
    AnimeCard(rand, 10, 1)
  }

  /** `newReleases` as written: each list sliced with `slice(length - 5)`. */
  function NewReleasesAsWritten(movies: seq<Movie>, shows: seq<TvShow>, animes: seq<Anime>, rand: int -> nat): seq<ContentItem> {
    Seqs.Map(LastFiveAsWritten(movies), MovieCard())
    + Seqs.Map(LastFiveAsWritten(shows), ReleaseShowCard(rand))
    + Seqs.Map(LastFiveAsWritten(animes), ReleaseAnimeCard(rand))
  }

  /** With four movies, the written new-release row shows only the last. */
  lemma NewReleasesAsWrittenCounterexample(movies: seq<Movie>, rand: int -> nat)
    requires |movies| == 4
    ensures NewReleasesAsWritten(movies, [], [], rand) == [MovieItem(movies[3], Genres.FirstName(movies[3].genreIds))]
  {
    assert LastFiveAsWritten(movies) == [movies[3]];
  }

  /** The cards of the last five titles of a list, in list order. */
  function LastCards<T>(xs: seq<T>, card: T -> ContentItem): (r: seq<ContentItem>)
    ensures |r| == Min(|xs|, 5)
    ensures forall i :: 0 <= i < |r| ==> r[i] == card(xs[|xs| - |r| + i])
  {
    LastNIndex(xs, 5);
    Seqs.Map(LastN(xs, 5), card)
  }

  /** `newReleases` as intended: the last five (or fewer) of each list, in
      order. */
  function NewReleases(movies: seq<Movie>, shows: seq<TvShow>, animes: seq<Anime>, rand: int -> nat): (r: seq<ContentItem>)
    ensures |r| == Min(|movies|, 5) + Min(|shows|, 5) + Min(|animes|, 5)
  {
    LastCards(movies, MovieCard()) + LastCards(shows, ReleaseShowCard(rand)) + LastCards(animes, ReleaseAnimeCard(rand))
  }

  /** The new releases row opens with the last movies, in list order, as
      one-episode cards. */
  lemma NewReleasesMoviesFirst(movies: seq<Movie>, shows: seq<TvShow>, animes: seq<Anime>, rand: int -> nat, i: nat)
    requires i < Min(|movies|, 5)
    ensures var r := NewReleases(movies, shows, animes, rand);
            r[i].id == movies[|movies| - Min(|movies|, 5) + i].id && r[i].title == movies[|movies| - Min(|movies|, 5) + i].title && r[i].episodes == 1
  {
    var a := LastCards(movies, MovieCard());
    var b := LastCards(shows, ReleaseShowCard(rand));
    var c := LastCards(animes, ReleaseAnimeCard(rand));
    assert NewReleases(movies, shows, animes, rand) == a + b + c;
    ConcatThreeAt(a, b, c, i);
    NewMovieCard(movies, i);
  }

  /** Then come the last shows, in list order, with 1..10 episodes. */
  lemma NewReleasesShowsNext(movies: seq<Movie>, shows: seq<TvShow>, animes: seq<Anime>, rand: int -> nat, i: nat)
    requires Min(|movies|, 5) <= i < Min(|movies|, 5) + Min(|shows|, 5)
    ensures var r, nm := NewReleases(movies, shows, animes, rand), Min(|movies|, 5);
            r[i].id == shows[|shows| - Min(|shows|, 5) + i - nm].id && 1 <= r[i].episodes <= 10
  {
    var a := LastCards(movies, MovieCard());
    var b := LastCards(shows, ReleaseShowCard(rand));
    var c := LastCards(animes, ReleaseAnimeCard(rand));
    ConcatThreeAt(a, b, c, i);
    NewShowCard(shows, rand, i - |a|);
  }

  /** And last the last animes, in list order, with 1..10 episodes. */
  lemma NewReleasesAnimesLast(movies: seq<Movie>, shows: seq<TvShow>, animes: seq<Anime>, rand: int -> nat, i: nat)
    requires Min(|movies|, 5) + Min(|shows|, 5) <= i < |NewReleases(movies, shows, animes, rand)|
    ensures var r, k := NewReleases(movies, shows, animes, rand), Min(|movies|, 5) + Min(|shows|, 5);
            r[i].id == animes[|animes| - Min(|animes|, 5) + i - k].id && 1 <= r[i].episodes <= 10
  {
    var a := LastCards(movies, MovieCard());
    var b := LastCards(shows, ReleaseShowCard(rand));
    var c := LastCards(animes, ReleaseAnimeCard(rand));
    ConcatThreeAt(a, b, c, i);
    NewAnimeCard(animes, rand, i - |a| - |b|);
  }

  lemma NewMovieCard(movies: seq<Movie>, j: nat)
    requires j < Min(|movies|, 5)
    ensures var a := LastCards(movies, MovieCard());
            a[j].id == movies[|movies| - |a| + j].id && a[j].title == movies[|movies| - |a| + j].title && a[j].episodes == 1
  {
  }

  lemma NewShowCard(shows: seq<TvShow>, rand: int -> nat, j: nat)
    requires j < Min(|shows|, 5)
    ensures var b := LastCards(shows, ReleaseShowCard(rand));
            b[j].id == shows[|shows| - |b| + j].id && 1 <= b[j].episodes <= 10
  {
  }

  lemma NewAnimeCard(animes: seq<Anime>, rand: int -> nat, j: nat)
    requires j < Min(|animes|, 5)
    ensures var c := LastCards(animes, ReleaseAnimeCard(rand));
            c[j].id == animes[|animes| - |c| + j].id && 1 <= c[j].episodes <= 10
  {
  }

  // ---------------------------------------------------------------------
  // The "new" tab

  function EpisodesIsOne(): ContentItem -> bool {
    (c: ContentItem) => c.episodes == 1
  }

  function LooksLikeShow(): ContentItem -> bool {
    (c: ContentItem) => c.episodes > 1 && !Text.Contains(c.title, "Anime")
  }

  function LooksLikeAnime(): ContentItem -> bool {
    (c: ContentItem) => Text.Contains(c.title, "Anime") || c.genre == "Anime"
  }

  /** The three rows of the "new" tab as written: guessed from each card's
      episode count, title and genre. */
  function NewTabAsWritten(releases: seq<ContentItem>): (r: (seq<ContentItem>, seq<ContentItem>, seq<ContentItem>))
    ensures forall i :: 0 <= i < |r.0| ==> r.0[i].episodes == 1 && r.0[i] in releases
    ensures forall i :: 0 <= i < |r.1| ==> r.1[i].episodes > 1 && r.1[i] in releases
    ensures forall i :: 0 <= i < |r.2| ==> (Text.Contains(r.2[i].title, "Anime") || r.2[i].genre == "Anime") && r.2[i] in releases
  {
    (Seqs.Filter(releases, EpisodesIsOne()), Seqs.Filter(releases, LooksLikeShow()), Seqs.Filter(releases, LooksLikeAnime()))
  }

  /** An anime titled "Naruto" in genre "Ação" with five episodes lands among
      the new shows and not among the new animes; a show drawn with one
      episode lands among the new movies. */
  lemma NewTabAsWrittenMisfiles()
    ensures var naruto := ContentItem(1, "Naruto", "/n.jpg", 8.0, 5, "Ação");
            var tab := NewTabAsWritten([naruto]);
            tab.1 == [naruto] && tab.2 == []
    ensures var show := ContentItem(2, "Dark", "/d.jpg", 8.0, 1, "Drama");
            NewTabAsWritten([show]).0 == [show]
  {
    var naruto := ContentItem(1, "Naruto", "/n.jpg", 8.0, 5, "Ação");
    assert !Text.Contains("Naruto", "Anime") by {
      assert forall i :: 0 <= i < |"Naruto"| ==> "Naruto"[i] != 'A';
      Text.NotContainsWithoutFirstChar("Naruto", "Anime");
    }
    assert "Ação" != "Anime" by {
      assert "Ação"[1] == 'ç';
    }
    assert [naruto][1..] == [];
  }

  /** The three rows of the "new" tab as intended: the movie, show and anime
      parts of the new releases, by where each card came from. */
  function NewTab(movies: seq<Movie>, shows: seq<TvShow>, animes: seq<Anime>, rand: int -> nat): (r: (seq<ContentItem>, seq<ContentItem>, seq<ContentItem>))
    ensures r.0 + r.1 + r.2 == NewReleases(movies, shows, animes, rand)
    ensures |r.0| == Min(|movies|, 5) && |r.1| == Min(|shows|, 5) && |r.2| == Min(|animes|, 5)
    ensures forall i :: 0 <= i < |r.2| ==> r.2[i].id == LastN(animes, 5)[i].id
  {
    (Seqs.Map(LastN(movies, 5), MovieCard()), Seqs.Map(LastN(shows, 5), ReleaseShowCard(rand)), Seqs.Map(LastN(animes, 5), ReleaseAnimeCard(rand)))
  }

  // ---------------------------------------------------------------------
  // Filter badges

  function IsNot(f: string): string -> bool {
    (x: string) => x != f
  }

  /** `toggleFilter(f)`: a present filter is removed, an absent one appended. */
  function ToggleFilter(filters: seq<string>, f: string): (r: seq<string>)
    ensures f in r <==> f !in filters
    ensures forall x :: x != f ==> (x in r <==> x in filters)
    ensures f !in filters ==> r == filters + [f]
  {
    if f in filters then
      var r := Seqs.Filter(filters, IsNot(f));
      assert forall x :: x != f && x in filters ==> x in r by {
        forall x | x != f && x in filters ensures x in r {
          var i :| 0 <= i < |filters| && filters[i] == x;
          assert IsNot(f)(filters[i]);
        }
      }
      r
    else filters + [f]
  }

  /** Removing a filter listed once deletes it in place: the filters before
      and after it keep their order. */
  lemma ToggleRemovesInPlace(before: seq<string>, f: string, after: seq<string>)
    requires f !in before && f !in after
    ensures ToggleFilter(before + [f] + after, f) == before + after
  {
    var all := before + [f] + after;
    assert all[|before|] == f;
    forall i | 0 <= i < |all| && i != |before| ensures IsNot(f)(all[i]) {
      if i < |before| {
        assert all[i] == before[i];
      } else {
        assert all[i] == after[i - |before| - 1];
      }
    }
    Seqs.FilterDeletesOne(all, |before|, IsNot(f));
    assert all[..|before|] == before;
    assert all[|before| + 1..] == after;
  }

  /** Toggling an absent filter twice gives back the original list. */
  lemma ToggleTwice(filters: seq<string>, f: string)
    requires f !in filters
    ensures ToggleFilter(ToggleFilter(filters, f), f) == filters
  {
    var once := filters + [f];
    Seqs.FilterConcat(filters, [f], IsNot(f));
    assert Seqs.Filter([f], IsNot(f)) == [] by {
      assert [f][1..] == [];
    }
    forall i | 0 <= i < |filters| ensures IsNot(f)(filters[i]) {
    }
  }
}

=== FILE: downloads.dfy ===
/** The simulated download queue of app/downloads/page.tsx: a list of
    downloads, each with a status and a progress percentage, advanced by a
    periodic tick, paused and resumed, and deleted. The interval itself, the
    clock and the date formatting are parameters: a tick is one call of
    `Tick` with the time it stamps. */
module Downloads {
  import opened Wrappers
  import Seqs

  datatype Status = Completed | Downloading | Paused | Queued

  /** A download; `kind` and `size` are the display strings of the source. */
  datatype Download = Download(id: int, title: string, kind: string, poster: string, downloadedAt: Option<string>, status: Status, progress: int, size: string)

  /** The four downloads the page starts with. */
  const Initial: seq<Download> := [
    Download(1, "The Last of Us - S01E09", "tvshow", "/thelastofus.jpeg?height=200&width=350&text=thelastofus", Some("2024-03-09T14:30:00Z"), Completed, 100, "1.2 GB"),
    Download(2, "Duna: Parte 2", "movie", "/Duna2.jpeg?height=200&width=350&text=Duna", Some("2024-03-08T20:15:00Z"), Completed, 100, "2.8 GB"),
    Download(3, "Attack on Titan - S04E12", "anime", "/placeholder.svg?height=200&width=350&text=AOT", None, Downloading, 65, "850 MB"),
    Download(4, "The Crown - S05E01", "tvshow", "/placeholder.svg?height=200&width=350&text=Crown", None, Queued, 0, "1.5 GB")
  ]

  /** Every progress lies in 0..100. */
  predicate Bounded(list: seq<Download>) {
    forall i :: 0 <= i < |list| ==> 0 <= list[i].progress <= 100
  }

  predicate UniqueIds(list: seq<Download>) {
    forall i, j :: 0 <= i < j < |list| ==> list[i].id != list[j].id
  }

  /** The initial list has distinct ids and bounded progress. */
  lemma InitialWellFormed()
    ensures UniqueIds(Initial) && Bounded(Initial)
  {
  }

  /** The message raised when a download completes. */
  function CompletedMessage(title: string): string {
    title + " foi baixado com sucesso!"
  }

  /** One tick on one download at time `now`: an active download below 100
      gains 5 points, capped at 100; reaching 100 completes it, stamps it and
      raises the completion message. Anything else is left as it is. */
  function TickOne(d: Download, now: string): (r: (Download, Option<string>))
    ensures r.0.id == d.id && r.0.title == d.title
    ensures !(d.status == Downloading && d.progress < 100) ==> r == (d, None)
    ensures d.status == Downloading && d.progress + 5 < 100 ==>
              r == (d.(progress := d.progress + 5), None)
    ensures d.status == Downloading && d.progress < 100 <= d.progress + 5 ==>
              r == (d.(progress := 100, status := Completed, downloadedAt := Some(now)), Some(CompletedMessage(d.title)))
    ensures d.progress <= 100 ==> r.0.progress <= 100
    ensures d.progress <= r.0.progress
  {
    if d.status == Downloading && d.progress < 100 then
      var p := if d.progress + 5 < 100 then d.progress + 5 else 100;
      if p == 100 then
        (d.(progress := p, status := Completed, downloadedAt := Some(now)), Some(CompletedMessage(d.title)))
      else (d.(progress := p), None)
    else (d, None)
  }

  /** The messages a tick raises, one per download it completes, in order. */
  function Completions(list: seq<Download>, now: string): (r: seq<string>)
    ensures r == Seqs.Map(Seqs.Filter(list, AboutToComplete), MessageOf)
    ensures |r| <= |list|
    ensures forall i :: 0 <= i < |r| ==> exists j :: 0 <= j < |list| && AboutToComplete(list[j]) && r[i] == CompletedMessage(list[j].title)
    ensures (forall j :: 0 <= j < |list| ==> !AboutToComplete(list[j])) ==> r == []
  {
    MessagesOfCompleting(list);
    TickMessages(list, now)
  }

  /** The messages of each download's own tick, collected in list order. */
  function TickMessages(list: seq<Download>, now: string): (r: seq<string>)
    ensures r == Seqs.Map(Seqs.Filter(list, AboutToComplete), MessageOf)
    decreases |list|
  {
    if |list| == 0 then []
    else
      var rest := TickMessages(list[1..], now);
      CompletionsStep(list);
      var head := TickOne(list[0], now).1;
      TickMessage(list[0], now);
      if head.Some? then [head.value] + rest else rest
  }

  /** A tick announces a download exactly when it completes it. */
  lemma TickMessage(d: Download, now: string)
    ensures TickOne(d, now).1 == if AboutToComplete(d) then Some(MessageOf(d)) else None
  {
  }

  /** One step of the reference definition: the head's message, if it
      completes, then the tail's. */
  lemma CompletionsStep(list: seq<Download>)
    requires |list| > 0
    ensures Seqs.Map(Seqs.Filter(list, AboutToComplete), MessageOf)
            == (if AboutToComplete(list[0]) then [MessageOf(list[0])] else []) + Seqs.Map(Seqs.Filter(list[1..], AboutToComplete), MessageOf)
  {
    Seqs.MapFilterStep(list, AboutToComplete, MessageOf);
  }

  /** What the reference definition says message by message. */
  lemma MessagesOfCompleting(list: seq<Download>)
    ensures var r := Seqs.Map(Seqs.Filter(list, AboutToComplete), MessageOf);
            && |r| <= |list|
            && (forall i :: 0 <= i < |r| ==> exists j :: 0 <= j < |list| && AboutToComplete(list[j]) && r[i] == CompletedMessage(list[j].title))
            && ((forall j :: 0 <= j < |list| ==> !AboutToComplete(list[j])) ==> r == [])
  {
    var f := Seqs.Filter(list, AboutToComplete);
    var r := Seqs.Map(f, MessageOf);
    forall i | 0 <= i < |r| ensures exists j :: 0 <= j < |list| && AboutToComplete(list[j]) && r[i] == CompletedMessage(list[j].title) {
      assert f[i] in list;
      var j :| 0 <= j < |list| && list[j] == f[i];
    }
    if forall j :: 0 <= j < |list| ==> !AboutToComplete(list[j]) {
      Seqs.FilterNone(list, AboutToComplete);
    }
  }

  /** The message announcing a completed download. */
  function MessageOf(d: Download): string {
    CompletedMessage(d.title)
  }

  /** A download the next tick completes. */
  predicate AboutToComplete(d: Download) {
    d.status == Downloading && d.progress < 100 <= d.progress + 5
  }

  /** The interval's reducer: every download ticks once. */
  function Tick(list: seq<Download>, now: string): (r: (seq<Download>, seq<string>))
    ensures |r.0| == |list|
    ensures forall i :: 0 <= i < |list| ==> r.0[i] == TickOne(list[i], now).0
    ensures Bounded(list) ==> Bounded(r.0)
    ensures UniqueIds(list) ==> UniqueIds(r.0)
    ensures r.1 == Completions(list, now)
  {
    (Seqs.Map(list, (d: Download) => TickOne(d, now).0), Completions(list, now))
  }

  /** A download that is not mid-transfer is left alone by a tick. */
  lemma IdleUnchanged(list: seq<Download>, now: string, i: nat)
    requires i < |list| && list[i].status in {Queued, Paused, Completed}
    ensures Tick(list, now).0[i] == list[i]
  {
  }

  /** The number of ticks an active download at progress `p` needs to finish. */
  function TicksToComplete(p: int): nat
    requires p < 100
  {
    (104 - p) / 5
  }

  /** One download ticked once per time in `times`. */
  function TickAll(d: Download, times: seq<string>): Download
    decreases |times|
  {
    if |times| == 0 then d else TickAll(TickOne(d, times[0]).0, times[1..])
  }

  /** An active download below 100 keeps downloading, 5 points further per
      tick, until its last needed tick. */
  lemma {:induction false} StillDownloading(d: Download, times: seq<string>)
    requires d.status == Downloading && d.progress < 100
    requires |times| < TicksToComplete(d.progress)
    ensures TickAll(d, times) == d.(progress := d.progress + 5 * |times|)
    decreases |times|
  {
    if |times| > 0 {
      var e := TickOne(d, times[0]).0;
      assert e == d.(progress := d.progress + 5);
      StillDownloading(e, times[1..]);
    }
  }

  /** ... and then completes, exactly at 100, stamped with the time of the
      tick that finished it. */
  lemma {:induction false} CompletesOnTime(d: Download, times: seq<string>)
    requires d.status == Downloading && d.progress < 100
    requires |times| == TicksToComplete(d.progress)
    ensures |times| > 0
    ensures TickAll(d, times) == d.(progress := 100, status := Completed, downloadedAt := Some(times[|times| - 1]))
    decreases |times|
  {
    var e := TickOne(d, times[0]).0;
    if d.progress + 5 < 100 {
      assert e == d.(progress := d.progress + 5);
      CompletesOnTime(e, times[1..]);
      assert times[1..][|times[1..]| - 1] == times[|times| - 1];
    } else {
      assert times[1..] == [];
    }
  }

  /** A completed download is never touched again. */
  lemma {:induction false} CompletedIsFinal(d: Download, times: seq<string>)
    requires d.status == Completed
    ensures TickAll(d, times) == d
    decreases |times|
  {
    if |times| > 0 {
      CompletedIsFinal(d, times[1..]);
    }
  }

  function OtherId(id: int): Download -> bool {
    (d: Download) => d.id != id
  }

  /** `handleDelete(id)`: the downloads with that id go; the others stay in
      order. */
  function Delete(list: seq<Download>, id: int): (r: seq<Download>)
    ensures forall i :: 0 <= i < |r| ==> r[i].id != id && r[i] in list
    ensures forall i :: 0 <= i < |list| && list[i].id != id ==> list[i] in r
    ensures (forall i :: 0 <= i < |list| ==> list[i].id != id) ==> r == list
    ensures Bounded(list) ==> Bounded(r)
  {
    Seqs.Filter(list, OtherId(id))
  }

  /** Deleting keeps the order of what remains. */
  lemma DeleteKeepsOrder(a: seq<Download>, b: seq<Download>, id: int)
    ensures Delete(a + b, id) == Delete(a, id) + Delete(b, id)
  {
    Seqs.FilterConcat(a, b, OtherId(id));
  }

  /** The status a pause/resume click moves to, from the status the button
      was rendered with. */
  function Flipped(status: Status): (r: Status)
    ensures r == Paused <==> status == Downloading
    ensures r == Downloading <==> status != Downloading
  {
    if status == Downloading then Paused else Downloading
  }

  /** The message of a pause/resume click. */
  function PauseResumeMessage(status: Status): string {
    if Flipped(status) == Downloading then "Download retomado" else "Download pausado"
  }

  /** `handlePauseResume(id, status)`: every download with the id takes the
      flipped status; nothing else changes. */
  function PauseResume(list: seq<Download>, id: int, status: Status): (r: seq<Download>)
    ensures |r| == |list|
    ensures forall i :: 0 <= i < |list| && list[i].id == id ==> r[i] == list[i].(status := Flipped(status))
    ensures forall i :: 0 <= i < |list| && list[i].id != id ==> r[i] == list[i]
  {
    Seqs.Map(list, (d: Download) => if d.id == id then d.(status := Flipped(status)) else d)
  }

  /** Pausing and then resuming, each from the status shown, gives back the
      same list. */
  lemma PauseThenResume(list: seq<Download>, i: nat)
    requires i < |list| && list[i].status == Downloading
    requires UniqueIds(list)
    ensures var paused := PauseResume(list, list[i].id, list[i].status);
            paused[i].status == Paused && PauseResume(paused, list[i].id, paused[i].status) == list
  {
    var paused := PauseResume(list, list[i].id, list[i].status);
    var back := PauseResume(paused, list[i].id, paused[i].status);
    assert forall j :: 0 <= j < |list| ==> back[j] == list[j];
  }

  /** `formatDate`: a missing or empty stamp shows as a dash; any other stamp
      goes to the locale formatter, which is a parameter here. */
  function FormatDate(stamp: Option<string>, format: string -> string): (r: string)
    ensures stamp.None? || stamp.value == "" ==> r == "—"
    ensures stamp.Some? && stamp.value != "" ==> r == format(stamp.value)
  {
    match stamp
    case Some(s) => if s == "" then "—" else format(s)
    case None => "—"
  }
}

=== FILE: featured_content.dfy ===
/** The featured banner of app/components/featured-content.tsx: one movie,
    show or anime with its title, backdrop, genres and kind label, and a
    watchlist button. */
module FeaturedContent {
  import opened Catalog
  import Genres
  import Seqs
  import Text
  import Watchlist
  import Toasts
  import opened Wrappers

  /** The featured title, tagged by the `type` prop. */
  datatype Featured = FeaturedMovie(movie: Movie) | FeaturedShow(show: TvShow) | FeaturedAnime(anime: Anime)

  function Id(f: Featured): int {
    match f
    case FeaturedMovie(m) => m.id
    case FeaturedShow(s) => s.id
    case FeaturedAnime(a) => a.id
  }

  function Kind(f: Featured): Watchlist.MediaKind {
    match f
    case FeaturedMovie(_) => Watchlist.Movie
    case FeaturedShow(_) => Watchlist.TvShow
    case FeaturedAnime(_) => Watchlist.Anime
  }

  /** `getTitle()`: a show's name, a movie's or anime's title. */
  function Title(f: Featured): (r: string)
    ensures f.FeaturedShow? ==> r == f.show.name
    ensures f.FeaturedMovie? ==> r == f.movie.title
    ensures f.FeaturedAnime? ==> r == f.anime.title
  {
    match f
    case FeaturedShow(s) => s.name
    case FeaturedMovie(m) => m.title
    case FeaturedAnime(a) => a.title
  }

  /** `getImage()`: the full-size backdrop rule for movies and shows, the
      cover image as it is for animes. */
  function Image(f: Featured): (r: string)
    ensures f.FeaturedMovie? ==> r == ImageUrl(BackdropBase, f.movie.backdropPath)
    ensures f.FeaturedShow? ==> r == ImageUrl(BackdropBase, f.show.backdropPath)
    ensures f.FeaturedAnime? ==> r == f.anime.coverImage
  {
    match f
    case FeaturedMovie(m) => ImageUrl(BackdropBase, m.backdropPath)
    case FeaturedShow(s) => ImageUrl(BackdropBase, s.backdropPath)
    case FeaturedAnime(a) => a.coverImage
  }

  /** The backdrop of a movie or show is a placeholder path exactly when its
      source path is one; otherwise it is the path behind the full-size image
      server, from which the path can be read back. */
  lemma BackdropRule(m: Movie)
    ensures Text.StartsWith(m.backdropPath, PlaceholderPrefix) ==> Image(FeaturedMovie(m)) == m.backdropPath
    ensures !Text.StartsWith(m.backdropPath, PlaceholderPrefix) ==>
              Text.StartsWith(Image(FeaturedMovie(m)), BackdropBase) && Image(FeaturedMovie(m))[|BackdropBase|..] == m.backdropPath
  {
    var r := Image(FeaturedMovie(m));
    if !Text.StartsWith(m.backdropPath, PlaceholderPrefix) {
      assert r == BackdropBase + m.backdropPath;
      assert r[..|BackdropBase|] == BackdropBase;
    }
  }

  /** `getGenres()`: the first two genres, joined with ", "; movie and show
      genres are ids read through the genre table. */
  function GenreLine(f: Featured): (r: string)
    ensures f.FeaturedAnime? ==> r == Text.Join(Seqs.Take(f.anime.genres, 2), ", ")
    ensures f.FeaturedMovie? ==> r == Text.Join(Seqs.Map(Seqs.Take(f.movie.genreIds, 2), Genres.Name), ", ")
    ensures f.FeaturedShow? ==> r == Text.Join(Seqs.Map(Seqs.Take(f.show.genreIds, 2), Genres.Name), ", ")
  {
    match f
    case FeaturedAnime(a) => Text.Join(Seqs.Take(a.genres, 2), ", ")
    case FeaturedMovie(m) => Text.Join(Seqs.Map(Seqs.Take(m.genreIds, 2), Genres.Name), ", ")
    case FeaturedShow(s) => Text.Join(Seqs.Map(Seqs.Take(s.genreIds, 2), Genres.Name), ", ")
  }

  /** A movie whose first two genres are 28 and 12 shows "Ação, Aventura". */
  lemma GenreLineOfListedIds(m: Movie)
    requires |m.genreIds| >= 2 && m.genreIds[0] == 28 && m.genreIds[1] == 12
    ensures GenreLine(FeaturedMovie(m)) == "Ação" + ", " + "Aventura"
  {
    FirstTwoNames();
    var names := Seqs.Map(Seqs.Take(m.genreIds, 2), Genres.Name);
    assert |names| == 2 && names[0] == "Ação" && names[1] == "Aventura";
    JoinTwo(names, ", ");
  }

  lemma FirstTwoNames()
    ensures Genres.Name(28) == "Ação" && Genres.Name(12) == "Aventura"
  {
    Genres.FullTableIds();
    Genres.FullTableNames();
    Genres.NameOfListed(Genres.FullTable, 0);
    Genres.NameOfListed(Genres.FullTable, 1);
  }

  /** A movie whose only genre id is unknown shows "Desconhecido". */
  lemma GenreLineOfUnknownId(m: Movie)
    requires m.genreIds == [0]
    ensures GenreLine(FeaturedMovie(m)) == Genres.Unknown
  {
    Genres.Fallbacks();
    assert Seqs.Map(Seqs.Take(m.genreIds, 2), Genres.Name) == [Genres.Unknown];
  }

  lemma JoinTwo(parts: seq<string>, sep: string)
    requires |parts| == 2
    ensures Text.Join(parts, sep) == parts[0] + sep + parts[1]
  {
    assert |parts[1..]| == 1;
  }

  /** The kind label beside the genres. */
  function KindLabel(f: Featured): (r: string)
    ensures r == "Filme" <==> f.FeaturedMovie?
    ensures r == "Série" <==> f.FeaturedShow?
    ensures r == "Anime" <==> f.FeaturedAnime?
  {
    match f
    case FeaturedMovie(_) => "Filme"
    case FeaturedShow(_) => "Série"
    case FeaturedAnime(_) => "Anime"
  }

  /** The entry the watchlist button saves. */
  function Item(f: Featured): (r: Watchlist.NewItem)
    ensures r.id == Id(f) && r.title == Title(f) && r.kind == Kind(f) && r.poster == Image(f)
  {
    Watchlist.NewItem(Id(f), Title(f), Kind(f), Image(f))
  }

  /** `handleWatchlist()`: a saved title is removed, any other is added with
      its title, kind and backdrop. */
  function HandleWatchlist(list: seq<Watchlist.Entry>, f: Featured, now: string): (r: seq<Watchlist.Entry>)
    ensures Watchlist.Has(r, Id(f)) <==> !Watchlist.Has(list, Id(f))
    ensures !Watchlist.Has(list, Id(f)) ==> r == list + [Watchlist.Entry(Id(f), Title(f), Kind(f), Image(f), now)]
    ensures Watchlist.Has(list, Id(f)) ==>
              && (forall i :: 0 <= i < |list| && list[i].id != Id(f) ==> list[i] in r)
              && (forall i :: 0 <= i < |r| ==> r[i] in list)
    ensures Watchlist.UniqueIds(list) ==> Watchlist.UniqueIds(r)
  {
    Watchlist.Toggle(list, Item(f), now).0
  }

  /** Two presses on an unsaved title leave the list as it was. */
  lemma PressTwice(list: seq<Watchlist.Entry>, f: Featured, t1: string, t2: string)
    requires !Watchlist.Has(list, Id(f))
    ensures HandleWatchlist(HandleWatchlist(list, f, t1), f, t2) == list
  {
    Watchlist.ToggleTwice(list, Item(f), t1, t2);
  }

  /** `handlePlay()`: a two-second notice naming the title. */
  function PlayNotice(f: Featured): (r: Toasts.ToastProps)
    ensures r.title == Some("Reproduzindo " + Title(f)) && r.id.None? && r.description.None?
    ensures Toasts.Expires(r.duration) && Toasts.Delay(r.duration) == 2000
  {
    Toasts.ToastProps(None, Some("Reproduzindo " + Title(f)), None, Some(Toasts.Ms(2000)))
  }
}

=== FILE: genre_cards.dfy ===
/** The genre panel of components/genre-cards.tsx: for one genre name, the
    movies, shows and animes of that genre as cards with a year, behind three
    tabs that show skeletons while anything loads, at most ten cards, or a
    "nothing found" line. The calendar year of a date is a parameter. */
module GenreCards {
  import opened Catalog
  import Genres
  import Seqs

  /** `getFullYear()` of a date, or "N/A" when there is no date. */
  datatype Year = Year(year: int) | NotAvailable

  /** A card of the panel. */
  datatype Card = Card(id: int, title: string, image: string, rating: real, year: Year)

  /** The panel's own `getGenreId`: its table has the same 27 entries as the
      shared one. */
  function GenreId(name: string): int {
    Genres.Id(name)
  }

  /** The local table finds the id of every listed name, and 0 for any other
      name. */
  lemma GenreIdMapsTable(name: string)
    ensures forall k :: 0 <= k < |Genres.FullTable| && Genres.FullTable[k].name == name ==> GenreId(name) == Genres.FullTable[k].id
    ensures (forall k :: 0 <= k < |Genres.FullTable| ==> Genres.FullTable[k].name != name) ==> GenreId(name) == 0
  {
    Genres.FullTableIds();
    Genres.FullTableNames();
    forall k | 0 <= k < |Genres.FullTable| && Genres.FullTable[k].name == name ensures GenreId(name) == Genres.FullTable[k].id {
      Genres.IdOfListed(Genres.FullTable, k);
    }
  }

  /** `date ? new Date(date).getFullYear() : "N/A"`. */
  function YearOf(date: string, fullYear: string -> int): (r: Year)
    ensures r == NotAvailable <==> date == ""
    ensures date != "" ==> r.year == fullYear(date)
  {
    if date != "" then Year(fullYear(date)) else NotAvailable
  }

  function MovieCard(fullYear: string -> int): Movie -> Card {
    (m: Movie) => Card(m.id, m.title, PosterUrl(m.posterPath), m.voteAverage, YearOf(m.releaseDate, fullYear))
  }

  function ShowCard(fullYear: string -> int): TvShow -> Card {
    (s: TvShow) => Card(s.id, s.name, PosterUrl(s.posterPath), s.voteAverage, YearOf(s.firstAirDate, fullYear))
  }

  function AnimeCard(fullYear: string -> int): Anime -> Card {
    (a: Anime) => Card(a.id, a.title, a.image, a.score, YearOf(a.startDate, fullYear))
  }

  /** `filteredMovies`: the movies whose ids include the genre's id. */
  function FilteredMovies(movies: seq<Movie>, genre: string, fullYear: string -> int): (r: seq<Card>)
    ensures Selects(r, movies, HasGenreId(GenreId(genre)), MovieCard(fullYear))
    ensures |r| <= |movies|
  {
    Row(movies, HasGenreId(GenreId(genre)), MovieCard(fullYear))
  }

  /** `filteredTVShows`: the shows whose ids include the genre's id. */
  function FilteredShows(shows: seq<TvShow>, genre: string, fullYear: string -> int): (r: seq<Card>)
    ensures Selects(r, shows, ShowHasGenreId(GenreId(genre)), ShowCard(fullYear))
    ensures |r| <= |shows|
  {
    Row(shows, ShowHasGenreId(GenreId(genre)), ShowCard(fullYear))
  }

  /** `filteredAnimes`: the animes whose genres include the genre name
      itself. */
  function FilteredAnimes(animes: seq<Anime>, genre: string, fullYear: string -> int): (r: seq<Card>)
    ensures Selects(r, animes, AnimeHasGenre(genre), AnimeCard(fullYear))
    ensures |r| <= |animes|
  {
    Row(animes, AnimeHasGenre(genre), AnimeCard(fullYear))
  }

  /** The filters keep the catalog order: filtering a concatenation gives the
      concatenation of the filtered parts. */
  lemma FilteredMoviesKeepOrder(a: seq<Movie>, b: seq<Movie>, genre: string, fullYear: string -> int)
    ensures FilteredMovies(a + b, genre, fullYear) == FilteredMovies(a, genre, fullYear) + FilteredMovies(b, genre, fullYear)
  {
    RowConcat(a, b, HasGenreId(GenreId(genre)), MovieCard(fullYear));
  }

  /** A movie card carries the poster rule and reads "N/A" exactly for a
      movie without a release date. */
  lemma MovieCardFields(m: Movie, fullYear: string -> int)
    ensures MovieCard(fullYear)(m).image == PosterUrl(m.posterPath)
    ensures MovieCard(fullYear)(m).year == NotAvailable <==> m.releaseDate == ""
  {
  }

  /** An unknown genre name matches no movie or show with a real genre id:
      its id is 0. */
  lemma UnknownGenreFindsNoMovie(movies: seq<Movie>, genre: string, fullYear: string -> int)
    requires forall k :: 0 <= k < |Genres.FullTable| ==> Genres.FullTable[k].name != genre
    requires forall j :: 0 <= j < |movies| ==> 0 !in movies[j].genreIds
    ensures FilteredMovies(movies, genre, fullYear) == []
  {
    Genres.FallbackIffUnlisted(0, genre);
    assert GenreId(genre) == 0;
    Seqs.FilterNone(movies, HasGenreId(0));
  }

  /** What one tab shows. */
  datatype TabView = Skeletons(count: nat) | Cards(cards: seq<Card>) | NothingFound(message: string)

  /** `isLoading`: any of the three catalog lists still loading. */
  function IsLoading(moviesLoading: bool, showsLoading: bool, animesLoading: bool): bool {
    moviesLoading || showsLoading || animesLoading
  }

  /** One tab: five skeletons while loading, else the first ten cards, else
      the "nothing found" line. */
  function Tab(loading: bool, cards: seq<Card>, nothingFound: string): (r: TabView)
    ensures loading <==> r == Skeletons(5)
    ensures !loading && |cards| > 0 ==> r.Cards? && |r.cards| == (if |cards| < 10 then |cards| else 10) && r.cards <= cards
    ensures r.NothingFound? <==> !loading && |cards| == 0
    ensures r.Cards? ==> 0 < |r.cards| <= 10
  {
    if loading then Skeletons(5)
    else if |cards| > 0 then Cards(Seqs.Take(cards, 10))
    else NothingFound(nothingFound)
  }

  /** What a tab shows once every list has arrived: the first ten of its
      cards, in order, or its message when it has none. */
  predicate LoadedTab(v: TabView, cards: seq<Card>, nothingFound: string) {
    if |cards| == 0 then v == NothingFound(nothingFound)
    else v.Cards? && |v.cards| == (if |cards| < 10 then |cards| else 10) && v.cards <= cards
  }

  /** The three tabs of the panel. */
  function Panel(movies: seq<Movie>, shows: seq<TvShow>, animes: seq<Anime>, genre: string, fullYear: string -> int,
                 moviesLoading: bool, showsLoading: bool, animesLoading: bool): (r: (TabView, TabView, TabView))
    ensures IsLoading(moviesLoading, showsLoading, animesLoading) ==> r.0 == r.1 == r.2 == Skeletons(5)
    ensures !IsLoading(moviesLoading, showsLoading, animesLoading) ==>
              && LoadedTab(r.0, FilteredMovies(movies, genre, fullYear), "Nenhum filme de " + genre + " encontrado")
              && LoadedTab(r.1, FilteredShows(shows, genre, fullYear), "Nenhuma série de " + genre + " encontrada")
              && LoadedTab(r.2, FilteredAnimes(animes, genre, fullYear), "Nenhum anime de " + genre + " encontrado")
    ensures r.0.NothingFound? ==> r.0.message == "Nenhum filme de " + genre + " encontrado"
    ensures r.1.NothingFound? ==> r.1.message == "Nenhuma série de " + genre + " encontrada"
    ensures r.2.NothingFound? ==> r.2.message == "Nenhum anime de " + genre + " encontrado"
  {
    var loading := IsLoading(moviesLoading, showsLoading, animesLoading);
    (Tab(loading, FilteredMovies(movies, genre, fullYear), "Nenhum filme de " + genre + " encontrado"),
     Tab(loading, FilteredShows(shows, genre, fullYear), "Nenhuma série de " + genre + " encontrada"),
     Tab(loading, FilteredAnimes(animes, genre, fullYear), "Nenhum anime de " + genre + " encontrado"))
  }

  /** A loaded tab over the cards of the titles that pass `keep`: it says
      nothing was found exactly when no title passes, and every card it
      shows is the card of a passing title. */
  lemma LoadedTabSelects<T>(v: TabView, cards: seq<Card>, nothingFound: string, xs: seq<T>, keep: T -> bool, card: T -> Card)
    requires LoadedTab(v, cards, nothingFound) && Selects(cards, xs, keep, card)
    ensures v.NothingFound? <==> forall j :: 0 <= j < |xs| ==> !keep(xs[j])
    ensures v.Cards? ==> forall i :: 0 <= i < |v.cards| ==> exists j :: 0 <= j < |xs| && keep(xs[j]) && v.cards[i] == card(xs[j])
  {
    if |cards| > 0 {
      var j :| 0 <= j < |xs| && keep(xs[j]) && cards[0] == card(xs[j]);
      forall i | 0 <= i < |v.cards|
        ensures exists j :: 0 <= j < |xs| && keep(xs[j]) && v.cards[i] == card(xs[j])
      {
        assert v.cards[i] == cards[i];
      }
    }
  }

  /** Once loaded, the movies tab says nothing was found exactly when no
      movie carries the genre's id, and every card it shows is the card of
      a movie that does. */
  lemma LoadedMovieTab(movies: seq<Movie>, shows: seq<TvShow>, animes: seq<Anime>, genre: string, fullYear: string -> int)
    ensures var r := Panel(movies, shows, animes, genre, fullYear, false, false, false);
            && (r.0.NothingFound? <==> forall j :: 0 <= j < |movies| ==> GenreId(genre) !in movies[j].genreIds)
            && (r.0.Cards? ==> forall i :: 0 <= i < |r.0.cards| ==>
                  exists j :: 0 <= j < |movies| && GenreId(genre) in movies[j].genreIds && r.0.cards[i] == MovieCard(fullYear)(movies[j]))
  {
    var r := Panel(movies, shows, animes, genre, fullYear, false, false, false);
    LoadedTabSelects(r.0, FilteredMovies(movies, genre, fullYear), "Nenhum filme de " + genre + " encontrado",
                     movies, HasGenreId(GenreId(genre)), MovieCard(fullYear));
  }

  /** One slow list blanks every tab, including the tabs whose lists have
      arrived. */
  lemma OneSlowListBlanksAllTabs(movies: seq<Movie>, shows: seq<TvShow>, animes: seq<Anime>, genre: string, fullYear: string -> int)
    ensures var r := Panel(movies, shows, animes, genre, fullYear, false, false, true);
            r.0 == Skeletons(5) && r.1 == Skeletons(5)
  {
  }
}

=== FILE: genres.dfy ===
/** The genre tables the catalog pages share: TMDB genre ids and their
    Portuguese names. Most pages carry the full table of 27 genres; the
    movies page carries only the first 19, without the TV-only genres. A
    name lookup falls back to "Desconhecido", an id lookup to 0. */
module Genres {
  import opened Wrappers
  import Seqs

  datatype Genre = Genre(id: int, name: string)

  /** The full table, in declaration order. */
  const FullTable: seq<Genre> := [
    Genre(28, "Ação"),
    Genre(12, "Aventura"),
    Genre(16, "Animação"),
    Genre(35, "Comédia"),
    Genre(80, "Crime"),
    Genre(99, "Documentário"),
    Genre(18, "Drama"),
    Genre(10751, "Família"),
    Genre(14, "Fantasia"),
    Genre(36, "História"),
    Genre(27, "Terror"),
    Genre(10402, "Música"),
    Genre(9648, "Mistério"),
    Genre(10749, "Romance"),
    Genre(878, "Ficção Científica"),
    Genre(10770, "Cinema TV"),
    Genre(53, "Thriller"),
    Genre(10752, "Guerra"),
    Genre(37, "Faroeste"),
    Genre(10759, "Ação & Aventura"),
    Genre(10762, "Kids"),
    Genre(10763, "News"),
    Genre(10764, "Reality"),
    Genre(10765, "Sci-Fi & Fantasia"),
    Genre(10766, "Soap"),
    Genre(10767, "Talk"),
    Genre(10768, "Guerra & Política")
  ]

  /** The movies page's table: the first 19 entries of the full one. */
  const MovieTable: seq<Genre> := FullTable[..19]

  /** The name shown for an id with no entry. */
  const Unknown: string := "Desconhecido"

  predicate DistinctIds(table: seq<Genre>) {
    forall i, j :: 0 <= i < j < |table| ==> table[i].id != table[j].id
  }

  predicate DistinctNames(table: seq<Genre>) {
    forall i, j :: 0 <= i < j < |table| ==> table[i].name != table[j].name
  }

  /** No name in a table is empty or the fallback itself. */
  predicate ProperNames(table: seq<Genre>) {
    forall i :: 0 <= i < |table| ==> table[i].name != "" && table[i].name != Unknown
  }

  /** No id in a table is 0, the id fallback. */
  predicate ProperIds(table: seq<Genre>) {
    forall i :: 0 <= i < |table| ==> table[i].id != 0
  }

  /** `genres[genreId] || "Desconhecido"` over a table. */
  function NameIn(table: seq<Genre>, id: int): (r: string)
    ensures (exists i :: 0 <= i < |table| && table[i].id == id) && ProperNames(table) ==>
              exists i :: 0 <= i < |table| && table[i].id == id && r == table[i].name
    ensures (forall i :: 0 <= i < |table| ==> table[i].id != id) ==> r == Unknown
  {
    match Seqs.Find(table, (g: Genre) => g.id == id)
    case Some(g) => if g.name != "" then g.name else Unknown
    case None => Unknown
  }

  /** `genreIds[genreName] || 0` over a table. */
  function IdIn(table: seq<Genre>, name: string): (r: int)
    ensures (exists i :: 0 <= i < |table| && table[i].name == name) && ProperIds(table) ==>
              exists i :: 0 <= i < |table| && table[i].name == name && r == table[i].id
    ensures (forall i :: 0 <= i < |table| ==> table[i].name != name) ==> r == 0
  {
    match Seqs.Find(table, (g: Genre) => g.name == name)
    case Some(g) => if g.id != 0 then g.id else 0
    case None => 0
  }

  /** `getGenreName` of every page except the movies page. */
  function Name(id: int): string {
    NameIn(FullTable, id)
  }

  /** `getGenreName` of the movies page. */
  function MovieName(id: int): string {
    NameIn(MovieTable, id)
  }

  /** `getGenreId`, in the discover page and the genre cards. */
  function Id(name: string): int {
    IdIn(FullTable, name)
  }

  /** `getGenreName(genre_ids[0])`: an empty id list reads `undefined`,
      which no entry matches. */
  function FirstName(ids: seq<int>): (r: string)
    ensures |ids| == 0 ==> r == Unknown
    ensures |ids| > 0 ==> r == Name(ids[0])
  {
    if |ids| == 0 then Unknown else Name(ids[0])
  }

  /** The pairwise checks behind `FullTableIds` and `FullTableNames`, one
      block of the table at a time. */
  lemma IdsDistinctLow()
    ensures forall i, j :: 0 <= i < j < 14 ==> FullTable[i].id != FullTable[j].id
  {
  }

  lemma IdsDistinctHigh()
    ensures forall i, j :: 14 <= i < j < 27 ==> FullTable[i].id != FullTable[j].id
  {
  }

  lemma IdsDistinctAcross()
    ensures forall i, j :: 0 <= i < 14 <= j < 27 ==> FullTable[i].id != FullTable[j].id
  {
  }

  lemma NamesDistinctLow()
    ensures forall i, j :: 0 <= i < j < 14 ==> FullTable[i].name != FullTable[j].name
  {
  }

  lemma NamesDistinctHigh()
    ensures forall i, j :: 14 <= i < j < 27 ==> FullTable[i].name != FullTable[j].name
  {
  }

  lemma NamesDistinctAcross()
    ensures forall i, j :: 0 <= i < 14 <= j < 27 ==> FullTable[i].name != FullTable[j].name
  {
  }

  /** The full table has 27 entries whose ids are distinct and non-zero. */
  lemma FullTableIds()
    ensures |FullTable| == 27
    ensures DistinctIds(FullTable) && ProperIds(FullTable)
  {
    IdsDistinctLow();
    IdsDistinctHigh();
    IdsDistinctAcross();
  }

  /** The full table's names are distinct, non-empty and never the fallback. */
  lemma FullTableNames()
    ensures DistinctNames(FullTable) && ProperNames(FullTable)
  {
    NamesDistinctLow();
    NamesDistinctHigh();
    NamesDistinctAcross();
  }

  /** In a table with distinct ids and proper names, a listed id finds its
      own name. */
  lemma NameOfListed(table: seq<Genre>, k: nat)
    requires k < |table| && DistinctIds(table) && ProperNames(table)
    ensures NameIn(table, table[k].id) == table[k].name
  {
  }

  /** In a table with distinct names and proper ids, a listed name finds its
      own id. */
  lemma IdOfListed(table: seq<Genre>, k: nat)
    requires k < |table| && DistinctNames(table) && ProperIds(table)
    ensures IdIn(table, table[k].name) == table[k].id
  {
  }

  /** Name and id lookups are inverse on the full table: every listed name
      round-trips through its id, and every listed id through its name. */
  lemma RoundTrip(k: nat)
    requires k < |FullTable|
    ensures Name(Id(FullTable[k].name)) == FullTable[k].name
    ensures Id(Name(FullTable[k].id)) == FullTable[k].id
  {
    FullTableIds();
    FullTableNames();
    IdOfListed(FullTable, k);
    NameOfListed(FullTable, k);
  }

  /** The fallbacks meet: the fallback name has no id, and an unknown id
      reads as the fallback name. */
  lemma Fallbacks()
    ensures Id(Unknown) == 0
    ensures Name(0) == Unknown
  {
    FullTableNames();
    FullTableIds();
  }

  /** `getGenreName` falls back exactly for the ids the table lacks, and
      `getGenreId` exactly for the names it lacks. */
  lemma FallbackIffUnlisted(id: int, name: string)
    ensures Name(id) == Unknown <==> forall i :: 0 <= i < |FullTable| ==> FullTable[i].id != id
    ensures Id(name) == 0 <==> forall i :: 0 <= i < |FullTable| ==> FullTable[i].name != name
  {
    FullTableIds();
    FullTableNames();
    NameFallbackIff(FullTable, id);
    IdFallbackIff(FullTable, name);
  }

  lemma NameFallbackIff(table: seq<Genre>, id: int)
    requires ProperNames(table)
    ensures NameIn(table, id) == Unknown <==> forall i :: 0 <= i < |table| ==> table[i].id != id
  {
    if exists i :: 0 <= i < |table| && table[i].id == id {
      var i :| 0 <= i < |table| && table[i].id == id && NameIn(table, id) == table[i].name;
    }
  }

  lemma IdFallbackIff(table: seq<Genre>, name: string)
    requires ProperIds(table)
    ensures IdIn(table, name) == 0 <==> forall i :: 0 <= i < |table| ==> table[i].name != name
  {
    if exists i :: 0 <= i < |table| && table[i].name == name {
      var i :| 0 <= i < |table| && table[i].name == name && IdIn(table, name) == table[i].id;
    }
  }

  /** The movies page agrees with the full table on its 19 ids and reads
      every other id as unknown. */
  lemma MovieTableIsReduced(id: int)
    ensures (exists i :: 0 <= i < 19 && FullTable[i].id == id) ==> MovieName(id) == Name(id)
    ensures (forall i :: 0 <= i < 19 ==> FullTable[i].id != id) ==> MovieName(id) == Unknown
  {
    FullTableIds();
    FullTableNames();
    assert |MovieTable| == 19;
    assert forall i :: 0 <= i < 19 ==> MovieTable[i] == FullTable[i];
    if i :| 0 <= i < 19 && FullTable[i].id == id {
      NameOfListed(MovieTable, i);
      NameOfListed(FullTable, i);
    }
  }

  /** The TV-only genres are unknown to the movies page: 10765 reads
      "Sci-Fi & Fantasia" elsewhere and "Desconhecido" there. */
  lemma TvGenreUnknownToMovies()
    ensures Name(10765) == "Sci-Fi & Fantasia"
    ensures MovieName(10765) == Unknown
  {
    FullTableIds();
    FullTableNames();
    NameOfListed(FullTable, 23);
    MovieTableIsReduced(10765);
  }
}

=== FILE: header.dfy ===
/** The top bar of app/components/header.tsx: which tab is highlighted for
    the current path, where a tab leads, and the search box. Navigation is
    the path returned; `encodeURIComponent` is a parameter. */
module Header {
  import Text
  import Toasts
  import opened Wrappers

  const Tabs: seq<string> := ["movies", "tvShows", "anime"]

  /** `getActiveTab()`: the first of "/movies", "/tvshows", "/anime" that
      the path starts with names the tab; no path, or any other path, has
      none. */
  function ActiveTab(pathname: Option<string>): (r: string)
    ensures pathname.None? ==> r == ""
    ensures pathname.Some? && Text.StartsWith(pathname.value, "/movies") ==> r == "movies"
    ensures pathname.Some? && !Text.StartsWith(pathname.value, "/movies") && Text.StartsWith(pathname.value, "/tvshows") ==> r == "tvShows"
    ensures pathname.Some? && !Text.StartsWith(pathname.value, "/movies") && !Text.StartsWith(pathname.value, "/tvshows") && Text.StartsWith(pathname.value, "/anime") ==> r == "anime"
    ensures r == "" <==> pathname.None? || (!Text.StartsWith(pathname.value, "/movies") && !Text.StartsWith(pathname.value, "/tvshows") && !Text.StartsWith(pathname.value, "/anime"))
    ensures r == "" || r in Tabs
  {
    match pathname
    case None => ""
    case Some(p) =>
      if Text.StartsWith(p, "/movies") then "movies"
      else if Text.StartsWith(p, "/tvshows") then "tvShows"
      else if Text.StartsWith(p, "/anime") then "anime"
      else ""
  }

  /** `handleTabChange(tab)`: the path `/` followed by the lower-cased tab. */
  function TabPath(tab: string): (r: string)
    ensures |r| == |tab| + 1 && r[0] == '/'
  {
    "/" + Text.ToLower(tab)
  }

  /** Every tab leads to a path that highlights that same tab. */
  lemma TabRoundTrip(tab: string)
    requires tab in Tabs
    ensures ActiveTab(Some(TabPath(tab))) == tab
  {
    if tab == "movies" {
      MoviesPath();
    } else if tab == "tvShows" {
      ShowsPath();
      assert "/tvshows"[..7][1] != "/movies"[1];
    } else {
      AnimePath();
    }
  }

  lemma MoviesPath()
    ensures TabPath("movies") == "/movies"
  {
    Text.ToLowerOfLowerCase("movies");
  }

  lemma ShowsPath()
    ensures TabPath("tvShows") == "/tvshows"
  {
    LowerTvShows();
  }

  lemma LowerTvShows()
    ensures Text.ToLower("tvShows") == "tvshows"
  {
    var s, t := "tvShows", "tvshows";
    assert Text.LowerChar(s[0]) == t[0];
    assert Text.LowerChar(s[1]) == t[1];
    assert Text.LowerChar(s[2]) == t[2];
    assert Text.LowerChar(s[3]) == t[3];
    assert Text.LowerChar(s[4]) == t[4];
    assert Text.LowerChar(s[5]) == t[5];
    assert Text.LowerChar(s[6]) == t[6];
    Text.ToLowerIs(s, t);
  }

  lemma AnimePath()
    ensures TabPath("anime") == "/anime"
  {
    Text.ToLowerOfLowerCase("anime");
  }

  /** The three prefixes are disjoint, so the order they are tested in never
      decides: a path highlights a tab exactly when it starts with that tab's
      prefix. */
  lemma TabIffPrefix(p: string)
    ensures ActiveTab(Some(p)) == "movies" <==> Text.StartsWith(p, "/movies")
    ensures ActiveTab(Some(p)) == "tvShows" <==> Text.StartsWith(p, "/tvshows")
    ensures ActiveTab(Some(p)) == "anime" <==> Text.StartsWith(p, "/anime")
  {
    if Text.StartsWith(p, "/movies") {
      assert p[1] == 'm';
    } else if Text.StartsWith(p, "/tvshows") {
      assert p[1] == 't';
    }
  }

  /** What submitting the search box does: the path to go to and the notice
      to raise. */
  datatype Search = Search(path: string, notice: Toasts.ToastProps)

  const SearchPrefix: string := "/search?q="

  /** `handleSearch`: a query that is blank after trimming does nothing;
      any other goes to `/search?q=` with the encoded, untrimmed query, and
      raises a two-second notice quoting it. */
  function HandleSearch(query: string, encode: string -> string): (r: Option<Search>)
    ensures r.None? <==> Text.Trim(query) == ""
    ensures r.Some? ==> r.value.path == SearchPrefix + encode(query)
    ensures r.Some? ==> r.value.notice.title == Some("Pesquisando por \"" + query + "\"")
    ensures r.Some? ==> Toasts.Expires(r.value.notice.duration) && Toasts.Delay(r.value.notice.duration) == 2000
  {
    if Text.Trim(query) != "" then
      Some(Search(SearchPrefix + encode(query), Toasts.ToastProps(None, Some("Pesquisando por \"" + query + "\""), None, Some(Toasts.Ms(2000)))))
    else None
  }

  /** A query of spaces only, or empty, is ignored. */
  lemma BlankSearchIgnored(query: string, encode: string -> string)
    requires forall i :: 0 <= i < |query| ==> Text.IsSpace(query[i])
    ensures HandleSearch(query, encode).None?
  {
    Text.TrimEmpty(query);
  }

  /** With an injective encoder, two searches reach the same path only for
      the same query: the query can be read back from the path. */
  lemma SearchPathInjective(q1: string, q2: string, encode: string -> string)
    requires forall a, b :: encode(a) == encode(b) ==> a == b
    requires HandleSearch(q1, encode).Some? && HandleSearch(q2, encode).Some?
    requires HandleSearch(q1, encode).value.path == HandleSearch(q2, encode).value.path
    ensures q1 == q2
  {
    Text.PrefixCancel(SearchPrefix, encode(q1), encode(q2));
  }
}

=== FILE: home_page.dfy ===
/** The home page's three rows, app/page.tsx: the first five shows, the
    first five movies and the first five animes, with genres named through
    the full table. */
module HomePage {
  import opened Catalog
  import Genres

  function ShowCard(rand: int -> nat): TvShow -> ContentItem {
    (s: TvShow) => ShowItem(s, Draw(rand, s.id, 20, 5), Genres.FirstName(s.genreIds))
  }

  function MovieCard(): Movie -> ContentItem {
    (m: Movie) => MovieItem(m, Genres.FirstName(m.genreIds))
  }

  function AnimeCard(rand: int -> nat): Anime -> ContentItem {
    (a: Anime) => AnimeItem(a, Draw(rand, a.id, 24, 12), FirstGenre(a.genres))
  }

  /** `popularItems`: the first shows, titled by name. */
  function PopularItems(shows: seq<TvShow>, rand: int -> nat): (r: seq<ContentItem>)
    ensures |r| == if |shows| < 5 then |shows| else 5
    ensures forall i :: 0 <= i < |r| ==> r[i].id == shows[i].id && r[i].title == shows[i].name
    ensures forall i :: 0 <= i < |r| ==> r[i].genre == Genres.FirstName(shows[i].genreIds)
  {
    Front(shows, 5, ShowCard(rand))
  }

  /** `trendingItems`: the first movies, each one episode long. */
  function TrendingItems(movies: seq<Movie>): (r: seq<ContentItem>)
    ensures |r| == if |movies| < 5 then |movies| else 5
    ensures forall i :: 0 <= i < |r| ==> r[i].id == movies[i].id && r[i].episodes == 1
    ensures forall i :: 0 <= i < |r| ==> r[i].genre == Genres.FirstName(movies[i].genreIds)
  {
    Front(movies, 5, MovieCard())
  }

  /** `animeItems`: the first animes, rated by score and labelled with their
      first genre. */
  function AnimeItems(animes: seq<Anime>, rand: int -> nat): (r: seq<ContentItem>)
    ensures |r| == if |animes| < 5 then |animes| else 5
    ensures forall i :: 0 <= i < |r| ==> r[i].id == animes[i].id && r[i].rating == animes[i].score
    ensures forall i :: 0 <= i < |r| ==> r[i].genre == FirstGenre(animes[i].genres)
  {
    Front(animes, 5, AnimeCard(rand))
  }

  /** A movie without genres is labelled "Desconhecido". */
  lemma UntaggedMovieIsUnknown(m: Movie)
    requires |m.genreIds| == 0
    ensures TrendingItems([m])[0].genre == Genres.Unknown
  {
  }
}

=== FILE: language_preference.dfy ===
/** The validating language provider of lib/language-provider.tsx. The
    language starts at the default; once mounted, a stored value is adopted
    only if it is one of the supported codes; from then on every language is
    written under the `language` storage key and mirrored, as its part before
    "-", in the document `lang` attribute. Storage failures are caught and
    only logged. */
module LanguagePreference {
  import opened Wrappers
  import opened Languages

  /** The result of reading the `language` key: the value (or `None` when the
      key is absent), or an exception from storage. */
  datatype StorageRead = Read(value: Option<string>) | ReadThrows

  /** Whether writing to storage succeeds or throws. */
  datatype StorageWrite = WriteSucceeds | WriteThrows

  /** The provider's state with the two pieces of the page it writes: the
      stored `language` value and the document `lang` attribute. */
  datatype Provider = Provider(language: string, mounted: bool, stored: Option<string>, docLang: string)

  /** The language is a supported code. */
  predicate Valid(p: Provider) {
    IsSupported(p.language)
  }

  /** Once mounted, storage and the document agree with the language, as long
      as every write succeeded. */
  predicate Persisted(p: Provider) {
    p.mounted && p.stored == Some(p.language) && p.docLang == LangAttribute(p.language)
  }

  /** The first render: the default language, not mounted, and storage and
      the document untouched. */
  function Create(defaultLanguage: string, stored: Option<string>, docLang: string): (p: Provider)
    requires IsSupported(defaultLanguage)
    ensures p.language == defaultLanguage && !p.mounted
    ensures p.stored == stored && p.docLang == docLang
    ensures Valid(p)
  {
    Provider(defaultLanguage, false, stored, docLang)
  }

  /** The save effect: with the provider mounted, write the language and then
      the document attribute; a throwing write skips both, and is swallowed. */
  function Save(p: Provider, write: StorageWrite): (r: Provider)
    ensures r.language == p.language && r.mounted == p.mounted
    ensures !p.mounted ==> r == p
    ensures p.mounted && write == WriteSucceeds ==> Persisted(r)
    ensures write == WriteThrows ==> r == p
  {
    if p.mounted && write == WriteSucceeds then
      p.(stored := Some(p.language), docLang := LangAttribute(p.language))
    else p
  }

  /** The stored value the mount effect adopts: present, non-empty and one
      of the supported codes. */
  function Adoptable(read: StorageRead): Option<string> {
    match read
    case Read(Some(v)) => if v != "" && IsSupported(v) then Some(v) else None
    case _ => None
  }

  /** The mount effect followed by the save effect it triggers. */
  function Mount(p: Provider, read: StorageRead, write: StorageWrite): (r: Provider)
    ensures r.mounted
    ensures Adoptable(read).Some? ==> r.language == Adoptable(read).value
    ensures Adoptable(read).None? ==> r.language == p.language
    ensures write == WriteSucceeds ==> Persisted(r)
    ensures write == WriteThrows ==> r.stored == p.stored && r.docLang == p.docLang
    ensures Valid(p) ==> Valid(r)
  {
    var language := if Adoptable(read).Some? then Adoptable(read).value else p.language;
    Save(p.(mounted := true, language := language), write)
  }

  /** `setLanguage(code)`. Setting the current language re-renders nothing and
      writes nothing; a new language is saved only once mounted. */
  function SetLanguage(p: Provider, code: string, write: StorageWrite): (r: Provider)
    requires IsSupported(code)
    ensures r.language == code && r.mounted == p.mounted
    ensures !p.mounted ==> r.stored == p.stored && r.docLang == p.docLang
    ensures code == p.language ==> r == p
    ensures code != p.language && p.mounted && write == WriteSucceeds ==> Persisted(r)
    ensures Valid(r)
  {
    if code == p.language then p else Save(p.(language := code), write)
  }

  /** A corrupt stored value is ignored and the default stays in effect: for
      instance "fr-FR" is not adopted, and a throwing read changes nothing. */
  lemma UnsupportedValueIgnored(stored: Option<string>, docLang: string)
    ensures Mount(Create(DefaultCode, stored, docLang), Read(Some("fr-FR")), WriteSucceeds).language == DefaultCode
    ensures Mount(Create(DefaultCode, stored, docLang), ReadThrows, WriteSucceeds).language == DefaultCode
  {
  }

  /** After mount, as long as writes succeed, storage and the document follow
      the language through any sequence of language changes. */
  lemma {:induction false} ChangesStayPersisted(p: Provider, codes: seq<string>)
    requires Persisted(p)
    requires forall i :: 0 <= i < |codes| ==> IsSupported(codes[i])
    ensures Persisted(ApplyAll(p, codes))
    ensures |codes| > 0 ==> ApplyAll(p, codes).language == codes[|codes| - 1]
    decreases |codes|
  {
    if |codes| > 0 {
      var q := SetLanguage(p, codes[0], WriteSucceeds);
      assert Persisted(q);
      var rest := codes[1..];
      assert forall i :: 0 <= i < |rest| ==> IsSupported(rest[i]) by {
        forall i | 0 <= i < |rest| ensures IsSupported(rest[i]) {
          assert rest[i] == codes[i + 1];
        }
      }
      assert ApplyAll(p, codes) == ApplyAll(q, rest);
      ChangesStayPersisted(q, rest);
      if |rest| > 0 {
        assert rest[|rest| - 1] == codes[|codes| - 1];
      } else {
        assert ApplyAll(q, rest) == q;
      }
    }
  }

  /** A sequence of `setLanguage` calls whose writes all succeed. */
  function ApplyAll(p: Provider, codes: seq<string>): Provider
    requires forall i :: 0 <= i < |codes| ==> IsSupported(codes[i])
    decreases |codes|
  {
    if |codes| == 0 then p else ApplyAll(SetLanguage(p, codes[0], WriteSucceeds), codes[1..])
  }

  /** Before mount nothing is written, whatever languages are set. */
  lemma {:induction false} NothingWrittenBeforeMount(p: Provider, codes: seq<string>)
    requires !p.mounted
    requires forall i :: 0 <= i < |codes| ==> IsSupported(codes[i])
    ensures ApplyAll(p, codes).stored == p.stored
    ensures ApplyAll(p, codes).docLang == p.docLang
    ensures !ApplyAll(p, codes).mounted
    decreases |codes|
  {
    if |codes| > 0 {
      NothingWrittenBeforeMount(SetLanguage(p, codes[0], WriteSucceeds), codes[1..]);
    }
  }

  /** `useLanguage()` reads the nearest provider's language; outside any
      provider it reads the context's default, "pt-BR". */
  function UseLanguage(provider: Option<Provider>): (language: string)
    ensures provider.None? ==> language == DefaultCode
    ensures provider.Some? ==> language == provider.value.language
  {
    match provider
    case Some(p) => p.language
    case None => DefaultCode
  }
}

=== FILE: language_switcher.dfy ===
/** The two flag switchers: the popover of app/components/language-switcher.tsx,
    which works with the validating provider, closes itself and announces the
    change, and the dropdown menu of components/language-switcher.tsx, which
    works with the second provider and only sets the language. Both show the
    flag of the current language from the same table. */
module LanguageSwitcher {
  import Seqs
  import Toasts
  import Languages
  import LanguagePreference
  import LooseLanguagePreference
  import opened Wrappers

  datatype FlagOption = FlagOption(code: string, name: string, flag: string)

  /** The table both switchers list, in this order. */
  const Flags: seq<FlagOption> := [
    FlagOption("pt-BR", "Português", "🇧🇷"),
    FlagOption("en-US", "English", "🇺🇸"),
    FlagOption("es-ES", "Español", "🇪🇸"),
    FlagOption("ru-RU", "Русский", "🇷🇺")
  ]

  /** The flag shown when the language is not in the table. */
  const DefaultFlag: string := "🇧🇷"

  /** The table lists exactly the supported codes, in order, each with its
      own flag and its own label. */
  lemma FlagsTable()
    ensures |Flags| == |Languages.Codes|
    ensures forall i :: 0 <= i < |Flags| ==> Flags[i].code == Languages.Codes[i]
    ensures forall i, j :: 0 <= i < j < |Flags| ==> Flags[i].flag != Flags[j].flag && Flags[i].name != Flags[j].name
    ensures forall i :: 0 <= i < |Flags| ==> Flags[i].flag != ""
  {
  }

  function HasCode(code: string): FlagOption -> bool {
    (f: FlagOption) => f.code == code
  }

  /** The table's codes are distinct, so a lookup by code finds the entry
      with that code, and nothing for a code the table lacks. */
  lemma FindByCode(code: string)
    ensures forall i :: 0 <= i < |Flags| && Flags[i].code == code ==> Seqs.Find(Flags, HasCode(code)) == Some(Flags[i])
    ensures !Languages.IsSupported(code) ==> Seqs.Find(Flags, HasCode(code)) == None
  {
    forall i | 0 <= i < |Flags| && Flags[i].code == code ensures Seqs.Find(Flags, HasCode(code)) == Some(Flags[i]) {
      assert forall j :: 0 <= j < i ==> Flags[j].code != Flags[i].code;
      Seqs.FindAt(Flags, HasCode(code), i);
    }
    if !Languages.IsSupported(code) {
      assert forall j :: 0 <= j < |Flags| ==> Flags[j].code == Languages.Codes[j];
      Seqs.FindNone(Flags, HasCode(code));
    }
  }

  /** `flags.find((f) => f.code === language)?.flag || "🇧🇷"`. */
  function CurrentFlag(language: string): (r: string)
    ensures forall i :: 0 <= i < |Flags| && Flags[i].code == language ==> r == Flags[i].flag
    ensures !Languages.IsSupported(language) ==> r == DefaultFlag
  {
    FindByCode(language);
    match Seqs.Find(Flags, HasCode(language))
    case Some(f) => if f.flag != "" then f.flag else DefaultFlag
    case None => DefaultFlag
  }

  /** The flag tells the language: two supported codes show the same flag
      only when they are the same code. */
  lemma FlagIdentifiesLanguage(a: string, b: string)
    requires Languages.IsSupported(a) && Languages.IsSupported(b)
    requires CurrentFlag(a) == CurrentFlag(b)
    ensures a == b
  {
    var i := CodeIndex(a);
    var j := CodeIndex(b);
    if i != j {
      DistinctFlags(i, j);
    }
  }

  /** The position of a supported code in the table. */
  lemma CodeIndex(code: string) returns (i: nat)
    requires Languages.IsSupported(code)
    ensures i < |Flags| && Flags[i].code == code && CurrentFlag(code) == Flags[i].flag
  {
    i :| 0 <= i < |Languages.Codes| && Languages.Codes[i] == code;
    assert Flags[i].code == Languages.Codes[i];
  }

  lemma DistinctFlags(i: nat, j: nat)
    requires i < |Flags| && j < |Flags| && i != j
    ensures Flags[i].flag != Flags[j].flag
  {
  }

  /** An unsupported language, such as one the second provider adopted from
      storage, shows the Brazilian flag. */
  lemma UnsupportedShowsDefault()
    ensures CurrentFlag("fr-FR") == DefaultFlag
  {
  }

  // ---------------------------------------------------------------------
  // The popover switcher

  datatype Popover = Popover(provider: LanguagePreference.Provider, isOpen: bool)

  /** The flag button: opens a closed popover and closes an open one. */
  function ToggleOpen(s: Popover): (r: Popover)
    ensures r.isOpen == !s.isOpen && r.provider == s.provider
  {
    s.(isOpen := !s.isOpen)
  }

  /** A mouse press outside the popover closes it; one inside changes
      nothing. */
  function MouseDown(s: Popover, inside: bool): (r: Popover)
    ensures r.provider == s.provider
    ensures !inside ==> !r.isOpen
    ensures inside ==> r == s
  {
    if inside then s else s.(isOpen := false)
  }

  /** The label of a code in the table. */
  function LabelOf(code: string): (r: Option<string>)
    ensures r.Some? <==> Languages.IsSupported(code)
    ensures forall i :: 0 <= i < |Flags| && Flags[i].code == code ==> r == Some(Flags[i].name)
  {
    FindByCode(code);
    FlagsTable();
    match Seqs.Find(Flags, HasCode(code))
    case Some(f) => Some(f.name)
    case None => None
  }

  /** `handleLanguageChange(code)`: the provider takes the language, the
      popover closes, and a two-second notice names the language. */
  function Choose(s: Popover, code: string, write: LanguagePreference.StorageWrite): (r: (Popover, Toasts.ToastProps))
    requires Languages.IsSupported(code)
    ensures r.0.provider == LanguagePreference.SetLanguage(s.provider, code, write)
    ensures r.0.provider.language == code && !r.0.isOpen
    ensures r.1.title == Some("Idioma alterado para " + LabelOf(code).value)
    ensures Toasts.Expires(r.1.duration) && Toasts.Delay(r.1.duration) == 2000
  {
    (Popover(LanguagePreference.SetLanguage(s.provider, code, write), false),
     Toasts.ToastProps(None, Some("Idioma alterado para " + LabelOf(code).value), None, Some(Toasts.Ms(2000))))
  }

  /** After a choice the button shows the flag the chosen entry listed. */
  lemma ChoiceShowsItsFlag(s: Popover, i: nat, write: LanguagePreference.StorageWrite)
    requires i < |Flags|
    ensures Languages.IsSupported(Flags[i].code)
    ensures CurrentFlag(Choose(s, Flags[i].code, write).0.provider.language) == Flags[i].flag
  {
    FlagsTable();
  }

  // ---------------------------------------------------------------------
  // The dropdown menu switcher

  datatype Menu = Menu(provider: LooseLanguagePreference.Loose, isOpen: bool)

  /** `onOpenChange`: the menu reports whether it is open. */
  function OpenChange(s: Menu, open: bool): (r: Menu)
    ensures r.isOpen == open && r.provider == s.provider
  {
    s.(isOpen := open)
  }

  /** An entry's click: the provider takes the language; the handler itself
      neither closes the menu nor raises a notice. */
  function Pick(s: Menu, code: string): (r: Menu)
    ensures r.provider == LooseLanguagePreference.SetLanguage(s.provider, code)
    ensures r.provider.language == code && r.isOpen == s.isOpen
  {
    s.(provider := LooseLanguagePreference.SetLanguage(s.provider, code))
  }

  /** Picking the language already in effect writes nothing. */
  lemma PickCurrentWritesNothing(s: Menu)
    ensures Pick(s, s.provider.language) == s
  {
  }
}

=== FILE: languages.dfy ===
/** The language codes the client knows and the document `lang` attribute
    derived from a code; shared by both language providers and both
    language switchers. */
module Languages {
  import Text

  /** The closed set of supported codes, in the switchers' order. */
  const Codes: seq<string> := ["pt-BR", "en-US", "es-ES", "ru-RU"]

  /** The built-in default: the `defaultLanguage` prop's default. */
  const DefaultCode: string := "pt-BR"

  predicate IsSupported(code: string) {
    code in Codes
  }

  /** `language.split("-")[0]`: the part of the code before the first "-". */
  function LangAttribute(language: string): (r: string)
    ensures r <= language && '-' !in r
    ensures |r| < |language| ==> language[|r|] == '-'
    ensures '-' !in language ==> r == language
  {
    Text.BeforeFirst(language, '-')
  }

  /** The attribute of each supported code is its two-letter language part. */
  lemma LangAttributeOfCodes()
    ensures LangAttribute("pt-BR") == "pt"
    ensures LangAttribute("en-US") == "en"
    ensures LangAttribute("es-ES") == "es"
    ensures LangAttribute("ru-RU") == "ru"
  {
    assert "pt-BR"[..2] == "pt" && "pt-BR"[2] == '-';
    assert "en-US"[..2] == "en" && "en-US"[2] == '-';
    assert "es-ES"[..2] == "es" && "es-ES"[2] == '-';
    assert "ru-RU"[..2] == "ru" && "ru-RU"[2] == '-';
  }
}

=== FILE: loose_language_preference.dfy ===
/** The second language provider, components/language-provider.tsx. Unlike
    the validating one it adopts any non-empty stored value, writes the
    language on every change including the very first render, and its
    `useLanguage` fails outside a provider. Every write to the `language`
    key is kept in a log, in order, so the mount sequence can be stated. */
module LooseLanguagePreference {
  import opened Wrappers
  import opened Languages

  /** The provider's state, the `language` storage value, the document `lang`
      attribute, and the log of values written under `language`. */
  datatype Loose = Loose(language: string, stored: Option<string>, docLang: string, writes: seq<string>)

  /** Storage and the document agree with the language, and the last write
      is the language. */
  predicate Persisted(p: Loose) {
    && p.stored == Some(p.language)
    && p.docLang == LangAttribute(p.language)
    && |p.writes| > 0
    && p.writes[|p.writes| - 1] == p.language
  }

  /** The save effect: write the language and the document attribute. */
  function Save(p: Loose): (r: Loose)
    ensures r.language == p.language
    ensures r.writes == p.writes + [p.language]
    ensures Persisted(r)
  {
    p.(stored := Some(p.language), docLang := LangAttribute(p.language), writes := p.writes + [p.language])
  }

  /** The first render and its two effects: the load effect reads storage, the
      save effect writes the default, and, when the stored value is non-empty
      and differs from the default, the re-render writes it back. */
  function Mount(defaultLanguage: string, stored: Option<string>, docLang: string): (r: Loose)
    ensures stored.Some? && stored.value != "" ==> r.language == stored.value
    ensures stored.None? || stored.value == "" ==> r.language == defaultLanguage
    ensures |r.writes| >= 1 && r.writes[0] == defaultLanguage
    ensures stored.Some? && stored.value != "" && stored.value != defaultLanguage ==> r.writes == [defaultLanguage, stored.value]
    ensures stored.None? || stored.value == "" || stored.value == defaultLanguage ==> r.writes == [defaultLanguage]
    ensures Persisted(r)
  {
    var first := Save(Loose(defaultLanguage, stored, docLang, []));
    if stored.Some? && stored.value != "" && stored.value != defaultLanguage then
      Save(first.(language := stored.value))
    else first
  }

  /** `setLanguage(code)`: an unchanged language re-renders nothing and writes
      nothing; a new one is written once. */
  function SetLanguage(p: Loose, code: string): (r: Loose)
    ensures r.language == code
    ensures code == p.language ==> r == p
    ensures code != p.language ==> r.writes == p.writes + [code] && Persisted(r)
    ensures Persisted(p) ==> Persisted(r)
  {
    if code == p.language then p else Save(p.(language := code))
  }

  /** Any stored value is adopted, supported or not: a stored "fr-FR" becomes
      the language and the document says "fr"; the default is written first. */
  lemma AdoptsUnsupportedValue(docLang: string)
    ensures var p := Mount(DefaultCode, Some("fr-FR"), docLang);
            && p.language == "fr-FR" && !IsSupported(p.language)
            && p.docLang == "fr"
            && p.writes == [DefaultCode, "fr-FR"]
  {
    assert "fr-FR"[..2] == "fr" && "fr-FR"[2] == '-';
    assert !IsSupported("fr-FR") by {
      assert "fr-FR" != "pt-BR" && "fr-FR" != "en-US" && "fr-FR" != "es-ES" && "fr-FR" != "ru-RU" by {
        assert "fr-FR"[0] == 'f';
      }
    }
  }

  /** A sequence of `setLanguage` calls. */
  function ApplyAll(p: Loose, codes: seq<string>): Loose
    decreases |codes|
  {
    if |codes| == 0 then p else ApplyAll(SetLanguage(p, codes[0]), codes[1..])
  }

  /** From mount on, storage, the document and the last write follow the
      language through any sequence of changes, and writes are only appended. */
  lemma {:induction false} ChangesStayPersisted(p: Loose, codes: seq<string>)
    requires Persisted(p)
    ensures Persisted(ApplyAll(p, codes))
    ensures |codes| > 0 ==> ApplyAll(p, codes).language == codes[|codes| - 1]
    ensures p.writes <= ApplyAll(p, codes).writes
    decreases |codes|
  {
    if |codes| > 0 {
      var q := SetLanguage(p, codes[0]);
      ChangesStayPersisted(q, codes[1..]);
      if |codes| > 1 {
        assert codes[1..][|codes[1..]| - 1] == codes[|codes| - 1];
      }
    }
  }

  const OutsideProviderMessage: string := "useLanguage must be used within a LanguageProvider"

  /** `useLanguage()`: the nearest provider's language, or the error thrown
      when there is no provider. */
  function UseLanguage(provider: Option<Loose>): (r: Result<string, string>)
    ensures provider.None? <==> r.Failure?
    ensures provider.None? ==> r.error == OutsideProviderMessage
    ensures provider.Some? ==> r.value == provider.value.language
  {
    match provider
    case Some(p) => Success(p.language)
    case None => Failure(OutsideProviderMessage)
  }
}

=== FILE: movies_page.dfy ===
/** The movies page, app/movies/page.tsx: three genre rows picked by TMDB
    genre id, and the popular row of the first five movies, whose genre is
    named through this page's reduced genre table. */
module MoviesPage {
  import opened Catalog
  import Genres

  /** The card of a movie in a row labelled `genreLabel`. */
  function Card(genreLabel: string): Movie -> ContentItem {
    (m: Movie) => MovieItem(m, genreLabel)
  }

  /** A genre row: the movies whose `genre_ids` include `genreId`, in order,
      each carded with the row's fixed genreLabel and one episode. */
  function GenreRow(movies: seq<Movie>, genreId: int, genreLabel: string): (r: seq<ContentItem>)
    ensures Selects(r, movies, HasGenreId(genreId), Card(genreLabel))
    ensures forall i :: 0 <= i < |r| ==> r[i].episodes == 1 && r[i].genre == genreLabel
  {
    Row(movies, HasGenreId(genreId), Card(genreLabel))
  }

  function ActionRow(movies: seq<Movie>): seq<ContentItem> {
    GenreRow(movies, 28, "Ação")
  }

  function DramaRow(movies: seq<Movie>): seq<ContentItem> {
    GenreRow(movies, 18, "Drama")
  }

  function ScifiRow(movies: seq<Movie>): seq<ContentItem> {
    GenreRow(movies, 878, "Ficção Científica")
  }

  /** `getGenreName(movie.genre_ids[0])` with this page's table. */
  function GenreOf(m: Movie): (r: string)
    ensures |m.genreIds| == 0 ==> r == Genres.Unknown
    ensures |m.genreIds| > 0 ==> r == Genres.MovieName(m.genreIds[0])
  {
    if |m.genreIds| == 0 then Genres.Unknown else Genres.MovieName(m.genreIds[0])
  }

  function PopularCard(): Movie -> ContentItem {
    (m: Movie) => MovieItem(m, GenreOf(m))
  }

  /** The popular row: at most five cards, the first movies in order. */
  function Popular(movies: seq<Movie>): (r: seq<ContentItem>)
    ensures |r| == if |movies| < 5 then |movies| else 5
    ensures forall i :: 0 <= i < |r| ==> r[i] == MovieItem(movies[i], GenreOf(movies[i]))
  {
    Front(movies, 5, PopularCard())
  }

  /** A movie whose first genre is TV-only is shown as "Desconhecido" here,
      although every other page names it. */
  lemma PopularNamesTvGenreUnknown(m: Movie)
    requires |m.genreIds| > 0 && m.genreIds[0] == 10765
    ensures Popular([m])[0].genre == Genres.Unknown
    ensures Genres.FirstName(m.genreIds) == "Sci-Fi & Fantasia"
  {
    Genres.TvGenreUnknownToMovies();
  }
}

=== FILE: profiles.dfy ===
/** The profile store of hooks/use-user.tsx: a fixed list of four local
    profiles, the current one, and the `currentUserId` storage entry. */
module Profiles {
  import opened Wrappers
  import Seqs
  import Text

  datatype User = User(id: int, name: string, avatar: string, initials: string)

  /** The profiles, in declaration order. */
  const Users: seq<User> := [
    User(1, "Samantha", "/placeholder.svg?height=40&width=40&text=SM", "SM"),
    User(2, "Carlos", "/placeholder.svg?height=40&width=40&text=CR", "CR"),
    User(3, "Julia", "/placeholder.svg?height=40&width=40&text=JL", "JL"),
    User(4, "Miguel", "/placeholder.svg?height=40&width=40&text=MG", "MG")
  ]

  /** `users.find((u) => u.id === id)`. */
  function FindUser(id: int): (r: Option<User>)
    ensures r.Some? <==> 1 <= id <= 4
    ensures r.Some? ==> r.value in Users && r.value.id == id
  {
    Seqs.Find(Users, (u: User) => u.id == id)
  }

  /** The profile list has four entries with the distinct ids 1 to 4, in order. */
  lemma UsersAreFixed()
    ensures |Users| == 4
    ensures forall i :: 0 <= i < |Users| ==> Users[i].id == i + 1
    ensures forall i, j :: 0 <= i < j < |Users| ==> Users[i].id != Users[j].id
  {
  }

  /** Each listed profile is the one its id finds. */
  lemma FindListedUser(u: User)
    requires u in Users
    ensures 1 <= u.id <= 4 && FindUser(u.id) == Some(u)
  {
  }

  /** The provider's state together with the value stored under
      `currentUserId` (`None` when the key is absent). */
  datatype ProfileState = ProfileState(current: User, storedId: Option<string>)

  /** The current profile is one of the fixed profiles. */
  ghost predicate Valid(st: ProfileState) {
    st.current in Users
  }

  /** `useState<User>(users[0])`: before the stored id is read the current
      profile is the first one, and storage is as found. */
  function Initial(storedId: Option<string>): (st: ProfileState)
    ensures st.current == Users[0] && st.current.id == 1
    ensures st.storedId == storedId
    ensures Valid(st)
  {
    ProfileState(Users[0], storedId)
  }

  /** The profile a stored `currentUserId` value names, if any: the value must
      be non-empty and `Number.parseInt` of it must be a listed id. */
  function StoredProfile(storedId: Option<string>): Option<User> {
    match storedId
    case None => None
    case Some(text) =>
      if text == "" then None
      else match Text.ParseInt(text)
        case None => None
        case Some(n) => FindUser(n)
  }

  /** The mount effect: a stored id that parses to a listed profile is
      adopted; any other stored value leaves the current profile alone. */
  function Restore(st: ProfileState): (r: ProfileState)
    ensures r.storedId == st.storedId
    ensures StoredProfile(st.storedId).Some? ==> r.current == StoredProfile(st.storedId).value
    ensures StoredProfile(st.storedId).None? ==> r == st
    ensures Valid(st) ==> Valid(r)
  {
    match StoredProfile(st.storedId)
    case Some(u) => st.(current := u)
    case None => st
  }

  /** `switchUser(id)`: a listed id becomes current and is written, as decimal
      text, under `currentUserId`; an unlisted id changes nothing. */
  function SwitchUser(st: ProfileState, id: int): (r: ProfileState)
    ensures 1 <= id <= 4 ==> r.current.id == id && r.current in Users
    ensures 1 <= id <= 4 ==> r.storedId == Some(Text.IntToString(id))
    ensures !(1 <= id <= 4) ==> r == st
    ensures Valid(st) ==> Valid(r)
  {
    match FindUser(id)
    case Some(u) => ProfileState(u, Some(Text.IntToString(id)))
    case None => st
  }

  /** What `switchUser` writes, the next mount reads back: after a switch to a
      listed profile, a reload starts on that same profile. */
  lemma SwitchThenReload(st: ProfileState, id: int)
    requires 1 <= id <= 4
    ensures Restore(Initial(SwitchUser(st, id).storedId)).current == SwitchUser(st, id).current
  {
    Text.ParseIntOfIntToString(id);
  }

  /** Stored values that do not name a listed profile are ignored: "abc"
      (not a number), "7" (no such profile) and "" (empty). */
  lemma RestoreIgnoresUnlisted()
    ensures Restore(Initial(Some("abc"))).current == Users[0]
    ensures Restore(Initial(Some("7"))).current == Users[0]
    ensures Restore(Initial(Some(""))).current == Users[0]
  {
    assert StoredProfile(Some("abc")) == None by {
      Text.ParseIntNoDigits();
    }
    assert StoredProfile(Some("7")) == None by {
      assert Text.IntToString(7) == "7";
      Text.ParseIntOfIntToString(7);
    }
    assert StoredProfile(Some("")) == None;
  }

  /** A stored value is read the way `parseInt` reads it: "2abc" selects
      profile 2 and " 0x3" selects profile 3. */
  lemma RestoreReadsLeadingNumber()
    ensures Restore(Initial(Some("2abc"))).current == Users[1]
    ensures Restore(Initial(Some(" 0x3"))).current == Users[2]
  {
    assert StoredProfile(Some("2abc")) == Some(Users[1]) by {
      Text.ParseIntStopsAtNonDigit();
    }
    assert StoredProfile(Some(" 0x3")) == Some(Users[2]) by {
      Text.ParseIntHex();
    }
  }
}

=== FILE: recent.dfy ===
/** The recently watched page of app/recent/page.tsx: how long ago each title
    was watched, in whole days, the progress line and the button under it.
    The clock, date parsing and the `pt-BR` date formatter are parameters;
    instants are milliseconds since the epoch. */
module Recent {
  import Text
  import opened Wrappers

  /** One entry of the page. `kind` is the `type` string of the source. */
  datatype RecentItem = RecentItem(id: int, title: string, kind: string, poster: string, watchedAt: string, progress: int)

  /** The five entries the page starts with. */
  const InitialItems: seq<RecentItem> := [
    RecentItem(1, "The Last of Us", "tvshow", "/placeholder.svg?height=200&width=350&text=TLOU", "2024-03-09T14:30:00Z", 75),
    RecentItem(2, "Duna: Parte 2", "movie", "/placeholder.svg?height=200&width=350&text=Duna", "2024-03-08T20:15:00Z", 100),
    RecentItem(3, "Attack on Titan", "anime", "/placeholder.svg?height=200&width=350&text=AOT", "2024-03-07T18:45:00Z", 60),
    RecentItem(4, "The Crown", "tvshow", "/placeholder.svg?height=200&width=350&text=Crown", "2024-03-06T21:20:00Z", 90),
    RecentItem(5, "Oppenheimer", "movie", "/placeholder.svg?height=200&width=350&text=Oppenheimer", "2024-03-05T19:30:00Z", 100)
  ]

  /** The milliseconds of one day, `1000 * 60 * 60 * 24`. */
  const DayMs: int := 86400000

  /** `Math.floor((now - date) / DayMs)`: the number of whole days elapsed,
      rounded down, so a date in the future gives a negative count. */
  function DiffDays(now: int, watched: int): (r: int)
    ensures r * DayMs <= now - watched < (r + 1) * DayMs
  {
    (now - watched) / DayMs
  }

  /** The day count is the only integer that brackets the elapsed time. */
  lemma DiffDaysIsFloor(now: int, watched: int, d: int)
    requires d * DayMs <= now - watched < (d + 1) * DayMs
    ensures DiffDays(now, watched) == d
  {
  }

  /** `formatDate(watchedAt)`: "Hoje", "Ontem", "<n> dias atrás" for fewer
      than seven days (negative counts included), and the formatted date
      from the seventh day on. */
  function WatchedLabel(now: int, watchedAt: string, parse: string -> int, format: string -> string): (r: string)
    ensures DiffDays(now, parse(watchedAt)) == 0 ==> r == "Hoje"
    ensures DiffDays(now, parse(watchedAt)) == 1 ==> r == "Ontem"
    ensures DiffDays(now, parse(watchedAt)) >= 7 ==> r == format(watchedAt)
    ensures var d := DiffDays(now, parse(watchedAt));
            d < 7 && d != 0 && d != 1 ==> r == Text.IntToString(d) + " dias atrás"
  {
    var d := DiffDays(now, parse(watchedAt));
    if d == 0 then "Hoje"
    else if d == 1 then "Ontem"
    else if d < 7 then Text.IntToString(d) + " dias atrás"
    else format(watchedAt)
  }

  /** The labels by elapsed time: the first 24 hours read "Hoje", the next
      24 "Ontem", anything a week old or more is a date, and a watch time in
      the future reads as a negative number of days. */
  lemma LabelsByElapsedTime(now: int, watchedAt: string, parse: string -> int, format: string -> string)
    ensures 0 <= now - parse(watchedAt) < DayMs ==> WatchedLabel(now, watchedAt, parse, format) == "Hoje"
    ensures DayMs <= now - parse(watchedAt) < 2 * DayMs ==> WatchedLabel(now, watchedAt, parse, format) == "Ontem"
    ensures now - parse(watchedAt) >= 7 * DayMs ==> WatchedLabel(now, watchedAt, parse, format) == format(watchedAt)
    ensures now < parse(watchedAt) ==> WatchedLabel(now, watchedAt, parse, format)[0] == '-'
  {
    var at := parse(watchedAt);
    var d := DiffDays(now, at);
    if 0 <= now - at < DayMs {
      DiffDaysIsFloor(now, at, 0);
    } else if DayMs <= now - at < 2 * DayMs {
      DiffDaysIsFloor(now, at, 1);
    } else if now - at >= 7 * DayMs {
      assert d >= 7;
    } else if now < at {
      assert d < 0;
    }
  }

  /** Two entries between two and six days old read the same only when they
      are the same number of days old. */
  lemma RelativeLabelsDistinguishDays(d1: int, d2: int)
    requires Text.IntToString(d1) + " dias atrás" == Text.IntToString(d2) + " dias atrás"
    ensures d1 == d2
  {
    SuffixCancel(Text.IntToString(d1), Text.IntToString(d2), " dias atrás");
    Text.IntToStringInjective(d1, d2);
  }

  lemma SuffixCancel(x: string, y: string, s: string)
    requires x + s == y + s
    ensures x == y
  {
    assert |x| == |y|;
    assert x == (x + s)[..|x|];
    assert y == (y + s)[..|y|];
  }

  /** The progress line: "Concluído" exactly at 100 per cent. */
  function ProgressLabel(progress: int): (r: string)
    ensures progress == 100 ==> r == "Concluído"
    ensures progress != 100 ==> r == Text.IntToString(progress) + "% assistido"
  {
    if progress == 100 then "Concluído" else Text.IntToString(progress) + "% assistido"
  }

  /** The button: "Assistir novamente" exactly at 100 per cent. */
  function ActionLabel(progress: int): (r: string)
    ensures r == "Assistir novamente" <==> progress == 100
    ensures r == "Continuar" <==> progress != 100
  {
    if progress == 100 then "Assistir novamente" else "Continuar"
  }

  /** The line and the button agree: an entry reads finished exactly when its
      button offers to watch again, and an unfinished entry's line carries its
      percentage. */
  lemma LabelsAgree(progress: int)
    ensures ProgressLabel(progress) == "Concluído" <==> ActionLabel(progress) == "Assistir novamente"
    ensures progress != 100 ==> Text.ParseInt(ProgressLabel(progress)[..|Text.IntToString(progress)|]) == Some(progress)
  {
    if progress != 100 {
      var s := Text.IntToString(progress);
      assert |ProgressLabel(progress)| == |s| + 11 != |"Concluído"|;
      assert ProgressLabel(progress)[..|s|] == s;
      Text.ParseIntOfIntToString(progress);
    }
  }

  /** The kind line: `type` "movie" reads "Filme", "tvshow" reads "Série",
      and any other type reads "Anime". */
  function KindLabel(kind: string): (r: string)
    ensures r == "Filme" <==> kind == "movie"
    ensures r == "Série" <==> kind == "tvshow"
    ensures r == "Anime" <==> kind != "movie" && kind != "tvshow"
  {
    if kind == "movie" then "Filme" else if kind == "tvshow" then "Série" else "Anime"
  }

  /** The starting entries have distinct ids and percentages between 0 and
      100; the two finished ones are the two movies. */
  lemma InitialItemsWellFormed()
    ensures forall i, j :: 0 <= i < j < |InitialItems| ==> InitialItems[i].id != InitialItems[j].id
    ensures forall i :: 0 <= i < |InitialItems| ==> 0 <= InitialItems[i].progress <= 100
    ensures forall i :: 0 <= i < |InitialItems| ==> (ActionLabel(InitialItems[i].progress) == "Assistir novamente" <==> KindLabel(InitialItems[i].kind) == "Filme")
  {
  }
}

=== FILE: seqs.dfy ===
/** The array operations the client leans on everywhere — `filter`, `find`,
    `some`, `slice(0, n)` and `map` — with contracts that pin down what they
    keep, and in which order. */
module Seqs {
  import opened Wrappers

  /** `xs.filter(p)`: the elements that satisfy `p`, in their original order. */
  function Filter<T>(s: seq<T>, p: T -> bool): (r: seq<T>)
    ensures |r| <= |s|
    ensures forall i :: 0 <= i < |r| ==> r[i] in s && p(r[i])
    ensures forall i :: 0 <= i < |s| && p(s[i]) ==> s[i] in r
    ensures (forall i :: 0 <= i < |s| ==> p(s[i])) ==> r == s
    decreases |s|
  {
    if |s| == 0 then []
    else if p(s[0]) then [s[0]] + Filter(s[1..], p)
    else Filter(s[1..], p)
  }

  /** Filtering a concatenation filters each part: this is what "keeps the
      others in their original order" means. */
  lemma {:induction false} FilterConcat<T>(a: seq<T>, b: seq<T>, p: T -> bool)
    ensures Filter(a + b, p) == Filter(a, p) + Filter(b, p)
    decreases |a|
  {
    if |a| == 0 {
      assert a + b == b;
    } else {
      assert (a + b)[1..] == a[1..] + b;
      FilterConcat(a[1..], b, p);
    }
  }

  /** A filter nothing passes is empty. */
  lemma {:induction false} FilterNone<T>(s: seq<T>, p: T -> bool)
    requires forall i :: 0 <= i < |s| ==> !p(s[i])
    ensures Filter(s, p) == []
    decreases |s|
  {
    if |s| > 0 {
      FilterNone(s[1..], p);
    }
  }

  /** Two tests that agree on every element filter alike. */
  lemma {:induction false} FilterSameOn<T>(s: seq<T>, p: T -> bool, q: T -> bool)
    requires forall i :: 0 <= i < |s| ==> p(s[i]) == q(s[i])
    ensures Filter(s, p) == Filter(s, q)
    decreases |s|
  {
    if |s| > 0 {
      FilterSameOn(s[1..], p, q);
    }
  }

  /** The conjunction of two tests. */
  function Both<T>(p: T -> bool, q: T -> bool): T -> bool {
    (x: T) => p(x) && q(x)
  }

  /** Two filters in a row are one filter by both tests. */
  lemma {:induction false} FilterFilter<T>(s: seq<T>, p: T -> bool, q: T -> bool)
    ensures Filter(Filter(s, p), q) == Filter(s, Both(p, q))
    decreases |s|
  {
    if |s| > 0 {
      FilterFilter(s[1..], p, q);
      if p(s[0]) {
        var f := Filter(s[1..], p);
        assert Filter(s, p) == [s[0]] + f;
        assert ([s[0]] + f)[1..] == f;
      }
    }
  }

  /** Filtering out one position of a sequence whose other elements all pass
      deletes exactly that position. */
  lemma {:induction false} FilterDeletesOne<T>(s: seq<T>, k: nat, p: T -> bool)
    requires k < |s|
    requires !p(s[k])
    requires forall i :: 0 <= i < |s| && i != k ==> p(s[i])
    ensures Filter(s, p) == s[..k] + s[k + 1..]
    decreases k
  {
    if k == 0 {
      FilterDropsHead(s, p);
    } else {
      TailPassesBut(s, k, p);
      FilterDeletesOne(s[1..], k - 1, p);
      FilterKeepsHead(s, p);
      SpliceAfterHead(s, k);
    }
  }

  /** A head that fails and a tail that passes filter to the tail. */
  lemma FilterDropsHead<T>(s: seq<T>, p: T -> bool)
    requires |s| > 0 && !p(s[0])
    requires forall i :: 0 < i < |s| ==> p(s[i])
    ensures Filter(s, p) == s[1..]
  {
    var tail := s[1..];
    forall i | 0 <= i < |tail| ensures p(tail[i]) {
      assert tail[i] == s[i + 1];
    }
  }

  lemma FilterSkipsHead<T>(s: seq<T>, p: T -> bool)
    requires |s| > 0 && !p(s[0])
    ensures Filter(s, p) == Filter(s[1..], p)
  {
  }

  lemma FilterKeepsHead<T>(s: seq<T>, p: T -> bool)
    requires |s| > 0 && p(s[0])
    ensures Filter(s, p) == [s[0]] + Filter(s[1..], p)
  {
  }

  lemma TailPassesBut<T>(s: seq<T>, k: nat, p: T -> bool)
    requires 0 < k < |s|
    requires forall i :: 0 <= i < |s| && i != k ==> p(s[i])
    ensures forall i :: 0 <= i < |s[1..]| && i != k - 1 ==> p(s[1..][i])
  {
    forall i | 0 <= i < |s[1..]| && i != k - 1 ensures p(s[1..][i]) {
      assert s[1..][i] == s[i + 1];
    }
  }

  lemma SpliceAfterHead<T>(s: seq<T>, k: nat)
    requires 0 < k < |s|
    ensures [s[0]] + (s[1..][..k - 1] + s[1..][k..]) == s[..k] + s[k + 1..]
  {
  }

  /** `xs.some(p)`. */
  predicate Any<T>(s: seq<T>, p: T -> bool) {
    exists i :: 0 <= i < |s| && p(s[i])
  }

  /** `xs.find(p)`: the first element satisfying `p`, if any. */
  function Find<T>(s: seq<T>, p: T -> bool): (r: Option<T>)
    ensures r.Some? <==> Any(s, p)
    ensures r.Some? ==> r.value in s && p(r.value)
    ensures r.Some? ==> exists i :: 0 <= i < |s| && s[i] == r.value && forall j :: 0 <= j < i ==> !p(s[j])
    decreases |s|
  {
    if |s| == 0 then None
    else if p(s[0]) then Some(s[0])
    else
      var r := Find(s[1..], p);
      assert Any(s[1..], p) ==> Any(s, p) by {
        if Any(s[1..], p) {
          var i :| 0 <= i < |s[1..]| && p(s[1..][i]);
          assert p(s[i + 1]);
        }
      }
      assert Any(s, p) ==> Any(s[1..], p) by {
        if Any(s, p) {
          var i :| 0 <= i < |s| && p(s[i]);
          assert i != 0;
          assert p(s[1..][i - 1]);
        }
      }
      if r.Some? then
        assert exists i :: 0 <= i < |s| && s[i] == r.value && forall j :: 0 <= j < i ==> !p(s[j]) by {
          var i :| 0 <= i < |s[1..]| && s[1..][i] == r.value && forall j :: 0 <= j < i ==> !p(s[1..][j]);
          assert s[i + 1] == r.value;
          forall j | 0 <= j < i + 1 ensures !p(s[j]) {
            if j > 0 { assert s[j] == s[1..][j - 1]; }
          }
        }
        r
      else r
  }

  /** `find` returns the element at the first position that passes. */
  lemma {:induction false} FindAt<T>(s: seq<T>, p: T -> bool, i: nat)
    requires i < |s| && p(s[i])
    requires forall j :: 0 <= j < i ==> !p(s[j])
    ensures Find(s, p) == Some(s[i])
    decreases i
  {
    if i > 0 {
      FindAt(s[1..], p, i - 1);
    }
  }

  /** `find` with nothing passing returns nothing. */
  lemma FindNone<T>(s: seq<T>, p: T -> bool)
    requires forall j :: 0 <= j < |s| ==> !p(s[j])
    ensures Find(s, p) == None
  {
  }

  /** `xs.slice(0, n)` for a non-negative literal `n`: the first `n` elements,
      or all of them when there are fewer. */
  function Take<T>(s: seq<T>, n: nat): (r: seq<T>)
    ensures |r| == if n < |s| then n else |s|
    ensures r <= s
  {
    if n < |s| then s[..n] else s
  }

  /** `xs.map(f)`. */
  function Map<A, B>(s: seq<A>, f: A -> B): (r: seq<B>)
    ensures |r| == |s|
    ensures forall i :: 0 <= i < |s| ==> r[i] == f(s[i])
  {
    seq(|s|, i requires 0 <= i < |s| => f(s[i]))
  }

  /** Mapping a concatenation maps each part. */
  lemma MapConcat<A, B>(a: seq<A>, b: seq<A>, f: A -> B)
    ensures Map(a + b, f) == Map(a, f) + Map(b, f)
  {
  }

  /** A test applied after a mapping. */
  function After<A, B>(f: A -> B, p: B -> bool): A -> bool {
    (x: A) => p(f(x))
  }

  /** Mapping a filtered sequence, one element at a time: the head's image
      when it is kept, then the tail's. */
  lemma MapFilterStep<A, B>(s: seq<A>, p: A -> bool, f: A -> B)
    requires |s| > 0
    ensures Map(Filter(s, p), f) == (if p(s[0]) then [f(s[0])] else []) + Map(Filter(s[1..], p), f)
  {
    var t := Filter(s[1..], p);
    if p(s[0]) {
      assert Filter(s, p) == [s[0]] + t;
      MapConcat([s[0]], t, f);
      assert Map([s[0]], f) == [f(s[0])];
    } else {
      assert Filter(s, p) == t;
    }
  }

  /** Filtering mapped elements is mapping the elements whose image passes. */
  lemma {:induction false} FilterMap<A, B>(s: seq<A>, f: A -> B, p: B -> bool)
    ensures Filter(Map(s, f), p) == Map(Filter(s, After(f, p)), f)
    decreases |s|
  {
    if |s| > 0 {
      FilterMap(s[1..], f, p);
      var m := Map(s, f);
      assert m[1..] == Map(s[1..], f);
      if p(f(s[0])) {
        assert Filter(m, p) == [f(s[0])] + Filter(m[1..], p);
        assert Filter(s, After(f, p)) == [s[0]] + Filter(s[1..], After(f, p));
        MapConcat([s[0]], Filter(s[1..], After(f, p)), f);
      } else {
        assert Filter(m, p) == Filter(m[1..], p);
      }
    }
  }

  /** Taking a prefix commutes with mapping. */
  lemma MapTake<A, B>(s: seq<A>, n: nat, f: A -> B)
    ensures Map(Take(s, n), f) == Take(Map(s, f), n)
  {
  }
}

=== FILE: session.dfy ===
/** The watchlist provider of hooks/use-watchlist.tsx wired to the profile
    store of hooks/use-user.tsx: the current profile, the list on screen, and
    local storage, where each profile's list lives under "watchlist-<id>".
    Every change to the list is written through to the current profile's
    key, and a profile switch is one atomic step: the old list is persisted
    and the new profile's list is loaded in its place. */
module Session {
  import opened Wrappers
  import Text
  import Profiles
  import opened Watchlist

  /** The storage key of a profile's list: "watchlist-" + the id in decimal. */
  function Key(userId: int): string {
    "watchlist-" + Text.IntToString(userId)
  }

  /** Different profiles never share a storage key. */
  lemma KeyInjective(a: int, b: int)
    requires Key(a) == Key(b)
    ensures a == b
  {
    Text.PrefixCancel("watchlist-", Text.IntToString(a), Text.IntToString(b));
    Text.IntToStringInjective(a, b);
  }

  datatype Session = Session(profile: Profiles.ProfileState, watchlist: seq<Entry>, lists: map<string, seq<Entry>>) {
    function CurrentId(): int {
      profile.current.id
    }
  }

  /** The list a profile finds on load: what is stored under its key, or the
      empty list when nothing is stored yet. */
  function Load(lists: map<string, seq<Entry>>, userId: int): (r: seq<Entry>)
    ensures Key(userId) in lists ==> r == lists[Key(userId)]
    ensures Key(userId) !in lists ==> r == []
  {
    if Key(userId) in lists then lists[Key(userId)] else []
  }

  /** The list on screen is the one stored under the current profile's key. */
  predicate Synced(s: Session) {
    Key(s.CurrentId()) in s.lists && s.lists[Key(s.CurrentId())] == s.watchlist
  }

  /** Every stored list, and so the one on screen, has unique ids. */
  ghost predicate Inv(s: Session) {
    && Profiles.Valid(s.profile)
    && Synced(s)
    && UniqueIds(s.watchlist)
    && forall k :: k in s.lists ==> UniqueIds(s.lists[k])
  }

  /** Mounting the providers on stored values, as intended: the profile is
      restored from `currentUserId`, that profile's list is loaded, and it is
      written back. No other key is touched. */
  function Start(storedId: Option<string>, lists: map<string, seq<Entry>>): (s: Session)
    ensures s.profile == Profiles.Restore(Profiles.Initial(storedId))
    ensures s.watchlist == Load(lists, s.CurrentId())
    ensures Synced(s)
    ensures forall k :: k != Key(s.CurrentId()) ==> (k in s.lists <==> k in lists) && (k in lists ==> s.lists[k] == lists[k])
    ensures (forall k :: k in lists ==> UniqueIds(lists[k])) ==> Inv(s)
  {
    var profile := Profiles.Restore(Profiles.Initial(storedId));
    var list := Load(lists, profile.current.id);
    Session(profile, list, lists[Key(profile.current.id) := list])
  }

  /** Mounting the providers as the effects actually run. The watchlist
      provider is a child of the profile provider, so on the first commit
      its effects run first, still under profile 1: the load effect reads
      profile 1's list, and the save effect writes the initial empty list
      under profile 1's key. Only then does the profile effect restore the
      stored profile. With profile 1 restored, the loaded list is written
      back over the empty one. With another profile restored, the next
      commits load that profile's list and write it back (briefly writing
      profile 1's list there first), and profile 1's key is never written
      again: its stored list is lost. */
  function StartAsWritten(storedId: Option<string>, lists: map<string, seq<Entry>>): (s: Session)
    ensures s.profile == Profiles.Restore(Profiles.Initial(storedId))
    ensures s.watchlist == Load(lists, s.CurrentId())
    ensures Synced(s)
    ensures s.CurrentId() != 1 ==> Key(1) in s.lists && s.lists[Key(1)] == []
    ensures forall k :: k != Key(1) && k != Key(s.CurrentId()) ==>
              (k in s.lists <==> k in lists) && (k in lists ==> s.lists[k] == lists[k])
  {
    var profile := Profiles.Restore(Profiles.Initial(storedId));
    var id := profile.current.id;
    var loaded := Load(lists, id);
    assert id != 1 ==> Key(1) != Key(id) by {
      if id != 1 { KeysDiffer(1, id); }
    }
    Session(profile, loaded, WriteTwice(lists, Key(1), [], Key(id), loaded))
  }

  /** Storage after writing `a` under `x` and then `b` under `y`. */
  function WriteTwice(m: map<string, seq<Entry>>, x: string, a: seq<Entry>, y: string, b: seq<Entry>): (r: map<string, seq<Entry>>)
    ensures y in r && r[y] == b
    ensures x != y ==> x in r && r[x] == a
    ensures forall k :: k != x && k != y ==> (k in r <==> k in m) && (k in m ==> r[k] == m[k])
  {
    m[x := a][y := b]
  }

  /** The first write is lost exactly when the second overwrites it, or it
      wrote what was already there. */
  lemma WriteTwiceAgreesIff(m: map<string, seq<Entry>>, x: string, a: seq<Entry>, y: string, b: seq<Entry>)
    ensures WriteTwice(m, x, a, y, b) == m[y := b] <==> x == y || (x in m && m[x] == a)
  {
    if x != y && x in m && m[x] == a {
      assert WriteTwice(m, x, a, y, b) == m[y := b];
    }
  }

  /** The mount as written agrees with the intended one exactly when profile
      1 is restored, or profile 1's stored list is already empty. */
  lemma StartAsWrittenAgreesIff(storedId: Option<string>, lists: map<string, seq<Entry>>)
    ensures StartAsWritten(storedId, lists) == Start(storedId, lists) <==>
              Profiles.Restore(Profiles.Initial(storedId)).current.id == 1 || (Key(1) in lists && lists[Key(1)] == [])
  {
    var id := Profiles.Restore(Profiles.Initial(storedId)).current.id;
    if id != 1 { KeysDiffer(1, id); }
    WriteTwiceAgreesIff(lists, Key(1), [], Key(id), Load(lists, id));
  }

  /** A reload while profile 2 is current wipes profile 1's saved list. */
  lemma StartAsWrittenLosesProfileOne(e: Entry)
    ensures var lists := map[Key(1) := [e]];
            var storedId := Some(Text.IntToString(2));
            && Start(storedId, lists).lists[Key(1)] == [e]
            && StartAsWritten(storedId, lists).lists[Key(1)] == []
  {
    Text.ParseIntOfIntToString(2);
    KeysDiffer(2, 1);
  }

  /** Adding to the current profile's list, written through to storage. */
  function AddItem(s: Session, item: NewItem, now: string): (r: (Session, Notice))
    ensures r.0.profile == s.profile
    ensures r.0.watchlist == Add(s.watchlist, item, now).list && r.1 == Add(s.watchlist, item, now).notice
    ensures Synced(r.0)
    ensures forall k :: k != Key(s.CurrentId()) ==> (k in r.0.lists <==> k in s.lists) && (k in s.lists ==> r.0.lists[k] == s.lists[k])
    ensures Inv(s) ==> Inv(r.0)
  {
    var out := Add(s.watchlist, item, now);
    (s.(watchlist := out.list, lists := s.lists[Key(s.CurrentId()) := out.list]), out.notice)
  }

  /** Removing from the current profile's list, written through to storage. */
  function RemoveItem(s: Session, id: int): (r: (Session, Option<Notice>))
    ensures r.0.profile == s.profile
    ensures r.0.watchlist == Remove(s.watchlist, id).list && r.1 == Remove(s.watchlist, id).notice
    ensures Synced(r.0)
    ensures forall k :: k != Key(s.CurrentId()) ==> (k in r.0.lists <==> k in s.lists) && (k in s.lists ==> r.0.lists[k] == s.lists[k])
    ensures Inv(s) ==> Inv(r.0)
  {
    var out := Remove(s.watchlist, id);
    (s.(watchlist := out.list, lists := s.lists[Key(s.CurrentId()) := out.list]), out.notice)
  }

  /** Different profiles have different storage keys. */
  lemma KeysDiffer(a: int, b: int)
    requires a != b
    ensures Key(a) != Key(b)
  {
    if Key(a) == Key(b) { KeyInjective(a, b); }
  }

  /** `switchUser(id)` and the watchlist's reaction to it. An unlisted id
      changes nothing. Switching to the current profile only rewrites
      `currentUserId`. Otherwise the old list is persisted under the old key,
      and the new profile's stored list (or the empty list) replaces it. */
  function Switch(s: Session, id: int): (r: Session)
    ensures r.profile == Profiles.SwitchUser(s.profile, id)
    ensures !(1 <= id <= 4) ==> r == s
    ensures 1 <= id <= 4 && id != s.CurrentId() ==>
              && r.watchlist == Load(s.lists, id)
              && Key(s.CurrentId()) in r.lists
              && r.lists[Key(s.CurrentId())] == s.watchlist
    ensures 1 <= id <= 4 && id == s.CurrentId() ==> r.watchlist == s.watchlist && r.lists == s.lists
  {
    var profile := Profiles.SwitchUser(s.profile, id);
    if profile.current.id == s.CurrentId() then
      s.(profile := profile)
    else
      var saved := s.lists[Key(s.CurrentId()) := s.watchlist];
      KeysDiffer(id, s.CurrentId());
      var list := Load(saved, id);
      Session(profile, list, saved[Key(id) := list])
  }

  /** A switch writes only the old and the new profile's keys, and the list on
      screen stays in step with storage. */
  lemma SwitchFrame(s: Session, id: int)
    requires Synced(s)
    ensures Synced(Switch(s, id))
    ensures forall k :: k != Key(s.CurrentId()) && k != Key(id) ==>
              (k in Switch(s, id).lists <==> k in s.lists) && (k in s.lists ==> Switch(s, id).lists[k] == s.lists[k])
  {
    var p := Profiles.SwitchUser(s.profile, id);
    if p.current.id != s.CurrentId() {
      var saved := s.lists[Key(s.CurrentId()) := s.watchlist];
      var list := Load(saved, id);
      assert Switch(s, id) == Session(p, list, saved[Key(id) := list]);
      assert p.current.id == id;
    }
  }

  /** A switch keeps every stored list free of duplicate ids and the current
      profile listed. */
  lemma SwitchPreservesInv(s: Session, id: int)
    requires Inv(s)
    ensures Inv(Switch(s, id))
  {
    SwitchFrame(s, id);
  }

  /** `isInWatchlist(id)` on the current profile's list. */
  predicate IsInWatchlist(s: Session, id: int) {
    Has(s.watchlist, id)
  }

  /** A user action on the stores. */
  datatype Action = AddAction(item: NewItem, now: string) | RemoveAction(id: int) | SwitchAction(id: int)

  function Step(s: Session, a: Action): Session {
    match a
    case AddAction(item, now) => AddItem(s, item, now).0
    case RemoveAction(id) => RemoveItem(s, id).0
    case SwitchAction(id) => Switch(s, id)
  }

  /** A sequence of actions, applied in order. */
  function Run(s: Session, actions: seq<Action>): Session
    decreases |actions|
  {
    if |actions| == 0 then s else Run(Step(s, actions[0]), actions[1..])
  }

  /** Any sequence of adds, removes and switches keeps every list free of
      duplicate ids, keeps the current profile listed and keeps the list on
      screen in step with storage. */
  lemma {:induction false} RunPreservesInv(s: Session, actions: seq<Action>)
    requires Inv(s)
    ensures Inv(Run(s, actions))
    decreases |actions|
  {
    if |actions| > 0 {
      var t := Step(s, actions[0]);
      if actions[0].SwitchAction? {
        SwitchPreservesInv(s, actions[0].id);
      }
      RunPreservesInv(t, actions[1..]);
    }
  }

  predicate NoSwitch(actions: seq<Action>) {
    forall i :: 0 <= i < |actions| ==> !actions[i].SwitchAction?
  }

  /** Per-profile isolation: adds and removes touch only the current
      profile's key; every other profile's stored list is left exactly as it
      was, and the current profile does not change. */
  lemma {:induction false} RunKeepsOtherProfiles(s: Session, actions: seq<Action>, other: int)
    requires NoSwitch(actions)
    requires other != s.CurrentId()
    ensures Run(s, actions).profile == s.profile
    ensures Key(other) in Run(s, actions).lists <==> Key(other) in s.lists
    ensures Key(other) in s.lists ==> Run(s, actions).lists[Key(other)] == s.lists[Key(other)]
    decreases |actions|
  {
    if |actions| > 0 {
      KeysDiffer(other, s.CurrentId());
      var t := Step(s, actions[0]);
      assert NoSwitch(actions[1..]) by {
        forall i | 0 <= i < |actions[1..]| ensures !actions[1..][i].SwitchAction? {
          assert actions[1..][i] == actions[i + 1];
        }
      }
      RunKeepsOtherProfiles(t, actions[1..], other);
    }
  }

  /** Switching away and back restores the list: whatever is added to or
      removed from another profile's list in between, the first profile gets
      back exactly the list it had. */
  lemma SwitchAwayAndBack(s: Session, other: int, actions: seq<Action>)
    requires Synced(s)
    requires 1 <= other <= 4 && other != s.CurrentId()
    requires NoSwitch(actions)
    requires Profiles.Valid(s.profile)
    ensures Switch(Run(Switch(s, other), actions), s.CurrentId()).watchlist == s.watchlist
    ensures Switch(Run(Switch(s, other), actions), s.CurrentId()).profile.current == s.profile.current
  {
    var me := s.CurrentId();
    Profiles.FindListedUser(s.profile.current);
    var away := Switch(s, other);
    assert away.CurrentId() == other;
    RunKeepsOtherProfiles(away, actions, me);
    var later := Run(away, actions);
    assert later.lists[Key(me)] == s.watchlist;
    assert later.CurrentId() == other;
  }

  /** What one profile saves is never shown under another: right after a
      switch the list on screen is the new profile's stored list, whatever
      the previous profile's list held. */
  lemma SwitchShowsOnlyNewProfile(s: Session, t: Session, other: int)
    requires s.profile == t.profile && 1 <= other <= 4 && other != s.CurrentId()
    requires Load(s.lists, other) == Load(t.lists, other)
    ensures Switch(s, other).watchlist == Switch(t, other).watchlist
  {
  }

  /** Membership answers right after an add or a remove: true after adding
      an id, false after removing it. */
  lemma MembershipAfterActions(s: Session, item: NewItem, now: string, id: int)
    ensures IsInWatchlist(AddItem(s, item, now).0, item.id)
    ensures !IsInWatchlist(RemoveItem(s, id).0, id)
  {
  }

  const FooItem := NewItem(42, "Foo", Movie, "/x.jpg")

  /** The walk-through with empty storage: profile 1 and an empty list at
      start; adding item 42 shows it; switching to profile 2 shows an empty
      list; switching back to profile 1 shows item 42 again. */
  lemma EmptyStorageScenario(now: string)
    ensures var s0 := Start(None, map[]);
            && s0.profile.current == Profiles.Users[0]
            && s0.watchlist == []
            && var s1 := AddItem(s0, FooItem, now).0;
            && s1.watchlist == [Entry(42, "Foo", Movie, "/x.jpg", now)]
            && var s2 := Switch(s1, 2);
            && s2.watchlist == []
            && Switch(s2, 1).watchlist == s1.watchlist
  {
    var s0 := Start(None, map[]);
    var s1 := AddItem(s0, FooItem, now).0;
    KeysDiffer(2, 1);
    var s2 := Switch(s1, 2);
    assert s2.CurrentId() == 2;
    assert Key(2) !in s1.lists;
    assert s2.lists[Key(1)] == s1.watchlist;
  }
}

=== FILE: sidebar.dfy ===
/** The side navigation of app/components/sidebar.tsx: which entry is
    highlighted for the current path, the open/closed state and how
    navigation changes it, the watchlist badge, and the notices of the entries
    that lead nowhere yet. */
module Sidebar {
  import Text
  import Toasts
  import opened Wrappers

  /** `isActive(path)`: the home entry only on "/" itself, any other entry on
      every path under it; with no path, nothing is active. */
  predicate IsActive(pathname: Option<string>, path: string) {
    if path == "/" then pathname == Some("/")
    else pathname.Some? && Text.StartsWith(pathname.value, path)
  }

  /** Home is highlighted on "/" and nowhere else, though every path starts
      with "/"; every other entry is highlighted on its own path and on the
      paths below it. */
  lemma ActiveRules(p: string, path: string, rest: string)
    requires |p| > 0 && p[0] == '/' && p != "/"
    requires path != "/"
    ensures Text.StartsWith(p, "/") && !IsActive(Some(p), "/")
    ensures IsActive(Some("/"), "/")
    ensures IsActive(Some(path + rest), path)
    ensures !IsActive(None, path)
  {
    assert (path + rest)[..|path|] == path;
  }

  /** The sidebar's state: open or closed, on a narrow screen or not. */
  datatype State = State(isOpen: bool, isMobile: bool)

  /** The effect on the screen size: open on a wide screen, closed on a
      narrow one. */
  function Init(isMobile: bool): (r: State)
    ensures r.isOpen <==> !isMobile
    ensures r.isMobile == isMobile
  {
    State(!isMobile, isMobile)
  }

  /** `toggleSidebar()`. */
  function Toggle(st: State): (r: State)
    ensures r.isOpen == !st.isOpen && r.isMobile == st.isMobile
  {
    st.(isOpen := !st.isOpen)
  }

  /** Toggling twice gives back the state. */
  lemma ToggleTwice(st: State)
    ensures Toggle(Toggle(st)) == st
  {
  }

  /** `handleNavigation(path)`: go to `path`; close the sidebar on a narrow
      screen, leave it as it is on a wide one. */
  function Navigate(st: State, path: string): (r: (State, string))
    ensures r.1 == path
    ensures st.isMobile ==> !r.0.isOpen
    ensures !st.isMobile ==> r.0 == st
    ensures r.0.isMobile == st.isMobile
  {
    if st.isMobile then (st.(isOpen := false), path) else (st, path)
  }

  /** After any navigation on a narrow screen the sidebar is closed, and
      navigating again keeps it so. */
  lemma NavigationOnMobileCloses(st: State, a: string, b: string)
    requires st.isMobile
    ensures var once := Navigate(st, a).0;
            !once.isOpen && Navigate(once, b).0 == once
  {
  }

  /** The watchlist badge: the count in decimal when positive, no badge
      otherwise. */
  function Badge(count: int): (r: Option<string>)
    ensures r.Some? <==> count > 0
    ensures r.Some? ==> Text.ParseInt(r.value) == Some(count)
  {
    if count > 0 then
      Text.ParseIntOfIntToString(count);
      Some(Text.IntToString(count))
    else None
  }

  /** Different counts never show the same badge. */
  lemma BadgeInjective(a: int, b: int)
    requires Badge(a).Some? && Badge(a) == Badge(b)
    ensures a == b
  {
  }

  /** `showToast(message)`: a two-second notice with the message as title. */
  function ShowToast(message: string): (r: Toasts.ToastProps)
    ensures r.title == Some(message) && r.id.None? && r.description.None?
    ensures Toasts.Expires(r.duration) && Toasts.Delay(r.duration) == 2000
  {
    Toasts.ToastProps(None, Some(message), None, Some(Toasts.Ms(2000)))
  }
}

=== FILE: text.dfy ===
/** The JavaScript string operations the client uses: `startsWith`,
    `includes`, `trim`, `toLowerCase`, `split(sep)[0]`, `join`, `Number`
    to decimal text (`toString`, template literals) and `Number.parseInt`. */
module Text {
  import opened Wrappers

  /** `s.startsWith(prefix)`. */
  predicate StartsWith(s: string, prefix: string) {
    |prefix| <= |s| && s[..|prefix|] == prefix
  }

  /** `s.includes(sub)`: `sub` occurs at some position of `s`. */
  predicate Contains(s: string, sub: string)
    decreases |s|
  {
    StartsWith(s, sub) || (|s| > 0 && Contains(s[1..], sub))
  }

  /** A string contains every one of its own suffixes' prefixes; in particular
      `a + sub + b` contains `sub`. */
  lemma {:induction false} ContainsMiddle(a: string, sub: string, b: string)
    ensures Contains(a + sub + b, sub)
    decreases |a|
  {
    if |a| == 0 {
      assert a + sub + b == sub + b;
      assert (sub + b)[..|sub|] == sub;
    } else {
      assert (a + sub + b)[1..] == a[1..] + sub + b;
      ContainsMiddle(a[1..], sub, b);
    }
  }

  /** A string that lacks the first character of `sub` does not contain
      `sub`. */
  lemma {:induction false} NotContainsWithoutFirstChar(s: string, sub: string)
    requires |sub| > 0 && sub[0] !in s
    ensures !Contains(s, sub)
    decreases |s|
  {
    if |s| > 0 {
      assert !StartsWith(s, sub) by {
        if |sub| <= |s| {
          assert s[..|sub|][0] == s[0];
        }
      }
      assert sub[0] !in s[1..] by {
        forall i | 0 <= i < |s[1..]| ensures s[1..][i] != sub[0] {
          assert s[1..][i] == s[i + 1];
        }
      }
      NotContainsWithoutFirstChar(s[1..], sub);
    } else {
      assert !StartsWith(s, sub);
    }
  }

  /** JavaScript's StrWhiteSpaceChar: WhiteSpace (TAB, VT, FF, ZWNBSP and every
      Unicode "Zs" space) and LineTerminator (LF, CR, LS, PS). These are the
      characters `trim` removes and `parseInt` skips. */
  predicate IsSpace(c: char) {
    || c == '\t' || c == '\U{000B}' || c == '\U{000C}' || c == '\U{FEFF}'
    || c == ' ' || c == '\U{00A0}' || c == '\U{1680}' || ('\U{2000}' <= c <= '\U{200A}')
    || c == '\U{202F}' || c == '\U{205F}' || c == '\U{3000}'
    || c == '\n' || c == '\r' || c == '\U{2028}' || c == '\U{2029}'
  }

  /** Leading white space removed. */
  function TrimStart(s: string): (r: string)
    ensures |r| <= |s| && r == s[|s| - |r|..]
    ensures |r| > 0 ==> !IsSpace(r[0])
    ensures forall i :: 0 <= i < |s| - |r| ==> IsSpace(s[i])
    decreases |s|
  {
    if |s| > 0 && IsSpace(s[0]) then TrimStart(s[1..]) else s
  }

  /** Trailing white space removed. */
  function TrimEnd(s: string): (r: string)
    ensures |r| <= |s| && r == s[..|r|]
    ensures |r| > 0 ==> !IsSpace(r[|r| - 1])
    ensures forall i :: |r| <= i < |s| ==> IsSpace(s[i])
    decreases |s|
  {
    if |s| > 0 && IsSpace(s[|s| - 1]) then TrimEnd(s[..|s| - 1]) else s
  }

  /** `s.trim()`. */
  function Trim(s: string): string {
    TrimEnd(TrimStart(s))
  }

  /** `s.trim()` is empty exactly when `s` is made of white space only. */
  lemma TrimEmpty(s: string)
    ensures Trim(s) == "" <==> forall i :: 0 <= i < |s| ==> IsSpace(s[i])
  {
    var t := TrimStart(s);
    if |t| > 0 {
      assert s[|s| - |t|] == t[0];
    }
  }

  /** `c.toLowerCase()` for the ASCII letters; every other character is kept. */
  function LowerChar(c: char): char {
    if 'A' <= c <= 'Z' then (c as int + 32) as char else c
  }

  /** `s.toLowerCase()`, on the ASCII letters. */
  function ToLower(s: string): (r: string)
    ensures |r| == |s|
    ensures forall i :: 0 <= i < |s| ==> r[i] == LowerChar(s[i])
  {
    seq(|s|, i requires 0 <= i < |s| => LowerChar(s[i]))
  }

  /** A string without capital letters is its own lower case. */
  lemma ToLowerOfLowerCase(s: string)
    requires forall i :: 0 <= i < |s| ==> !('A' <= s[i] <= 'Z')
    ensures ToLower(s) == s
  {
  }

  /** A string whose characters lower-case one by one to `t` lower-cases
      to `t`. */
  lemma ToLowerIs(s: string, t: string)
    requires |s| == |t|
    requires forall i :: 0 <= i < |s| ==> LowerChar(s[i]) == t[i]
    ensures ToLower(s) == t
  {
  }

  /** `s.split(sep)[0]`: everything before the first `sep`, or all of `s`. */
  function BeforeFirst(s: string, sep: char): (r: string)
    ensures r <= s
    ensures sep !in r
    ensures |r| < |s| ==> s[|r|] == sep
    decreases |s|
  {
    if |s| == 0 || s[0] == sep then [] else [s[0]] + BeforeFirst(s[1..], sep)
  }

  /** `parts.join(sep)`. */
  function Join(parts: seq<string>, sep: string): string
    decreases |parts|
  {
    if |parts| == 0 then ""
    else if |parts| == 1 then parts[0]
    else parts[0] + sep + Join(parts[1..], sep)
  }

  // ---------------------------------------------------------------------
  // Decimal text of integers, and Number.parseInt

  predicate IsDigit(c: char) {
    '0' <= c <= '9'
  }

  predicate AllDigits(s: string) {
    forall i :: 0 <= i < |s| ==> IsDigit(s[i])
  }

  function DigitChar(d: nat): (c: char)
    requires d < 10
    ensures IsDigit(c) && c as int - '0' as int == d
  {
    (d + '0' as int) as char
  }

  function DigitValue(c: char): nat
    requires IsDigit(c)
  {
    c as int - '0' as int
  }

  /** The decimal text of a natural number, without leading zeros. */
  function NatToString(n: nat): (r: string)
    ensures |r| > 0 && AllDigits(r)
    ensures |r| > 1 ==> r[0] != '0'
    decreases n
  {
    if n < 10 then [DigitChar(n)] else NatToString(n / 10) + [DigitChar(n % 10)]
  }

  /** `n.toString()` / `${n}` of an integer. */
  function IntToString(n: int): (r: string)
    ensures |r| > 0
    ensures n < 0 <==> r[0] == '-'
  {
    if n < 0 then "-" + NatToString(-n) else NatToString(n)
  }

  /** The value of a string of decimal digits, most significant first. */
  function DecimalValue(s: string): nat
    requires AllDigits(s)
    decreases |s|
  {
    if |s| == 0 then 0 else DecimalValue(s[..|s| - 1]) * 10 + DigitValue(s[|s| - 1])
  }

  lemma {:induction false} DecimalValueOfNatToString(n: nat)
    ensures DecimalValue(NatToString(n)) == n
    decreases n
  {
    if n >= 10 {
      var pre := NatToString(n / 10);
      var s := pre + [DigitChar(n % 10)];
      assert s[..|s| - 1] == pre;
      DecimalValueOfNatToString(n / 10);
    }
  }

  /** The longest prefix made of decimal digits. */
  function DigitPrefix(s: string): (r: string)
    ensures r <= s && AllDigits(r)
    decreases |s|
  {
    if |s| == 0 || !IsDigit(s[0]) then [] else [s[0]] + DigitPrefix(s[1..])
  }

  lemma {:induction false} DigitPrefixOfDigits(s: string)
    requires AllDigits(s)
    ensures DigitPrefix(s) == s
    decreases |s|
  {
    if |s| > 0 {
      DigitPrefixOfDigits(s[1..]);
    }
  }

  predicate IsHexDigit(c: char) {
    IsDigit(c) || 'a' <= c <= 'f' || 'A' <= c <= 'F'
  }

  function HexDigitValue(c: char): nat
    requires IsHexDigit(c)
  {
    if IsDigit(c) then DigitValue(c)
    else if 'a' <= c <= 'f' then c as int - 'a' as int + 10
    else c as int - 'A' as int + 10
  }

  /** The longest prefix made of hexadecimal digits. */
  function HexPrefix(s: string): (r: string)
    ensures r <= s
    ensures forall i :: 0 <= i < |r| ==> IsHexDigit(r[i])
    decreases |s|
  {
    if |s| == 0 || !IsHexDigit(s[0]) then [] else [s[0]] + HexPrefix(s[1..])
  }

  function HexValue(s: string): nat
    requires forall i :: 0 <= i < |s| ==> IsHexDigit(s[i])
    decreases |s|
  {
    if |s| == 0 then 0 else HexValue(s[..|s| - 1]) * 16 + HexDigitValue(s[|s| - 1])
  }

  /** The magnitude part of `parseInt`: a "0x"/"0X" prefix selects base 16,
      otherwise base 10; at least one digit must follow, and parsing stops at
      the first character that is not a digit of the base. */
  function ParseMagnitude(u: string): Option<nat> {
    if |u| >= 2 && u[0] == '0' && (u[1] == 'x' || u[1] == 'X') then
      var h := HexPrefix(u[2..]);
      if |h| == 0 then None else Some(HexValue(h))
    else
      var d := DigitPrefix(u);
      if |d| == 0 then None else Some(DecimalValue(d))
  }

  /** `Number.parseInt(s)` with no radix: leading white space is skipped, one
      optional sign is read, then the magnitude. `None` is `NaN`. */
  function ParseInt(s: string): Option<int> {
    var t := TrimStart(s);
    var negative := |t| > 0 && t[0] == '-';
    var u := if |t| > 0 && (t[0] == '-' || t[0] == '+') then t[1..] else t;
    match ParseMagnitude(u)
    case None => None
    case Some(m) => Some(if negative then -(m as int) else m)
  }

  /** The magnitude parser reads the decimal text of a natural number back. */
  lemma ParseMagnitudeOfNatToString(n: nat)
    ensures ParseMagnitude(NatToString(n)) == Some(n)
  {
    var u := NatToString(n);
    DigitPrefixOfDigits(u);
    DecimalValueOfNatToString(n);
  }

  /** Reading back the decimal text of an integer gives the integer: what
      `id.toString()` writes, `Number.parseInt` recovers. */
  lemma ParseIntOfIntToString(n: int)
    ensures ParseInt(IntToString(n)) == Some(n)
  {
    var s := IntToString(n);
    var m: nat := if n < 0 then -n else n;
    var d := NatToString(m);
    assert !IsSpace(s[0]) by {
      if n >= 0 { assert IsDigit(d[0]); }
    }
    assert TrimStart(s) == s;
    if n < 0 {
      assert s[1..] == d;
    } else {
      assert IsDigit(s[0]);
    }
    ParseMagnitudeOfNatToString(m);
  }

  /** `parseInt` of a text with no leading digit is `NaN`. */
  lemma ParseIntNoDigits()
    ensures ParseInt("abc") == None
  {
    assert "abc"[0] == 'a';
    assert !IsSpace('a') && !IsDigit('a');
    assert TrimStart("abc") == "abc";
    assert DigitPrefix("abc") == [];
  }

  /** `parseInt` stops at the first character that is not a digit. */
  lemma ParseIntStopsAtNonDigit()
    ensures ParseInt("2abc") == Some(2)
  {
    var s := "2abc";
    assert s[0] == '2' && s[1] == 'a';
    assert !IsSpace('2');
    assert TrimStart(s) == s;
    assert s[1..] == "abc";
    assert DigitPrefix("abc") == [] by { ParseIntNoDigits(); }
    assert DigitPrefix(s) == "2";
    assert "2"[..0] == [];
    assert DecimalValue("2") == 2;
  }

  /** `parseInt` skips leading white space and reads "0x" as base 16. */
  lemma ParseIntHex()
    ensures ParseInt(" 0x3") == Some(3)
  {
    var h := " 0x3";
    assert h[0] == ' ' && h[1..] == "0x3";
    assert "0x3"[0] == '0' && !IsSpace('0');
    assert TrimStart("0x3") == "0x3";
    assert TrimStart(h) == "0x3";
    assert "0x3"[2..] == "3";
    assert "3"[0] == '3' && "3"[1..] == [];
    assert HexPrefix("3") == "3";
    assert "3"[..0] == [];
    assert HexValue("3") == 3;
  }

  /** Distinct integers have distinct decimal texts. */
  lemma IntToStringInjective(a: int, b: int)
    requires IntToString(a) == IntToString(b)
    ensures a == b
  {
    ParseIntOfIntToString(a);
    ParseIntOfIntToString(b);
  }

  /** Equal-prefix cancellation: `p + x == p + y` only if `x == y`. */
  lemma PrefixCancel(p: string, x: string, y: string)
    requires p + x == p + y
    ensures x == y
  {
    assert x == (p + x)[|p|..];
    assert y == (p + y)[|p|..];
  }
}

=== FILE: theme_toggle.dfy ===
/** The theme button of components/theme-toggle.tsx: it flips between the
    dark and the light theme, announces the new theme, and renders nothing
    until it has mounted. The theme store is the `theme` string it reads. */
module ThemeToggle {
  import Toasts
  import opened Wrappers

  /** `theme === "dark" ? "light" : "dark"`: any theme other than dark,
      including "system" or none, goes dark. */
  function NewTheme(theme: string): (r: string)
    ensures r == "light" <==> theme == "dark"
    ensures r == "dark" <==> theme != "dark"
  {
    if theme == "dark" then "light" else "dark"
  }

  /** The two named themes alternate: pressing twice comes back. */
  lemma ToggleTwice(theme: string)
    requires theme == "dark" || theme == "light"
    ensures NewTheme(NewTheme(theme)) == theme
  {
  }

  /** `toggleTheme()`: the new theme and the two-second notice naming it,
      "escuro" for dark and "claro" for light. */
  function Toggle(theme: string): (r: (string, Toasts.ToastProps))
    ensures r.0 == NewTheme(theme)
    ensures r.1.title == Some("Tema alterado para escuro") <==> r.0 == "dark"
    ensures r.1.title == Some("Tema alterado para claro") <==> r.0 == "light"
    ensures Toasts.Expires(r.1.duration) && Toasts.Delay(r.1.duration) == 2000
  {
    var t := NewTheme(theme);
    (t, Toasts.ToastProps(None, Some(if t == "dark" then "Tema alterado para escuro" else "Tema alterado para claro"), None, Some(Toasts.Ms(2000))))
  }

  datatype Icon = Moon | Sun

  /** What the button shows: nothing before mounting, then the moon for the
      dark theme and the sun for any other. */
  function Render(mounted: bool, theme: string): (r: Option<Icon>)
    ensures r.None? <==> !mounted
    ensures r == Some(Moon) <==> mounted && theme == "dark"
    ensures r == Some(Sun) <==> mounted && theme != "dark"
  {
    if !mounted then None else if theme == "dark" then Some(Moon) else Some(Sun)
  }

  /** After a press the icon and the notice tell the same story: the moon
      shows exactly when the notice says "escuro". */
  lemma IconMatchesNotice(theme: string)
    ensures Render(true, Toggle(theme).0) == Some(Moon) <==> Toggle(theme).1.title == Some("Tema alterado para escuro")
  {
  }
}

=== FILE: toasts.dfy ===
/** The notification store of lib/use-toast.ts: the list of toasts on
    screen and the id-to-timeout map, which holds the timeout last set for
    each id. The clock (`Date.now()`) is a parameter, and a timeout is
    represented by the delay it was scheduled with; its expiry is the
    `Expire` event. A timeout whose map entry was overwritten is not
    cleared: it still expires, as an `Expire` of its id. */
module Toasts {
  import opened Wrappers
  import Seqs

  /** A toast id is a string or a number, compared with `===`: the string
      "1" and the number 1 are different ids. */
  datatype ToastId = Str(s: string) | Num(n: int)

  /** JavaScript truthiness of an id: only "" and 0 are falsy. */
  predicate Truthy(id: ToastId) {
    match id
    case Str(s) => s != ""
    case Num(n) => n != 0
  }

  /** A `duration` value: a number of milliseconds, or positive infinity. */
  datatype Duration = Ms(ms: int) | Infinity

  /** What a caller passes: every field optional. The React `action` node is
      not modelled. */
  datatype ToastProps = ToastProps(id: Option<ToastId>, title: Option<string>, description: Option<string>, duration: Option<Duration>)

  /** A toast on screen: the props it was created with and its resolved id. */
  datatype Toast = Toast(id: ToastId, title: Option<string>, description: Option<string>, duration: Option<Duration>)

  datatype ToastState = ToastState(toasts: seq<Toast>, timers: map<ToastId, int>)

  const Empty := ToastState([], map[])

  /** The default auto-dismiss delay. */
  const DefaultDelay: int := 3000

  /** A title-and-description notice, as every caller in the client raises. */
  function Notice(title: string, description: string): ToastProps {
    ToastProps(None, Some(title), Some(description), None)
  }

  /** `props.id || Date.now()`: a truthy given id, else the clock. */
  function ResolveId(given: Option<ToastId>, now: int): (id: ToastId)
    ensures given.Some? && Truthy(given.value) ==> id == given.value
    ensures given.None? || !Truthy(given.value) ==> id == Num(now)
  {
    if given.Some? && Truthy(given.value) then given.value else Num(now)
  }

  /** Whether a toast schedules its own dismissal: `duration !== Infinity`,
      which an absent duration satisfies. */
  predicate Expires(duration: Option<Duration>) {
    duration != Some(Infinity)
  }

  /** `props.duration || 3000`: an absent or zero duration means 3 seconds. */
  function Delay(duration: Option<Duration>): (d: int)
    requires Expires(duration)
    ensures duration.Some? && duration.value.ms != 0 ==> d == duration.value.ms
    ensures duration.None? || duration.value.ms == 0 ==> d == DefaultDelay
  {
    match duration
    case Some(Ms(ms)) => if ms != 0 then ms else DefaultDelay
    case _ => DefaultDelay
  }

  function WithoutId(id: ToastId): Toast -> bool {
    (t: Toast) => t.id != id
  }

  /** `toast(props)` at clock `now`: the toast is appended under its resolved
      id and, unless its duration is infinite, a timeout is set for it and
      recorded in the map under that id. An entry already held under the
      id is overwritten, but its timeout is not cleared and still expires. */
  function Show(st: ToastState, props: ToastProps, now: int): (r: (ToastState, ToastId))
    ensures r.1 == ResolveId(props.id, now)
    ensures r.0.toasts == st.toasts + [Toast(r.1, props.title, props.description, props.duration)]
    ensures Expires(props.duration) ==> r.0.timers == st.timers[r.1 := Delay(props.duration)]
    ensures !Expires(props.duration) ==> r.0.timers == st.timers
  {
    var id := ResolveId(props.id, now);
    var toasts := st.toasts + [Toast(id, props.title, props.description, props.duration)];
    if Expires(props.duration) then
      (ToastState(toasts, st.timers[id := Delay(props.duration)]), id)
    else
      (ToastState(toasts, st.timers), id)
  }

  /** The `dismiss` returned by `toast`, and the timer's own expiry: every
      toast with the id goes, and its timer, if still held, is cleared. */
  function DismissToast(st: ToastState, id: ToastId): (r: ToastState)
    ensures forall i :: 0 <= i < |r.toasts| ==> r.toasts[i].id != id && r.toasts[i] in st.toasts
    ensures forall i :: 0 <= i < |st.toasts| && st.toasts[i].id != id ==> st.toasts[i] in r.toasts
    ensures id !in r.timers
    ensures forall k :: k != id ==> (k in r.timers <==> k in st.timers) && (k in st.timers ==> r.timers[k] == st.timers[k])
  {
    ToastState(Seqs.Filter(st.toasts, WithoutId(id)), st.timers - {id})
  }

  /** The expiry of a timeout set for `id`: the callback removes every toast
      with the id and deletes the id's map entry, even when that entry now
      belongs to a later timeout for the same id. */
  function Expire(st: ToastState, id: ToastId): (r: ToastState)
    ensures forall i :: 0 <= i < |r.toasts| ==> r.toasts[i].id != id && r.toasts[i] in st.toasts
    ensures forall i :: 0 <= i < |st.toasts| && st.toasts[i].id != id ==> st.toasts[i] in r.toasts
    ensures (forall i :: 0 <= i < |st.toasts| ==> st.toasts[i].id != id) ==> r.toasts == st.toasts
    ensures id !in r.timers
    ensures forall k :: k != id ==> (k in r.timers <==> k in st.timers) && (k in st.timers ==> r.timers[k] == st.timers[k])
  {
    DismissToast(st, id)
  }

  /** An expiry keeps the other toasts in order: expiring over toasts
      `a + b` expires over `a` and over `b` separately. */
  lemma ExpireKeepsOrder(a: seq<Toast>, b: seq<Toast>, timers: map<ToastId, int>, id: ToastId)
    ensures Expire(ToastState(a + b, timers), id).toasts
            == Expire(ToastState(a, timers), id).toasts + Expire(ToastState(b, timers), id).toasts
  {
    Seqs.FilterConcat(a, b, WithoutId(id));
  }

  /** A stale timeout deletes a later one's entry: two toasts shown under the
      same id, then one expiry, leave no toast and no entry for the id,
      although the second timeout is still pending. */
  lemma StaleTimeoutDropsLaterEntry(st: ToastState, p1: ToastProps, p2: ToastProps, now: int)
    requires p1.id == p2.id && p1.id.Some? && Truthy(p1.id.value)
    requires Expires(p1.duration) && Expires(p2.duration)
    ensures var id := p1.id.value;
            var r := Expire(Show(Show(st, p1, now).0, p2, now).0, id);
            id !in r.timers && forall i :: 0 <= i < |r.toasts| ==> r.toasts[i].id != id
  {
  }

  /** An infinite toast is not safe from an earlier timer for its id: the
      timer set for the first toast is still held after the second toast
      appears, and when it fires it removes the infinite toast too. */
  lemma StaleTimeoutRemovesInfiniteToast(st: ToastState, p1: ToastProps, p2: ToastProps, now: int)
    requires p1.id == p2.id && p1.id.Some? && Truthy(p1.id.value)
    requires Expires(p1.duration) && p2.duration == Some(Infinity)
    ensures var id := p1.id.value;
            var shown := Show(Show(st, p1, now).0, p2, now).0;
            && id in shown.timers && shown.timers[id] == Delay(p1.duration)
            && shown.toasts[|shown.toasts| - 1] == Toast(id, p2.title, p2.description, Some(Infinity))
            && forall i :: 0 <= i < |Expire(shown, id).toasts| ==> Expire(shown, id).toasts[i].id != id
  {
  }

  /** The hook's `dismiss(toastId?)`: a truthy id dismisses that toast; an
      absent or falsy id dismisses every toast and clears every timer. */
  function Dismiss(st: ToastState, toastId: Option<ToastId>): (r: ToastState)
    ensures toastId.Some? && Truthy(toastId.value) ==> r == DismissToast(st, toastId.value)
    ensures toastId.None? || !Truthy(toastId.value) ==> r == Empty
  {
    if toastId.Some? && Truthy(toastId.value) then DismissToast(st, toastId.value) else Empty
  }

  /** `{ ...t, ...props }`: each field the props carry replaces the toast's,
      including the id. */
  function Merge(t: Toast, props: ToastProps): (r: Toast)
    ensures r.id == props.id.GetOr(t.id)
    ensures r.title == (if props.title.Some? then props.title else t.title)
    ensures r.description == (if props.description.Some? then props.description else t.description)
    ensures r.duration == (if props.duration.Some? then props.duration else t.duration)
  {
    Toast(
      props.id.GetOr(t.id),
      if props.title.Some? then props.title else t.title,
      if props.description.Some? then props.description else t.description,
      if props.duration.Some? then props.duration else t.duration)
  }

  /** The `update` returned by `toast`: every toast with the id is merged with
      the props; the others and the timers are left alone. */
  function Update(st: ToastState, id: ToastId, props: ToastProps): (r: ToastState)
    ensures |r.toasts| == |st.toasts| && r.timers == st.timers
    ensures forall i :: 0 <= i < |st.toasts| ==> r.toasts[i] == (if st.toasts[i].id == id then Merge(st.toasts[i], props) else st.toasts[i])
  {
    st.(toasts := Seqs.Map(st.toasts, (t: Toast) => if t.id == id then Merge(t, props) else t))
  }

  /** Unmounting the hook clears every timer. */
  function Unmount(st: ToastState): (r: ToastState)
    ensures r.toasts == st.toasts && r.timers == map[]
  {
    st.(timers := map[])
  }

  /** Every held timer belongs to a toast on screen. */
  predicate TimersTracked(st: ToastState) {
    forall k :: k in st.timers ==> exists i :: 0 <= i < |st.toasts| && st.toasts[i].id == k
  }

  /** Showing, dismissing and expiring keep every held timer attached to a
      toast on screen. */
  lemma ShowKeepsTimersTracked(st: ToastState, props: ToastProps, now: int)
    requires TimersTracked(st)
    ensures TimersTracked(Show(st, props, now).0)
  {
    var r := Show(st, props, now);
    forall k | k in r.0.timers ensures exists i :: 0 <= i < |r.0.toasts| && r.0.toasts[i].id == k {
      if k == r.1 {
        assert r.0.toasts[|st.toasts|].id == k;
      } else {
        var i :| 0 <= i < |st.toasts| && st.toasts[i].id == k;
        assert r.0.toasts[i].id == k;
      }
    }
  }

  lemma DismissKeepsTimersTracked(st: ToastState, id: ToastId)
    requires TimersTracked(st)
    ensures TimersTracked(DismissToast(st, id))
  {
    var r := DismissToast(st, id);
    forall k | k in r.timers ensures exists i :: 0 <= i < |r.toasts| && r.toasts[i].id == k {
      var i :| 0 <= i < |st.toasts| && st.toasts[i].id == k;
      assert st.toasts[i] in r.toasts;
    }
  }

  /** An update that changes a toast's id leaves its timer behind, attached
      to no toast: its later expiry dismisses nothing on screen. */
  lemma UpdateCanOrphanTimer()
    ensures var st := Show(Empty, ToastProps(Some(Str("a")), None, None, None), 0).0;
            && TimersTracked(st)
            && !TimersTracked(Update(st, Str("a"), ToastProps(Some(Str("b")), None, None, None)))
  {
    var st := Show(Empty, ToastProps(Some(Str("a")), None, None, None), 0).0;
    assert st.toasts[0].id == Str("a");
    var u := Update(st, Str("a"), ToastProps(Some(Str("b")), None, None, None));
    assert u.toasts == [Toast(Str("b"), None, None, None)];
    assert Str("a") in u.timers;
  }

  /** Showing a toast under a fresh id and dismissing it restores the toasts
      and the timers exactly. */
  lemma ShowThenDismiss(st: ToastState, props: ToastProps, now: int)
    requires forall i :: 0 <= i < |st.toasts| ==> st.toasts[i].id != ResolveId(props.id, now)
    requires ResolveId(props.id, now) !in st.timers
    ensures var r := Show(st, props, now);
            DismissToast(r.0, r.1) == st
  {
    var r := Show(st, props, now);
    var t := Toast(r.1, props.title, props.description, props.duration);
    Seqs.FilterConcat(st.toasts, [t], WithoutId(r.1));
    assert Seqs.Filter([t], WithoutId(r.1)) == [] by {
      assert [t][1..] == [];
    }
    assert r.0.timers - {r.1} == st.timers;
  }

  /** Two id-less toasts raised in the same millisecond share an id, and
      dismissing one dismisses both. */
  lemma SameMillisecondShareId(title1: string, title2: string, now: int)
    ensures var a := Show(Empty, Notice(title1, ""), now);
            var b := Show(a.0, Notice(title2, ""), now);
            && a.1 == b.1
            && |b.0.toasts| == 2
            && DismissToast(b.0, a.1).toasts == []
  {
    var a := Show(Empty, Notice(title1, ""), now);
    var b := Show(a.0, Notice(title2, ""), now);
    assert a.1 == b.1;
    assert |b.0.toasts| == 2;
    var p := WithoutId(a.1);
    assert !p(b.0.toasts[0]) && !p(b.0.toasts[1]);
    assert b.0.toasts[1..][1..] == [];
    assert Seqs.Filter(b.0.toasts[1..], p) == [];
    assert Seqs.Filter(b.0.toasts, p) == [];
  }

  /** Falsy ids clear everything: `dismiss("")` and `dismiss(0)` behave like
      `dismiss()`, not like dismissing a toast whose id is "" or 0. */
  lemma FalsyIdDismissesAll(st: ToastState)
    ensures Dismiss(st, Some(Str(""))) == Empty
    ensures Dismiss(st, Some(Num(0))) == Empty
    ensures Dismiss(st, None) == Empty
  {
  }

  /** An update with no fields changes nothing. */
  lemma EmptyUpdateIsIdentity(st: ToastState, id: ToastId)
    ensures Update(st, id, ToastProps(None, None, None, None)) == st
  {
    var r := Update(st, id, ToastProps(None, None, None, None));
    assert r.toasts == st.toasts;
  }
}

=== FILE: tvshows_page.dfy ===
/** The TV shows page, app/tvshows/page.tsx: three genre rows picked by TMDB
    genre id and the popular row of the first five shows. Shows are titled
    by their `name`; their episode counts are random draws in 5..24. */
module TvShowsPage {
  import opened Catalog
  import Genres

  /** The card of a show in a row labelled `genreLabel`. */
  function Card(genreLabel: string, rand: int -> nat): TvShow -> ContentItem {
    (s: TvShow) => ShowItem(s, Draw(rand, s.id, 20, 5), genreLabel)
  }

  /** A genre row: the shows whose `genre_ids` include `genreId`, in order,
      each titled by its name and labelled with the row's genre. */
  function GenreRow(shows: seq<TvShow>, genreId: int, genreLabel: string, rand: int -> nat): (r: seq<ContentItem>)
    ensures Selects(r, shows, ShowHasGenreId(genreId), Card(genreLabel, rand))
    ensures forall i :: 0 <= i < |r| ==> 5 <= r[i].episodes <= 24 && r[i].genre == genreLabel
  {
    Row(shows, ShowHasGenreId(genreId), Card(genreLabel, rand))
  }

  /** Every card of a genre row is titled with the name of a show of that
      genre. */
  lemma RowTitlesAreNames(shows: seq<TvShow>, genreId: int, genreLabel: string, rand: int -> nat, i: nat)
    requires i < |GenreRow(shows, genreId, genreLabel, rand)|
    ensures exists j :: 0 <= j < |shows| && genreId in shows[j].genreIds && GenreRow(shows, genreId, genreLabel, rand)[i].title == shows[j].name
  {
    var r := GenreRow(shows, genreId, genreLabel, rand);
    assert Selects(r, shows, ShowHasGenreId(genreId), Card(genreLabel, rand));
    assert exists j :: 0 <= j < |shows| && ShowHasGenreId(genreId)(shows[j]) && r[i] == Card(genreLabel, rand)(shows[j]);
    var j :| 0 <= j < |shows| && ShowHasGenreId(genreId)(shows[j]) && r[i] == Card(genreLabel, rand)(shows[j]);
    assert r[i].title == shows[j].name;
  }

  function DramaRow(shows: seq<TvShow>, rand: int -> nat): seq<ContentItem> {
    GenreRow(shows, 18, "Drama", rand)
  }

  function ScifiRow(shows: seq<TvShow>, rand: int -> nat): seq<ContentItem> {
    GenreRow(shows, 10765, "Sci-Fi & Fantasia", rand)
  }

  function ActionRow(shows: seq<TvShow>, rand: int -> nat): seq<ContentItem> {
    GenreRow(shows, 10759, "Ação & Aventura", rand)
  }

  function PopularCard(rand: int -> nat): TvShow -> ContentItem {
    (s: TvShow) => ShowItem(s, Draw(rand, s.id, 20, 5), Genres.FirstName(s.genreIds))
  }

  /** The popular row: the first five shows at most, in order, named through
      the full genre table. */
  function Popular(shows: seq<TvShow>, rand: int -> nat): (r: seq<ContentItem>)
    ensures |r| == if |shows| < 5 then |shows| else 5
    ensures forall i :: 0 <= i < |r| ==> r[i].id == shows[i].id && r[i].title == shows[i].name
    ensures forall i :: 0 <= i < |r| ==> r[i].genre == Genres.FirstName(shows[i].genreIds)
  {
    Front(shows, 5, PopularCard(rand))
  }
}

=== FILE: watchlist.dfy ===
/** The list operations of the watchlist store in hooks/use-watchlist.tsx:
    one profile's ordered list of saved titles, and the add, remove and
    membership operations on it, with the notification each one raises. */
module Watchlist {
  import opened Wrappers
  import Seqs

  datatype MediaKind = Movie | TvShow | Anime

  /** A saved title. `addedAt` is the ISO timestamp of insertion, kept opaque. */
  datatype Entry = Entry(id: int, title: string, kind: MediaKind, poster: string, addedAt: string)

  /** What a caller passes to add: an entry without its timestamp. */
  datatype NewItem = NewItem(id: int, title: string, kind: MediaKind, poster: string)

  /** The notifications the store raises; each carries the title it names. */
  datatype Notice = Added(title: string) | AlreadyInList(title: string) | Removed(title: string) {
    function Message(): string {
      match this
      case Added(t) => t + " adicionado à sua lista"
      case AlreadyInList(t) => t + " já está na sua lista"
      case Removed(t) => t + " removido da sua lista"
    }
  }

  /** `isInWatchlist(id)`: `watchlist.some((item) => item.id === id)`. */
  predicate Has(list: seq<Entry>, id: int) {
    exists i :: 0 <= i < |list| && list[i].id == id
  }

  /** No two entries share an id. */
  predicate UniqueIds(list: seq<Entry>) {
    forall i, j :: 0 <= i < j < |list| ==> list[i].id != list[j].id
  }

  /** The count shown by the sidebar badge: `watchlist.length`. */
  function Count(list: seq<Entry>): (n: nat)
    ensures n == |list|
  {
    |list|
  }

  datatype AddOutcome = AddOutcome(list: seq<Entry>, notice: Notice)

  /** `addToWatchlist(item)` at time `now`: an absent id is appended with the
      timestamp and announced as added; a present id leaves the list as it is
      and is announced as already there. */
  function Add(list: seq<Entry>, item: NewItem, now: string): (r: AddOutcome)
    ensures !Has(list, item.id) ==>
              && |r.list| == |list| + 1
              && r.list[..|list|] == list
              && r.list[|list|] == Entry(item.id, item.title, item.kind, item.poster, now)
              && r.notice == Added(item.title)
    ensures Has(list, item.id) ==> r.list == list && r.notice == AlreadyInList(item.title)
    ensures Has(r.list, item.id)
    ensures UniqueIds(list) ==> UniqueIds(r.list)
  {
    if Has(list, item.id) then
      AddOutcome(list, AlreadyInList(item.title))
    else
      var r := list + [Entry(item.id, item.title, item.kind, item.poster, now)];
      assert r[|list|].id == item.id;
      AddOutcome(r, Added(item.title))
  }

  datatype RemoveOutcome = RemoveOutcome(list: seq<Entry>, notice: Option<Notice>)

  function HasOtherId(id: int): Entry -> bool {
    (e: Entry) => e.id != id
  }

  /** `removeFromWatchlist(id)`: every entry with that id is dropped and the
      others keep their order; the title of the first dropped entry is
      announced, and nothing is announced when the id was absent. */
  function Remove(list: seq<Entry>, id: int): (r: RemoveOutcome)
    ensures !Has(r.list, id)
    ensures forall i :: 0 <= i < |list| && list[i].id != id ==> list[i] in r.list
    ensures forall i :: 0 <= i < |r.list| ==> r.list[i] in list
    ensures !Has(list, id) ==> r.list == list && r.notice == None
    ensures Has(list, id) ==> |r.list| < |list| && r.notice.Some? && r.notice.value.Removed?
    ensures UniqueIds(list) ==> UniqueIds(r.list)
  {
    var kept := Seqs.Filter(list, HasOtherId(id));
    var found := Seqs.Find(list, (e: Entry) => e.id == id);
    assert Has(list, id) ==> |kept| < |list| by {
      if Has(list, id) {
        var k :| 0 <= k < |list| && list[k].id == id;
        FilterDropsFailing(list, HasOtherId(id), k);
      }
    }
    assert UniqueIds(list) ==> UniqueIds(kept) by {
      if UniqueIds(list) { FilterKeepsUnique(list, id); }
    }
    RemoveOutcome(kept, if found.Some? then Some(Removed(found.value.title)) else None)
  }

  /** A filter that drops some element is strictly shorter. */
  lemma {:induction false} FilterDropsFailing<T>(s: seq<T>, p: T -> bool, k: nat)
    requires k < |s| && !p(s[k])
    ensures |Seqs.Filter(s, p)| < |s|
    decreases |s|
  {
    if k > 0 {
      FilterDropsFailing(s[1..], p, k - 1);
    }
  }

  /** Filtering a list with unique ids leaves the ids unique. */
  lemma {:induction false} FilterKeepsUnique(list: seq<Entry>, id: int)
    requires UniqueIds(list)
    ensures UniqueIds(Seqs.Filter(list, HasOtherId(id)))
    decreases |list|
  {
    if |list| > 0 {
      var rest := list[1..];
      FilterKeepsUnique(rest, id);
      var fr := Seqs.Filter(rest, HasOtherId(id));
      forall j | 0 <= j < |fr| ensures fr[j].id != list[0].id {
        assert fr[j] in rest;
      }
    }
  }

  /** In a list with unique ids, removing a present id deletes exactly the
      position holding it: the entries before and after are kept, in order. */
  lemma RemoveDeletesPosition(list: seq<Entry>, k: nat)
    requires UniqueIds(list) && k < |list|
    ensures Remove(list, list[k].id).list == list[..k] + list[k + 1..]
    ensures Remove(list, list[k].id).notice == Some(Removed(list[k].title))
  {
    var id := list[k].id;
    Seqs.FilterDeletesOne(list, k, HasOtherId(id));
    var found := Seqs.Find(list, (e: Entry) => e.id == id);
    assert found.Some?;
    var i :| 0 <= i < |list| && list[i] == found.value && forall j :: 0 <= j < i ==> list[j].id != id;
    assert i == k;
  }

  /** Adding an absent item and then removing it restores the list: the two
      actions of a watchlist toggle undo each other. */
  lemma AddThenRemove(list: seq<Entry>, item: NewItem, now: string)
    requires !Has(list, item.id)
    ensures Remove(Add(list, item, now).list, item.id).list == list
  {
    var r := Add(list, item, now).list;
    Seqs.FilterConcat(list, [r[|list|]], HasOtherId(item.id));
    assert r == list + [r[|list|]];
    assert [r[|list|]][1..] == [];
    forall i | 0 <= i < |list| ensures HasOtherId(item.id)(list[i]) { }
  }

  /** Adding the same item twice stores it once: exactly one entry carries its id. */
  lemma AddTwiceStoresOnce(list: seq<Entry>, item: NewItem, t1: string, t2: string)
    requires UniqueIds(list)
    ensures var twice := Add(Add(list, item, t1).list, item, t2).list;
            UniqueIds(twice) && Has(twice, item.id) && twice == Add(list, item, t1).list
  {
  }

  /** The watchlist button of a card: remove the title when it is saved,
      add it otherwise. */
  function Toggle(list: seq<Entry>, item: NewItem, now: string): (r: (seq<Entry>, Option<Notice>))
    ensures Has(r.0, item.id) <==> !Has(list, item.id)
    ensures !Has(list, item.id) ==>
              r.0 == list + [Entry(item.id, item.title, item.kind, item.poster, now)] && r.1 == Some(Added(item.title))
    ensures Has(list, item.id) ==>
              && (forall i :: 0 <= i < |list| && list[i].id != item.id ==> list[i] in r.0)
              && (forall i :: 0 <= i < |r.0| ==> r.0[i] in list)
              && r.1.Some? && r.1.value.Removed?
    ensures UniqueIds(list) ==> UniqueIds(r.0)
  {
    if Has(list, item.id) then
      var out := Remove(list, item.id);
      (out.list, out.notice)
    else
      var out := Add(list, item, now);
      assert out.list == list + [Entry(item.id, item.title, item.kind, item.poster, now)];
      (out.list, Some(out.notice))
  }

  /** Pressing the button twice on an unsaved title leaves the list as it
      was. */
  lemma ToggleTwice(list: seq<Entry>, item: NewItem, t1: string, t2: string)
    requires !Has(list, item.id)
    ensures Toggle(Toggle(list, item, t1).0, item, t2).0 == list
  {
    AddThenRemove(list, item, t1);
  }
}

=== FILE: wrappers.dfy ===
/** Optional values and success/failure results, used wherever the client
    reads a value that may be missing (`undefined`, `null`, a missing storage
    key) or performs a step that may throw. */
module Wrappers {

  /** A value that may be absent: JavaScript's `undefined`/`null` in the client. */
  datatype Option<+T> = None | Some(value: T) {

    /** The wrapped value, or `default` when absent (the `?? default` idiom). */
    function GetOr(default: T): T {
      match this
      case Some(v) => v
      case None => default
    }
  }

  /** The outcome of a step that may raise an error. */
  datatype Result<+R, +E> = Success(value: R) | Failure(error: E)
}
